=== FILE: README.md ===
# tuwat decision logic, modelled in Dafny

tuwat is a dashboard for operations teams. Connectors poll monitoring
systems: Icinga2, Nagios, Alertmanager, Graylog, Wiz.io, Redmine (as a
silencer) and Patchman. The aggregator turns their alerts into one
Aggregate per dashboard:
- alerts covered by a downtime of their own connector are "known";
- the dashboard's rules decide which of the rest are shown and which are blocked;
- shown alerts can be grouped by host and tag; as written the group key is the two run together (see Findings).

The web side serves this data several ways:
- an Alertmanager-compatible `GET /v2/alerts` endpoint, narrowed by an `{a="b", c!="d"}` filter;
- a health actuator;
- a browser page that keeps itself live over a WebSocket, or by reloading every minute, and can hide filtered alerts.

This project models the pure decision logic of those parts as immutable
datatypes and total functions, and proves what the code and its tests
promise about them.

One Dafny module per Go or JS unit:
- **Aggregation core:** `Matching` (rule matching and `allow`), `Downtimes`, `Aggregation` (one aggregation pass), `Grouping`, `AggregatorState` (registrations, activity, `Alerts`, health check).
- **Web side:** `Actuator`, `AlertmanagerFilter`, `AlertmanagerApi`, `WebFormat`.
- **Shared types:** `Connectors` (states and colours), `DashboardModes`, `RuleEngine` (rule types).
- **Trace propagation:** `Propagation` (AMQP header carrier, B3 single-header trace context).
- **Connectors:** `Icinga2`, `NagiosApi`, `AlertmanagerConnector`, `Graylog`, `Wizio`, `Redmine`, `PatchmanCache`.
- **Browser code:** `LiveUpdate` and `ToggleFiltered`.

The helper modules model the parts of Go's standard library the code relies on:
- `Wrappers` (Option and Result);
- `GoStrings` (UTF-8, `strings.Split`/`Join`);
- `Decimal` (`strconv` integers);
- `GoTime` (instants, durations, `Duration.String`);
- `Sorting` (`sort.Slice`, `slices.Sort`).

Modelling conventions:
- **Instants:** integers counting nanoseconds since Go's zero `time.Time`.
- **Map iteration order:** a sequence parameter. Where the Go result is deterministic, a lemma proves that the order does not matter.
- **Regular expressions and rule matchers:** opaque `string -> bool` predicates.
- **Callbacks and timers in the JS code:** explicit events of a state machine.

Where the code disagrees with itself or with its documentation, the model follows the code:
- `aggregator.go` also defines `downtimeDescription` and `niceDate`, without the 100-byte cut, which clash with the methods of the same names in `downtime.go`. The model follows `downtime.go`.
- Redmine's `getSilence` reads `issue.ClosedOn`, which the `issue` struct in `redmine/api.go` lacks. The model gives the issue a `closedOn` field, as the silencer code evidently expects.

## Model

| member | source | states |
|---|---|---|
| AggregatorState.NewAggregator | pkg/aggregation/aggregator.go:104-128 | a configured interval of 0 becomes one minute, any other is kept; nobody is registered, nothing is stored, and the last access is the creation time |
| AggregatorState.ActiveIff | pkg/aggregation/aggregator.go:139-153 | collection is inactive exactly when no client is registered and the last access lies more than three intervals back |
| AggregatorState.Register | pkg/aggregation/aggregator.go:468-480 | the handler joins the registrations and nothing else changes |
| AggregatorState.Unregister | pkg/aggregation/aggregator.go:482-488 | the handler leaves the registrations and nothing else changes |
| AggregatorState.RegisteredIsActive | pkg/aggregation/aggregator.go:139-144 | a registered client keeps collection active whatever the clock says |
| AggregatorState.RegisterUnregister | pkg/aggregation/aggregator.go:468-488 | registering a new client and unregistering it restores the aggregator exactly |
| AggregatorState.Store | pkg/aggregation/aggregator.go:385-394 | the dashboard's Aggregate is replaced and the check time set; other dashboards, registrations and last access are untouched |
| AggregatorState.AlertsFor | pkg/aggregation/aggregator.go:450-466 | the access is recorded; the named dashboard is served, or the only one when the name is empty and exactly one exists, otherwise an empty Aggregate |
| AggregatorState.StoreThenServe | pkg/aggregation/aggregator.go:385-466 | what a pass stored under a name is what that name is served |
| AggregatorState.ServingKeepsActive | pkg/aggregation/aggregator.go:139-153 | serving a page keeps collection active for three more intervals |
| AggregatorState.HealthCheck | pkg/aggregation/health.go:9-23 | STARTING/out of service before the first pass, OLD/down when active and the pass is older than three intervals, OK/up when active and fresh, INACTIVE/unknown otherwise |
| AggregatorState.HealthUnavailableIff | pkg/aggregation/health.go:9-23 | the check makes the actuator answer 503 exactly when no pass has run yet or collection is active and the last pass is stale |
| Matching.SecondsText | pkg/aggregation/aggregator.go:556-561 | the age text reads back as the age in whole seconds, rounded half to even, and has a minus sign exactly for negative ages |
| Matching.LabelWrites | pkg/aggregation/aggregator.go:563-572 | the label loop yields a write per rule label exactly when every label the rule names is on the alert, keyed by the alert's value |
| Matching.MatcherWrites | pkg/aggregation/aggregator.go:546-572 | a rule's matcher map is built exactly when no label it names is missing from the alert |
| Matching.CollapseKeys | pkg/aggregation/aggregator.go:546-572 | the matcher map's keys are exactly the alert values written |
| Matching.CollapseLastWriteWins | pkg/aggregation/aggregator.go:546-572 | the last write to an alert value decides its matcher |
| Matching.EqualValuesCollapse | pkg/aggregation/aggregator.go:564-571 | two matchers keyed by the same alert value leave only the second |
| Matching.EqualValuesExample | pkg/aggregation/aggregator.go:564-584 | with two labels of equal value, a rule matches although the first label's matcher rejects the value |
| Matching.MatchCountFull | pkg/aggregation/aggregator.go:576-582 | the match count reaches the map size exactly when every matcher accepts its key |
| Matching.RuleMatchesIff | pkg/aggregation/aggregator.go:544-584 | a rule matches iff no label it names is missing, its matcher map is non-empty, and every matcher accepts its key |
| Matching.MissingLabelSkips | pkg/aggregation/aggregator.go:564-569 | a rule naming a label the alert lacks never matches |
| Matching.WhatMismatchIgnored | pkg/aggregation/aggregator.go:549-554 | a `what` matcher that rejects the description is left out, so the rule behaves as if it had none |
| Matching.WhatOnlyRule | pkg/aggregation/aggregator.go:549-582 | a rule with only a `what` matcher matches exactly the alerts whose description it accepts |
| Matching.MatchAlert | pkg/aggregation/aggregator.go:543-588 | the result is the index of the first matching rule; there is none exactly when no rule matches |
| Matching.MatchedRule | pkg/aggregation/aggregator.go:583-587 | the matched rule itself, or the zero rule when none matches |
| Matching.Allow | pkg/aggregation/aggregator.go:524-539 | including: empty iff matched, else "Unmatched"; excluding: the first matching rule's description, empty when none; any other mode is the panic |
| Matching.ExcludingEmptyDescriptionShows | pkg/aggregation/aggregator.go:535-536 | a matching rule with an empty description still lets the alert through an excluding dashboard |
| Matching.EmptyFilter | pkg/aggregation/aggregator.go:524-539 | without rules an excluding dashboard shows every alert and an including one blocks every alert |
| Downtimes.ClassifyDate | pkg/aggregation/downtime.go:32-45 | buckets d = now - t from the top: over two days "until", over two hours hours, over two minutes minutes, above zero seconds, else "ended", which is exactly when t is not before now |
| Downtimes.FutureEndReadsEnded | pkg/aggregation/downtime.go:40-44 | an end time at or after now is described as ended |
| Downtimes.ClassifyDateIntended | pkg/aggregation/downtime.go:32-45 | the corrected buckets of the time left until t, d = t - now, so a date reads "ended" exactly when it is not after now |
| Downtimes.EndInAnHourIntended | pkg/aggregation/downtime.go:32-45 | an end an hour ahead reads "for 60m" corrected and "ended" as written; an end an hour past reads "ended" corrected and "for 60m" as written |
| Downtimes.DowntimeDescription | pkg/aggregation/downtime.go:24-30 | the full "Downtimed <date>: <comment>" when at most 100 bytes, else its first 99 bytes plus the three-byte ellipsis; never over 102 bytes |
| Downtimes.DescriptionPrefix | pkg/aggregation/downtime.go:25-28 | every description starts with the bytes of "Downtimed " |
| Downtimes.DowntimeRules | pkg/aggregation/downtime.go:11-22 | one rule per downtime, in order, with the downtime's matchers as labels and its description |
| Aggregation.FailureAlert | pkg/aggregation/aggregator.go:294-304 | a failed collection gives a red alert for host "tuwat" naming the connector, with the error as details and no label map |
| Aggregation.NonEmptyLabels | pkg/aggregation/aggregator.go:315-321 | a label is kept exactly when its value is non-empty, with that value |
| Aggregation.BuildAlert | pkg/aggregation/aggregator.go:306-346 | the dashboard alert carries the connector alert's text, its age, its state's colour, its non-empty labels, and a silence link exactly when silenceable |
| Aggregation.DowntimeLabels | pkg/aggregation/aggregator.go:306-313 | a known alert gets its downtime's start and end as Unix seconds and the author, with other labels kept |
| Aggregation.PlaceAlertDecides | pkg/aggregation/aggregator.go:306-363 | an alert the first matching downtime of its own connector covers is known, with that downtime's labels and comment; otherwise it is shown iff `allow` gives "", blocked with the reason otherwise, and an unknown mode fails |
| Aggregation.Add | pkg/aggregation/aggregator.go:348-363 | a placement lands in exactly one list, which grows by one, and the others are unchanged |
| Aggregation.PlaceAlerts | pkg/aggregation/aggregator.go:306-363 | the alerts of a result land in order, each at the end of the list `PlaceAlert` picks for it, and nothing else changes; the result is an error exactly when one of them cannot be placed |
| Aggregation.PlaceResult | pkg/aggregation/aggregator.go:294-363 | a failed result's alert is shown first, then each alert lands in order where `PlaceAlert` puts it; one entry per alert plus one for a failure; an error exactly when an alert cannot be placed |
| Aggregation.PlaceAll | pkg/aggregation/aggregator.go:292-365 | the three lists are exactly the in-order placements of every result, result after result; one entry per collected alert plus one per failed connector; an error exactly when some alert cannot be placed, which only an unknown mode causes |
| Aggregation.ShownMember | pkg/aggregation/aggregator.go:292-365 | an alert is shown exactly when `PlaceAlert` shows one of the collected alerts as it, or it is the failure alert of a failed result |
| Aggregation.BlockedMember | pkg/aggregation/aggregator.go:292-365 | an entry is blocked exactly when `PlaceAlert` blocks one of the collected alerts as it |
| Aggregation.KnownMember | pkg/aggregation/aggregator.go:292-365 | an entry is known exactly when `PlaceAlert` finds one of the collected alerts covered by a downtime, as it |
| Aggregation.Aggregate | pkg/aggregation/aggregator.go:282-427 | blocked and known lists are age-ordered permutations of the placed ones; shown alerts are an age-ordered list, or grouped as written: nothing lost or duplicated, each group age-ordered with all its alerts sharing its `Where + Tag` key, no two groups with one key, each labelled by the first alert collected for its key, groups ordered by first alert |
| Aggregation.AggregateIntended | pkg/aggregation/aggregator.go:282-427 | as `Aggregate`, but grouped by the (host, tag) pair: each group holds only alerts of its pair and no two groups share a pair |
| Grouping.AddAlertSpec | pkg/aggregation/aggregator.go:402-413 | the grouping step keeps the buckets well formed and adds exactly the alert |
| Grouping.BucketHoldsAlert | pkg/aggregation/aggregator.go:402-413 | for every input alert there is exactly one bucket with its key, and it holds the alert |
| Grouping.GroupAlerts | pkg/aggregation/aggregator.go:399-427 | every alert in exactly one group; groups hold only their host and tag, are ordered by age, have distinct host-tag pairs, and are ordered by their first alert |
| Grouping.PermFlattenGroups | pkg/aggregation/aggregator.go:420-424 | reordering groups does not change the alerts they hold |
| Grouping.PermNoDup | pkg/aggregation/aggregator.go:420-424 | reordering groups keeps any labelling of them, pair or key, free of repeats |
| Grouping.GroupAlertsAsWritten | pkg/aggregation/aggregator.go:399-427 | every alert in exactly one group; each group non-empty, age-ordered, and all its alerts share the group's `Where + Tag` key; no two groups share a key; each group carries the host and tag of the first alert collected for its key; groups ordered by first alert |
| Grouping.CollisionExample | pkg/aggregation/aggregator.go:402 | host "ab" tag "c" and host "a" tag "bc" share one group as written, and a group labelled "ab" holds host "a"'s alert |
| Grouping.SeparateBuckets | pkg/aggregation/aggregator.go:399-427 | grouping by the pair puts those two alerts into different groups |
| Actuator.PriorityOf | pkg/web/actuator/health.go:105-112 | the position in the priority list Up < Unknown < OutOfService < Down, -1 exactly for an unlisted status |
| Actuator.NewHealth | pkg/web/actuator/health.go:39-46 | a new actuator reports UNKNOWN with no components |
| Actuator.Worst | pkg/web/actuator/health.go:95-103 | the listed status of highest priority among the inputs, UP when none is listed |
| Actuator.BubbleUpIsWorst | pkg/web/actuator/health.go:95-103 | whatever the map order, the bubbling loop ends on the worst status seen |
| Actuator.Rollup | pkg/web/actuator/health.go:95-103 | the overall status is the worst component status, for any iteration order |
| Actuator.Set | pkg/web/actuator/health.go:86-93 | only that check's component is overwritten, and the overall status becomes the worst of the components |
| Actuator.ExplicitCode | pkg/web/actuator/health.go:64-73 | DOWN and OUT_OF_SERVICE set 503, UP and UNKNOWN set 200, an unlisted status sets none |
| Actuator.ResponseCode | pkg/web/actuator/health.go:64-73 | the client sees 503 exactly for DOWN and OUT_OF_SERVICE, 200 otherwise |
| Actuator.OutOfServiceThenUp | pkg/web/actuator/health_test.go:13-28 | setting OUT_OF_SERVICE and then UP on one check answers 200 |
| Actuator.UnlistedStatusIgnored | pkg/web/actuator/health.go:95-112 | a new component with an unlisted status never changes the overall status |
| Connectors.Colour | pkg/connectors/state.go:12-23 | OK green, Warning yellow, Critical red, and every other value grey |
| Connectors.NamedStatesDistinct | pkg/connectors/state.go:5-22 | the named states are 0 to 3 and have four different colours |
| DashboardModes.ModeName | pkg/config/dashboardMode.go:21-30 | "including" exactly for Including, "excluding" exactly for Excluding, "unknown" otherwise |
| DashboardModes.ParseMode | pkg/config/dashboardMode.go:41-56 | "including"/"include" give Including, "excluding"/"exclude" give Excluding, other strings an error, a non-string the panic |
| DashboardModes.ParseModeName | pkg/config/dashboardMode.go:21-52 | reading back a known mode's name gives the mode |
| DashboardModes.UnknownNameRejected | pkg/config/dashboardMode.go:21-56 | the name of any other mode does not read back |
| AlertmanagerFilter.SkipSeparators | pkg/web/api/alertmanager/filter.go:50-56 | the scan resumes at the first character that is not '{', ',' or ' ' |
| AlertmanagerFilter.ParsePrefix | pkg/web/api/alertmanager/filter.go:83-94 | the operator is the maximal run of '~', '!' and '=' |
| AlertmanagerFilter.ParseFieldAsWritten | pkg/web/api/alertmanager/filter.go:72-82 | the field ends at the first operator character; without one the loop never returns |
| AlertmanagerFilter.ParseStringAsWritten | pkg/web/api/alertmanager/filter.go:96-107 | one rune is discarded, then the value is the quote-free text up to the next '"', and the scan resumes after that quote; at the end of input, or without a later quote, the loop never returns |
| AlertmanagerFilter.ScanAsWritten | pkg/web/api/alertmanager/filter.go:50-70 | separators are skipped and a '}' after them ends the filter with the empty matcher, resuming just past the brace |
| AlertmanagerFilter.ScanReads | pkg/web/api/alertmanager/filter.go:50-107 | otherwise the scan never returns when no operator character follows; when it returns, the field is the text up to the first operator character, the operator the run of operator characters after it, and the value the quote-free text after one skipped rune up to the next quote |
| AlertmanagerFilter.WrittenChain | pkg/web/api/alertmanager/filter.go:15-70 | the result is the triples of successive scans, each starting where the last stopped, up to the first scan without a field; there is no answer exactly when a scan along the way never returns |
| AlertmanagerFilter.NonTerminatingInputs | pkg/web/api/alertmanager/filter.go:39-82 | the empty filter and a filter without braces never finish as written |
| AlertmanagerFilter.FilterChain | pkg/web/api/alertmanager/filter.go:15-25 | the terminating parser's result is the triples of successive scans, each starting where the last stopped, up to the first scan without a field |
| AlertmanagerFilter.ParseFilterAgrees | pkg/web/api/alertmanager/filter.go:15-107 | wherever the scanner as written returns, the terminating one returns the same matchers |
| AlertmanagerFilter.TerminatingInputs | pkg/web/api/alertmanager/filter.go:15-70 | the terminating scanner reads the empty filter as no matchers and a brace-less one as its single matcher |
| AlertmanagerFilter.SingleMatcher | pkg/web/api/alertmanager/web_test.go:16-22 | `{a="b"}` gives one matcher on field "a" |
| AlertmanagerFilter.ThreeMatchers | pkg/web/api/alertmanager/web_test.go:26-32 | the three-matcher filter gives fields "a", "c" and "eeee" in order |
| AlertmanagerFilter.BraceEndsScan | pkg/web/api/alertmanager/filter.go:51-59 | after separators, '}' ends the scan with the empty matcher |
| AlertmanagerApi.Flag | pkg/web/api/alertmanager/web.go:80-89 | a flag is on exactly when absent or "true" |
| AlertmanagerApi.Severity | pkg/web/api/alertmanager/web.go:159-166 | red gives "critical", yellow "warning", anything else "" |
| AlertmanagerApi.Candidates | pkg/web/api/alertmanager/web.go:97-122 | green alerts are never reported; every non-green shown or grouped alert is there as active and every non-green blocked one as suppressed, and an active entry is always a shown or grouped alert and a suppressed one always a blocked alert |
| AlertmanagerApi.MapAlertAsWritten | pkg/web/api/alertmanager/web.go:156-182 | mapping fails exactly on an alert without a label map; otherwise the annotations are the labels with dashboard and severity, and the fingerprint is the id |
| AlertmanagerApi.MapAlert | pkg/web/api/alertmanager/web.go:156-182 | the annotations are the labels plus dashboard and severity, the fingerprint is the alert id, and the state is kept |
| AlertmanagerApi.MapAlertAgrees | pkg/web/api/alertmanager/web.go:156-182 | wherever the alert has a label map, both mappings agree |
| AlertmanagerApi.FailureAlertPanics | pkg/web/api/alertmanager/web.go:157-158 | the collection-failure alert is one whose mapping as written panics |
| AlertmanagerApi.Retain | pkg/web/api/alertmanager/web.go:124-148 | the deletion keeps exactly the accepted alerts, with their multiplicities |
| AlertmanagerApi.MatchedFiltersIff | pkg/web/api/alertmanager/web.go:135-148 | an alert stays exactly when every filter's annotation exists and its matcher accepts it |
| AlertmanagerApi.Narrow | pkg/web/api/alertmanager/web.go:124-148 | an alert stays iff its state is not deleted by `active`/`inhibited` and every filter holds |
| AlertmanagerApi.ParseAll | pkg/web/api/alertmanager/web.go:90-95 | the matchers of every `filter` value, together |
| AlertmanagerApi.Collect | pkg/web/api/alertmanager/web.go:97-122 | the dashboards are served in configuration order; a candidate is collected exactly when it is a candidate of some dashboard's served aggregate; serving any dashboard records the access time |
| AlertmanagerApi.Alerts | pkg/web/api/alertmanager/web.go:77-154 | an alert is reported exactly when it is a non-green alert of a dashboard, in a state the query keeps, and every filter holds |
| AlertmanagerApi.AlertsAsWritten | pkg/web/api/alertmanager/web.go:77-154 | a never-finishing filter hangs the request; otherwise a reported alert without a label map fails it |
| AlertmanagerApi.AlertsAgree | pkg/web/api/alertmanager/web.go:77-154 | wherever the handler as written serves, it serves what `Alerts` does |
| AlertmanagerApi.EmptyFilterHangs | pkg/web/api/alertmanager/web.go:90-95 | an empty `filter` value hangs the request |
| AlertmanagerApi.CollectionFailureFails | pkg/web/api/alertmanager/web.go:97-158 | a shown collection failure makes the request fail as written, while the corrected handler reports it as critical |
| WebFormat.Classify | pkg/web/web.go:285-297 | the buckets are exclusive and tested from days down: over two days, over two hours, over two minutes, above zero, else raw; the amount is the nearest whole unit |
| WebFormat.NiceDuration | pkg/web/web.go:285-297 | a positive duration prints as digits and its unit letter; zero and negative ones print as Go's duration text |
| WebFormat.NiceDurationReadsBack | pkg/web/web.go:285-293 | the printed number times its unit is within half a unit of the duration |
| WebFormat.NiceDurationExamples | pkg/web/web.go:285-297 | three days print as "3d", ninety minutes as "90m", two minutes as "120s" |
| Propagation.Descend | pkg/log/propagation/carrier.go:15-21 | one nested table per dot segment, staying put when a segment is not a table |
| Propagation.Render | pkg/log/propagation/carrier.go:23-50 | strings verbatim, booleans "1"/"0", int32 and uint32 in decimal, float64 as its text; other integer widths, float32, tables and other values give "" |
| Propagation.RenderIntended | pkg/log/propagation/carrier.go:23-50 | every integer width in decimal and both float widths as their text; strings and booleans as `Render` gives them |
| Propagation.Get | pkg/log/propagation/carrier.go:14-51 | text comes only from a string, bool, float64, int32 or uint32 found where the key leads, and non-empty text is what the intended reading gives |
| Propagation.GetIntended | pkg/log/propagation/carrier.go:14-51 | every integer found where the key leads, of any width, reads back as its value |
| Propagation.Set | pkg/log/propagation/carrier.go:53-63 | only the key's last segment can become a new top-level key; top-level entries off the key's path keep their values; no table is created |
| Propagation.Keys | pkg/log/propagation/carrier.go:65-94 | a dot-free key is listed exactly when it is a top-level string, bool or float64 entry |
| Propagation.KeysIntended | pkg/log/propagation/carrier.go:65-94 | lists every key the written `Keys` lists, and every top-level scalar of any width |
| Propagation.GetSet | pkg/log/propagation/carrier.go:14-63 | reading a key just written gives the written string back |
| Propagation.TopLevelKeys | pkg/log/propagation/carrier.go:23-94 | a dot-free top-level key reads as its rendered value and is listed exactly when its value is a string, bool or float64, so int32 and uint32 values render but are not listed |
| Propagation.NestedKeys | pkg/log/propagation/carrier.go:66-94 | a key one table down is read from as "a.b"; it is listed as "a.b" when its value is a string, bool or float64 |
| Propagation.IntegerHeaderLost | pkg/log/propagation/carrier.go:33-90 | a 64-bit integer header reads as "" and is not listed, while the intended carrier formats it |
| Propagation.CarrierExample | pkg/log/propagation/carrier_test.go:14-31 | setting "a.b" where table "a" exists writes into "a", reads back "c" and lists "a.b" beside "d" |
| Propagation.FixB3Tid | pkg/log/propagation/span.go:7-12 | a 16-character id gets 16 leading zeros, any other is unchanged, and the input is always a suffix |
| Propagation.FixB3TidIdempotent | pkg/log/propagation/span.go:7-12 | widening twice is widening once |
| Propagation.FixB3TidValid | pkg/log/propagation/span.go:7-12 | a valid 64-bit trace id widens to a valid 128-bit one |
| Propagation.ParseFlags | pkg/log/propagation/b3.go:65-69 | flags are read only from a third chunk of one decimal digit |
| Propagation.ExtractB3 | pkg/log/propagation/b3.go:43-72 | fewer than two chunks or an unparsable id give the empty context; the trace id is widened first |
| Propagation.Extract | pkg/log/propagation/b3.go:31-37 | a valid extraction becomes the remote context; otherwise the context is unchanged |
| Propagation.InjectAsWritten | pkg/log/propagation/b3.go:18-29 | invalid contexts write nothing; otherwise "trace-span-flags" with only the sampled bit, as two hex digits |
| Propagation.Inject | pkg/log/propagation/b3.go:18-29 | as above but with the one-digit sampling state of the B3 single-header format |
| Propagation.SampledBitLost | pkg/log/propagation/b3.go:27-69 | a sampled context injected as written extracts as unsampled |
| Propagation.InjectExtract | pkg/log/propagation/b3.go:18-72 | with the one-digit state, extraction gives back the injected context with its sampled bit |
| Propagation.CarrierRoundTrip | pkg/log/propagation/b3.go:18-37 | a header set through the carrier is the one extraction reads |
| Icinga2.HostAlert | pkg/connectors/icinga2/connector.go:61-79 | a host alert has type "Host", the host's state, "Host down" and the host output |
| Icinga2.ServiceAlert | pkg/connectors/icinga2/connector.go:94-112 | a service alert has type "Service", the service's state, zone, display name and output |
| Icinga2.HostAlerts | pkg/connectors/icinga2/connector.go:49-80 | exactly the hosts neither acknowledged, muted, in downtime nor up raise an alert |
| Icinga2.ServiceAlerts | pkg/connectors/icinga2/connector.go:82-113 | exactly the services on no alerting host and neither muted, in downtime nor OK raise an alert |
| Icinga2.Collect | pkg/connectors/icinga2/connector.go:36-116 | every alert is non-OK and typed Host or Service; every reported host and service is there |
| Icinga2.HostAlertHidesServices | pkg/connectors/icinga2/connector.go:79-85 | no service of an alerting host is reported |
| Icinga2.AcknowledgementOnlyForHosts | pkg/connectors/icinga2/connector.go:51-92 | an acknowledged host stays quiet while an acknowledged service is reported |
| Icinga2.ServiceAcknowledgementIgnored | pkg/connectors/icinga2/connector.go:84-92 | whether a service is reported never depends on its acknowledgement |
| NagiosApi.StateOf | pkg/connectors/nagiosapi/connector.go:49-84 | a state that parses within 32 bits is that number; an unparsable one is 0 |
| NagiosApi.StartOf | pkg/connectors/nagiosapi/connector.go:53-63 | an alert starts at a whole second whose Unix time is the parsed `last_state_change` |
| NagiosApi.HostAlerts | pkg/connectors/nagiosapi/connector.go:42-107 | a skipped host gives nothing, a host not up gives only its host alert, an up host gives its services' alerts |
| NagiosApi.ServiceAlerts | pkg/connectors/nagiosapi/connector.go:75-107 | exactly the services neither OK, muted nor acknowledged raise an alert |
| NagiosApi.Collect | pkg/connectors/nagiosapi/connector.go:34-111 | an alert is reported exactly when one of the hosts yields it |
| NagiosApi.DownHostHidesServices | pkg/connectors/nagiosapi/connector.go:48-73 | a host that is not up reports only "Host down" |
| NagiosApi.ServiceReported | pkg/connectors/nagiosapi/connector.go:75-107 | on an up host, an unskipped service is reported with its parsed state |
| NagiosApi.UnparsableDowntimeIgnored | pkg/connectors/nagiosapi/connector.go:46 | a downtime depth that does not parse does not silence the host |
| AlertmanagerConnector.StateOf | pkg/connectors/alertmanager/connector.go:78-94 | active with critical/error is Critical, active with warning or no severity is Warning, and everything else Unknown |
| AlertmanagerConnector.K8sLabels | pkg/connectors/alertmanager/connector.go:151-159 | the values of exactly the needles present, never more than the needles |
| AlertmanagerConnector.K8sLabelsAllPresent | pkg/connectors/alertmanager/connector.go:151-159 | with every needle present, the values come one for one in needle order |
| AlertmanagerConnector.Tags | pkg/connectors/alertmanager/connector.go:123-130 | the source labels plus Cluster, Namespace and Source defaults, with source labels overriding them |
| AlertmanagerConnector.ToAlert | pkg/connectors/alertmanager/connector.go:78-141 | state by `StateOf`, alertname as description, summary and description as details, source labels kept, a runbook link when annotated |
| AlertmanagerConnector.Collect | pkg/connectors/alertmanager/connector.go:42-145 | an empty answer gives the dead man's switch; otherwise exactly the unskipped alerts are reported |
| AlertmanagerConnector.DeadMansSwitchOnlyWhenEmpty | pkg/connectors/alertmanager/connector.go:50-62 | the critical "DeadMansSwitch dead" alert appears exactly when nothing was fetched |
| AlertmanagerConnector.SkippedChangesNothing | pkg/connectors/alertmanager/connector.go:64-76 | a suppressed, silenced or severity-"none" alert changes nothing once anything else was fetched |
| AlertmanagerConnector.ReportedHaveDefaults | pkg/connectors/alertmanager/connector.go:123-130 | every reported alert has the Cluster, Namespace and Source labels |
| Graylog.PriorityLabel | pkg/connectors/graylog/connector.go:187-198 | Low, Normal and High exactly for their priorities, Unknown for any other |
| Graylog.PriorityState | pkg/connectors/graylog/connector.go:200-211 | high is Critical, low and normal Warning, anything else Unknown |
| Graylog.LabelAgreesWithState | pkg/connectors/graylog/connector.go:187-211 | the priority label and the state's colour tell the same story |
| Graylog.EventTypeLabel | pkg/connectors/graylog/connector.go:213-218 | "Alert" exactly for alerts, "Event" otherwise |
| Graylog.TimeRangeSeconds | pkg/connectors/graylog/connector.go:95-98 | the configured range, 600 when none is configured |
| Graylog.AggregationIdOrderIndependent | pkg/connectors/graylog/connector.go:220-230 | the aggregation id does not depend on the order the group-by fields are visited |
| Graylog.FirstPerIdKeepsOnePerId | pkg/connectors/graylog/connector.go:52-58 | the kept events have distinct ids, and every event's id is kept |
| Graylog.FirstOccurrenceKept | pkg/connectors/graylog/connector.go:54-58 | an event whose id appeared neither before nor in the seen list is kept: the first occurrence wins |
| Graylog.ToAlert | pkg/connectors/graylog/connector.go:60-83 | the alert has the priority's state and label, the event type, the streams joined by commas, and the definition's description |
| Graylog.Collect | pkg/connectors/graylog/connector.go:43-88 | one alert per first event of each aggregation id, in search order |
| Graylog.CollectCoversOncePerId | pkg/connectors/graylog/connector.go:43-88 | every event on every page is represented, and no aggregation id twice |
| Graylog.DuplicateDropped | pkg/connectors/graylog/connector.go:54-58 | of two events of one aggregation only the first is kept |
| Graylog.CollectPagesDone | pkg/connectors/graylog/connector.go:100-115 | paging ends at the first empty page, keeping exactly the pages before it |
| Graylog.CollectPagesFails | pkg/connectors/graylog/connector.go:104-108 | an error before the first empty page ends paging with that error and nothing kept |
| Graylog.CollectPages | pkg/connectors/graylog/connector.go:94-115 | kept pages are all non-empty and fewer than the replies; a failure carries an error some reply gave; paging goes on exactly when every reply so far is a non-empty page |
| Wizio.MapState | pkg/connectors/wizio/connector.go:267-282 | CRITICAL is Critical, HIGH/MEDIUM/LOW/INFORMATION Warning, anything else Unknown |
| Wizio.IssueCount | pkg/connectors/wizio/connector.go:198-201 | the configured page size, 10 when unset |
| Wizio.ToAlert | pkg/connectors/wizio/connector.go:45-64 | seven labels from the entity, state by severity, "Issue: " plus the first rule's name, its description as details |
| Wizio.Collect | pkg/connectors/wizio/connector.go:36-68 | one alert per issue in order, or a failure exactly when some issue has no source rule |
| Wizio.CollectConcat | pkg/connectors/wizio/connector.go:44-65 | collecting two batches together is collecting each and concatenating |
| Wizio.RulelessIssueFails | pkg/connectors/wizio/connector.go:45 | one issue without rules spoils the whole answer |
| Redmine.FoundReachesSize | pkg/connectors/redmine/silencer.go:53-62 | the found count reaches the silence's size exactly when its labels are a subset of the alert's |
| Redmine.NewSilencer | pkg/connectors/redmine/silencer.go:29-35 | a new silencer silences nothing, in any iteration order |
| Redmine.Silenced | pkg/connectors/redmine/silencer.go:48-73 | the cached silence of the first covering, refreshed id in iteration order, else the zero silence |
| Redmine.SilencedOrderIndependent | pkg/connectors/redmine/silencer.go:48-73 | when the covering silences agree, the iteration order does not matter |
| Redmine.BroaderSilencesMatch | pkg/connectors/redmine/silencer.go:53-62 | a label-less silence covers every alert; one with labels needs all of them |
| Redmine.SetSilence | pkg/connectors/redmine/silencer.go:88-103 | the id now carries the labels; other silences and the cache are unchanged |
| Redmine.DeleteSilence | pkg/connectors/redmine/silencer.go:105-119 | the id is gone; other silences and the cache are unchanged |
| Redmine.DeleteUndoesSet | pkg/connectors/redmine/silencer.go:88-119 | deleting what was just set restores the silences |
| Redmine.LastIndex | pkg/connectors/redmine/silencer.go:163-168 | the last position whose issue number prints as the id, -1 when there is none |
| Redmine.GetSilence | pkg/connectors/redmine/silencer.go:151-181 | succeeds exactly when the id is numeric and an issue carries it; then id, labels and issue URL are set, and silenced iff the issue is not closed |
| Redmine.Refresh | pkg/connectors/redmine/silencer.go:121-149 | a failed fetch keeps the state and reports the error; otherwise the cache holds exactly the ids whose lookup succeeds |
| Redmine.RefreshedLookup | pkg/connectors/redmine/silencer.go:121-181 | after a refresh, an alert is silenced only by a covering silence whose issue is open |
| Redmine.SilenceExample | pkg/connectors/redmine/silencer_test.go:27-34 | silence 7 refreshed against open issue 7 silences an alert with a superset of its labels |
| Redmine.Silences | pkg/connectors/redmine/silencer.go:79-86 | given an order that lists every cached id once, exactly one cached silence per cached id, in that order |
| PatchmanCache.NewCache | pkg/connectors/patchman/cache.go:22-27 | a new cache holds the zero value, no time stamp, no error and no job |
| PatchmanCache.Get | pkg/connectors/patchman/cache.go:29-54 | first call: the quick fetch's data and error are returned unstored, and a deadline answers the cached value and starts a job; fresh: data and last error; stale: data, no error, and a job |
| PatchmanCache.Begin | pkg/connectors/patchman/cache.go:56-60 | a job takes the lock exactly when no other job holds it |
| PatchmanCache.Finish | pkg/connectors/patchman/cache.go:61-73 | a failure records the error and keeps data and time; a success stores data and time and keeps the old error |
| PatchmanCache.FinishIntended | pkg/connectors/patchman/cache.go:61-73 | as above, but a success also clears the error |
| PatchmanCache.OneJobAtATime | pkg/connectors/patchman/cache.go:56-60 | a second job starting while one runs gives up at once |
| PatchmanCache.FailedRefreshKeepsData | pkg/connectors/patchman/cache.go:63-67 | a failed refresh never loses the cached value |
| PatchmanCache.StaleErrorAfterRecovery | pkg/connectors/patchman/cache.go:43-71 | after a failure and then a success, fresh answers still carry the old error |
| PatchmanCache.IntendedRecovers | pkg/connectors/patchman/cache.go:43-71 | with the intended finish, a fresh answer after a success has no error |
| PatchmanCache.CacheScenario | pkg/connectors/patchman/cache_test.go:29-65 | first 0 with a job, then 1 from the cache, a refresh when stale, then 2 |
| LiveUpdate.NewWsConn | pkg/web/static/js/index.js:4-7 | a new connection is active without a socket |
| LiveUpdate.Connect | pkg/web/static/js/index.js:8-30 | a fresh socket is opened and becomes the current one |
| LiveUpdate.Disconnect | pkg/web/static/js/index.js:31-38 | not active; the current socket leaves Turbo, is asked to close, and is forgotten |
| LiveUpdate.Reconnect | pkg/web/static/js/index.js:39-44 | active again; a socket is opened only when there is none |
| LiveUpdate.OnOpen | pkg/web/static/js/index.js:25-28 | the socket becomes a Turbo stream source; the current socket and the other fields are unchanged, and the single-socket invariant is kept |
| LiveUpdate.OnError | pkg/web/static/js/index.js:21-24 | an error asks that socket to close |
| LiveUpdate.OnClose | pkg/web/static/js/index.js:11-20 | a close forgets the current socket, whichever closed, and schedules a retry |
| LiveUpdate.OnCloseIntended | pkg/web/static/js/index.js:11-20 | a close forgets the current socket only when it is the one that closed |
| LiveUpdate.OnRetry | pkg/web/static/js/index.js:15-19 | the retry reconnects only while active |
| LiveUpdate.StepKeepsSingleSocket | pkg/web/static/js/index.js:8-44 | with the intended close handler, at most one open socket is in use after any event |
| LiveUpdate.StaleCloseLeaksSocket | pkg/web/static/js/index.js:11-44 | switching off and on before the old socket's close arrives: the late close forgets the new socket, and the retry opens a third while the second stays open |
| LiveUpdate.StaleCloseIntended | pkg/web/static/js/index.js:11-20 | with the intended handler the second socket stays current and no third opens |
| LiveUpdate.ManualDisconnectStays | pkg/web/static/js/index.js:15-38 | a close after a manual disconnect re-opens nothing |
| LiveUpdate.FallbackConnect | pkg/web/static/js/index.js:50-58 | a 60-second timer is armed and tracked |
| LiveUpdate.Tick | pkg/web/static/js/index.js:52-57 | while active a timer reloads and re-arms; otherwise it does nothing more |
| LiveUpdate.FallbackDisconnect | pkg/web/static/js/index.js:59-62 | not active, and the tracked timer is cleared |
| LiveUpdate.FallbackReconnect | pkg/web/static/js/index.js:63-66 | active again with a fresh timer |
| LiveUpdate.NoReloadWhileOff | pkg/web/static/js/index.js:52-62 | once switched off, no pending timer reloads the page |
| LiveUpdate.ChooseTransport | pkg/web/static/js/index.js:69-75 | WebSocket exactly when available, wss under https and ws otherwise; else the fallback |
| LiveUpdate.Start | pkg/web/static/js/index.js:69-76 | the chosen connection is connected and active |
| LiveUpdate.OnCheckbox | pkg/web/static/js/index.js:78-89 | checked reconnects and unchecked disconnects, so the connection is active exactly when checked |
| ToggleFiltered.ClickOnce | pkg/web/static/js/toggle-filtered.js:9-17 | a click flips the table, captions the button "Hide" when shown and "Show" when hidden, and stores the new visibility |
| ToggleFiltered.Click | pkg/web/static/js/toggle-filtered.js:9-17 | an even number of click handlers cancel out and an odd number toggle the table; with any handler the caption ends consistent and the visibility is stored |
| ToggleFiltered.SingleHandlerToggles | pkg/web/static/js/toggle-filtered.js:9-17 | with one handler a click toggles the table and persists it |
| ToggleFiltered.Init | pkg/web/static/js/toggle-filtered.js:1-33 | without the button nothing happens; otherwise one more listener of each kind, and a stored "true" shows the table captioned "Show" |
| ToggleFiltered.InitIntended | pkg/web/static/js/toggle-filtered.js:1-33 | one listener of each kind, and the caption stays consistent with the table |
| ToggleFiltered.InitLabelWrong | pkg/web/static/js/toggle-filtered.js:29-32 | a stored "true" leaves a shown table whose button offers to show it |
| ToggleFiltered.Wrapped | pkg/web/static/js/toggle-filtered.js:19-26 | a wrapped render runs the default render first and then one re-initialisation per wrapper |
| ToggleFiltered.RenderListeners | pkg/web/static/js/toggle-filtered.js:19-27 | after the default render each wrapper re-initialises: with the button there the document listeners double and the click listeners grow by their former number; without it the default's page stays |
| ToggleFiltered.RenderIntendedListeners | pkg/web/static/js/toggle-filtered.js:19-27 | with the intended initialisation a wrapped render leaves exactly one listener of each kind |
| ToggleFiltered.DocListenersDouble | pkg/web/static/js/toggle-filtered.js:19-27 | every stream render doubles the document listeners while the button exists |
| ToggleFiltered.ClickDeadAfterTwoRenders | pkg/web/static/js/toggle-filtered.js:9-27 | after two renders that replace the button, a click runs two handlers and changes nothing |
| ToggleFiltered.ClickWorksAfterRenders | pkg/web/static/js/toggle-filtered.js:9-27 | with the intended initialisation, a click after a render still toggles the table |

## Left out

- HTTP requests, JSON/TOML decoding, templates, routing, and the WebSocket/SSE writes are I/O. Connector `Collect` functions start from the already-fetched data.
- Goroutines, channels, locks and `sync.Map` (`Run`, `collect`, `collectAggregate`, `notify`, the health accumulator) are concurrency. The patchman cache's lock is the `running` flag. Its unsynchronised field accesses are not modelled.
- The server also offers a server-sent-events route (`pkg/web/web.go:79`, `sseRenderer` at `pkg/web/web.go:172-197`), which `index.js` never opens. It is server I/O; only the WebSocket connection and the 60-second reload fallback of `index.js` are modelled.
- Regular expressions are opaque predicates: rule matchers, `extractUrls`, the Alertmanager namespace regex and `rules.ParseRuleMatcher`.
- Time parsing and `Format` layouts other than the two dates `niceDate` writes are opaque inputs. So are `strconv.FormatFloat` of arbitrary floats and the hex parsing of trace ids, reduced to lowercase-hex validity.
- The JS side effects `scrollIntoView`, `location.reload` and Turbo's stream rendering are reduced to counters and flags.
- Link HTML is a plain string, not escaped HTML.
- The legacy `*/collector.go` files, `pkg/collection`, `cmd/gonagdash`, `redmine/json_storage.go`, the mock clocks, logging setup, the sleuth/xb3 extractors, and the smaller orderview, grafana, gitlab, github and redmine-connector mappers are not part of this model.
- Graylog's `priorityLow`, `priorityNormal` and `priorityHigh` are defined in a file that is not part of this model. The model takes Graylog's event priorities 1, 2 and 3; its contracts rely only on the three being distinct.
- AlertmanagerConnector.Collect: states which alerts are reported (membership), not their order or multiplicity.
- Icinga2.Collect: states that every reported host and service is present and every alert is one of them, not the order.
- NagiosApi.Collect: states membership per host, not the order, which depends on Go's map iteration.
- NagiosApi.StateOf: says nothing about a current state that parses but lies outside the 32-bit range, where `ParseInt` clamps it.
- AggregatorState.AlertsFor: for an empty name with one dashboard, it states that the served Aggregate is the stored one, not which key it was stored under.
- AlertmanagerApi.Alerts: `mapAlert` writes `dashboard` and `severity` into the alert's own label map, which is the map stored in the aggregator's current aggregate. So in Go every reported alert keeps these two keys after the request, and a connector's own `severity` label is overwritten until the next aggregation pass. The model treats label maps as values: the returned aggregator differs from the given one only in its last access. The same holds for AlertmanagerApi.AlertsAsWritten and AlertmanagerApi.Collect.
- Matching.SecondsText: rounds the exact nanosecond count half to even, where Go formats the float64 `Seconds()`. The two differ only for ages above about 2^24 seconds that lie within float64's precision of a half second: a nanosecond at 2^24 seconds, a few microseconds near Go's longest duration.
- WebFormat.Classify: the day amount is the exact nanosecond count rounded half to even, where Go prints `%.0f` of the float64 `d.Hours()/24`. At 201.5 days less 1 ns, Go prints "202d" and the model "201d". The hour, minute and second amounts stay small enough that float64 keeps the difference.
- WebFormat.NiceDuration: the same day rounding as WebFormat.Classify, so its digits can differ from Go's for ages of months or more that lie within float64's precision of a half day.
- WebFormat.NiceDurationReadsBack: "within half a unit" is a property of the exact rounding. Go's float64 day amount can be a nanosecond further off, as at 201.5 days less 1 ns.
- Redmine.Silenced: the returned silence is the first match in the given iteration order; Go's map order is a parameter.
- Aggregation.BuildAlert: one clock reading, `env.now`, serves the whole pass, where the Go code reads the clock again for each alert's age (aggregator.go:336); ages within one pass are therefore measured from one instant.
- Propagation.Keys: the listed keys form a set, so when a top-level key "a.b" and a nested table entry a→b are both listed, the Go slice holds "a.b" twice and the model once.

## Findings

| source | as written | input that shows it | evidently intended | confidence | as-written member | corrected member |
|---|---|---|---|---|---|---|
| pkg/aggregation/aggregator.go:402 | groups are keyed by the string `Where + Tag` | host "ab" tag "c" and host "a" tag "bc" share one group labelled host "ab" | one group per (host, tag) pair | high, not executed | Grouping.GroupAlertsAsWritten, Grouping.CollisionExample | Grouping.GroupAlerts, Grouping.SeparateBuckets |
| pkg/web/api/alertmanager/web.go:157-158 | `mapAlert` writes into the alert's label map | a dashboard showing a collection failure, whose alert has a nil map, panics the request | start the annotations from an empty map | high, not executed | AlertmanagerApi.MapAlertAsWritten, AlertmanagerApi.FailureAlertPanics | AlertmanagerApi.MapAlert, AlertmanagerApi.MapAlertAgrees |
| pkg/web/api/alertmanager/filter.go:39-107 | field and value loops stop only on an operator or a quote, and `read` returns rune 0 at end of input | `filter=` (empty) or the brace-less `a="b"` never returns | stop at the end of input | high, not executed | AlertmanagerFilter.ParseFilterAsWritten, AlertmanagerFilter.NonTerminatingInputs | AlertmanagerFilter.ParseFilter, AlertmanagerFilter.ParseFilterAgrees |
| pkg/log/propagation/b3.go:27-69 | `Inject` writes the flags as two hex digits ("01") and extraction reads only a one-character third chunk | a sampled context injected and extracted comes back unsampled | write the one-digit sampling state of the B3 single-header format | high, not executed | Propagation.InjectAsWritten, Propagation.SampledBitLost | Propagation.Inject, Propagation.InjectExtract |
| pkg/log/propagation/carrier.go:33-90 | Go `case` clauses without a body do not fall through | an int64 header reads as "" and is not listed | format every integer and float width | medium, not executed | Propagation.Render, Propagation.IntegerHeaderLost | Propagation.RenderIntended, Propagation.GetIntended |
| pkg/connectors/patchman/cache.go:70-71 | a successful refresh leaves `lastErr` set | fail once, then succeed: fresh answers still carry the old error | clear the error on success | medium, not executed | PatchmanCache.Finish, PatchmanCache.StaleErrorAfterRecovery | PatchmanCache.FinishIntended, PatchmanCache.IntendedRecovers |
| pkg/web/static/js/toggle-filtered.js:31 | a stored "true" captions the shown table's button "Show" | reload with `filteredAreShown` = "true" | caption "Hide", as the click handler does | high, not executed | ToggleFiltered.Init, ToggleFiltered.InitLabelWrong | ToggleFiltered.InitIntended |
| pkg/web/static/js/toggle-filtered.js:9-27 | every initialisation adds a click and a document listener | two stream renders that replace the button leave two click handlers, which cancel out | register each listener once | high, not executed | ToggleFiltered.DocListenersDouble, ToggleFiltered.ClickDeadAfterTwoRenders | ToggleFiltered.InitIntended, ToggleFiltered.ClickWorksAfterRenders |
| pkg/web/static/js/index.js:11-20 | the close handler clears `conn.socket` whichever socket closed | unchecking and re-checking the live-update box before the old socket's close event arrives: the new socket is forgotten and a third opens | clear the socket only if it is the closing one | medium, not executed | LiveUpdate.OnClose, LiveUpdate.StaleCloseLeaksSocket | LiveUpdate.OnCloseIntended, LiveUpdate.StepKeepsSingleSocket |
| pkg/aggregation/downtime.go:33 | `niceDate` measures `now - t`, the time since the downtime's end | a downtime ending in an hour is described as "ended", and one that ended an hour ago as "for 60m" | measure `t - now`, the time left | high, not executed | Downtimes.ClassifyDate, Downtimes.FutureEndReadsEnded | Downtimes.ClassifyDateIntended, Downtimes.EndInAnHourIntended |

=== FILE: actuator.dfy ===
/**
 * The health actuator: named components each report a status, the overall
 * status is the worst of them, and the HTTP handler answers 503 while the
 * overall status is DOWN or OUT_OF_SERVICE.
 */
module Actuator {
  import opened Wrappers

  type Status = string

  const Down: Status := "DOWN"
  const Up: Status := "UP"
  const OutOfService: Status := "OUT_OF_SERVICE"
  const Unknown: Status := "UNKNOWN"

  /** The statuses from best to worst. */
  const StatusPriority: seq<Status> := [Up, Unknown, OutOfService, Down]

  /** `priorityOf`: the position in `StatusPriority`, or -1 for a status not listed. */
  function PriorityOf(s: Status): (p: int)
    ensures -1 <= p < 4
    ensures p == -1 <==> s !in StatusPriority
    ensures p >= 0 ==> StatusPriority[p] == s
  {
    if s == Up then 0
    else if s == Unknown then 1
    else if s == OutOfService then 2
    else if s == Down then 3
    else -1
  }

  datatype Component = Component(status: Status, message: string)

  datatype Health = Health(status: Status, components: map<string, Component>)

  /** `newHealthActuator`: UNKNOWN with no components. */
  function NewHealth(): (h: Health)
    ensures h.status == Unknown && h.components == map[]
  {
    Health(Unknown, map[])
  }

  /** The worst listed status among `statuses`, UP when none is listed. Unlisted statuses never count. */
  function Worst(statuses: set<Status>): (s: Status)
    ensures s in StatusPriority
    ensures s != Up ==> s in statuses
    ensures forall t :: t in statuses ==> PriorityOf(t) <= PriorityOf(s)
  {
    if Down in statuses then Down
    else if OutOfService in statuses then OutOfService
    else if Unknown in statuses then Unknown
    else Up
  }

  /** The statuses the components report. */
  function StatusesOf(components: map<string, Component>): set<Status> {
    set k | k in components :: components[k].status
  }

  /**
   * The `bubbleUpStatus` loop over the component statuses in one iteration
   * order, starting from `acc`: a status replaces the running one only when
   * its priority is strictly higher.
   */
  function BubbleUp(statuses: seq<Status>, acc: Status): Status {
    if |statuses| == 0 then acc
    else BubbleUp(statuses[1..], if PriorityOf(statuses[0]) > PriorityOf(acc) then statuses[0] else acc)
  }

  /** Whatever the iteration order, the loop ends on the worst status seen. */
  lemma {:induction false} BubbleUpIsWorst(statuses: seq<Status>, acc: Status)
    requires acc in StatusPriority
    ensures BubbleUp(statuses, acc) == Worst((set i | 0 <= i < |statuses| :: statuses[i]) + {acc})
  {
    if |statuses| > 0 {
      var next := if PriorityOf(statuses[0]) > PriorityOf(acc) then statuses[0] else acc;
      BubbleUpIsWorst(statuses[1..], next);
      var rest := set i | 0 <= i < |statuses[1..]| :: statuses[1..][i];
      assert (set i | 0 <= i < |statuses| :: statuses[i]) == rest + {statuses[0]} by {
        forall x | x in rest ensures x in (set i | 0 <= i < |statuses| :: statuses[i]) {
          var i :| 0 <= i < |statuses[1..]| && statuses[1..][i] == x;
          assert statuses[i + 1] == x;
        }
        forall i | 0 <= i < |statuses| ensures statuses[i] in rest + {statuses[0]} {
          if i > 0 {
            assert statuses[1..][i - 1] == statuses[i];
          }
        }
      }
      WorstStep(rest, statuses[0], acc);
    }
  }

  /** Folding one more status into the running worst. */
  lemma WorstStep(rest: set<Status>, s: Status, acc: Status)
    requires acc in StatusPriority
    ensures Worst(rest + {if PriorityOf(s) > PriorityOf(acc) then s else acc}) == Worst(rest + {s} + {acc})
  {
  }

  /** The loop over the statuses of `components` listed in `order`, from UP. */
  function Rollup(components: map<string, Component>, order: seq<string>): (s: Status)
    requires forall k :: k in order <==> k in components
    ensures s == Worst(StatusesOf(components))
  {
    var statuses := seq(|order|, i requires 0 <= i < |order| => components[order[i]].status);
    BubbleUpIsWorst(statuses, Up);
    assert (set i | 0 <= i < |statuses| :: statuses[i]) == StatusesOf(components) by {
      forall k | k in components ensures components[k].status in (set i | 0 <= i < |statuses| :: statuses[i]) {
        var i :| 0 <= i < |order| && order[i] == k;
        assert statuses[i] == components[k].status;
      }
    }
    assert Worst(StatusesOf(components) + {Up}) == Worst(StatusesOf(components));
    BubbleUp(statuses, Up)
  }

  /**
   * `Set`: record one check's status and message, then recompute the
   * overall status. `order` is the iteration order of the component map.
   */
  function Set(h: Health, check: string, status: Status, message: string, order: seq<string>): (r: Health)
    requires forall k :: k in order <==> (k in h.components || k == check)
    ensures r.components == h.components[check := Component(status, message)]
    ensures r.status == Worst(StatusesOf(r.components))
    ensures PriorityOf(status) <= PriorityOf(r.status)
  {
    var components := h.components[check := Component(status, message)];
    assert check in components && components[check].status == status;
    assert status in StatusesOf(components);
    Health(Rollup(components, order), components)
  }

  /** The status code the handler sets explicitly, if any. */
  function ExplicitCode(status: Status): (code: Option<int>)
    ensures code == Some(503) <==> status == OutOfService || status == Down
    ensures code == Some(200) <==> status == Unknown || status == Up
    ensures code.None? <==> status !in StatusPriority
  {
    if status == OutOfService || status == Down then Some(503)
    else if status == Unknown || status == Up then Some(200)
    else None
  }

  /** The code the client sees: Go's writer sends 200 when no code was set before the body. */
  function ResponseCode(h: Health): (code: int)
    ensures code == 503 <==> h.status == OutOfService || h.status == Down
    ensures code == 200 <==> !(h.status == OutOfService || h.status == Down)
  {
    ExplicitCode(h.status).GetOr(200)
  }

  /** Reporting OUT_OF_SERVICE and then UP for the same check leaves the service answering 200. */
  lemma OutOfServiceThenUp()
    ensures var h1 := Set(NewHealth(), "main", OutOfService, "test", ["main"]);
      var h2 := Set(h1, "main", Up, "test", ["main"]);
      h2.status == Up && ResponseCode(h2) == 200 && ResponseCode(h1) == 503
  {
    var h1 := Set(NewHealth(), "main", OutOfService, "test", ["main"]);
    assert StatusesOf(h1.components) == {OutOfService};
    var h2 := Set(h1, "main", Up, "test", ["main"]);
    assert StatusesOf(h2.components) == {Up};
  }

  /** A component reporting a status the priority list does not name never raises the overall status. */
  lemma UnlistedStatusIgnored(h: Health, check: string, status: Status, message: string, order: seq<string>)
    requires status !in StatusPriority
    requires check !in h.components
    requires forall k :: k in order <==> (k in h.components || k == check)
    ensures Set(h, check, status, message, order).status == Worst(StatusesOf(h.components))
  {
    var r := Set(h, check, status, message, order);
    assert StatusesOf(r.components) == StatusesOf(h.components) + {status} by {
      forall x | x in StatusesOf(r.components) ensures x in StatusesOf(h.components) + {status} {
        var k :| k in r.components && r.components[k].status == x;
        if k != check {
          assert x in StatusesOf(h.components);
        }
      }
      forall x | x in StatusesOf(h.components) ensures x in StatusesOf(r.components) {
        var k :| k in h.components && h.components[k].status == x;
        assert r.components[k] == h.components[k];
      }
    }
  }
}

=== FILE: aggregate.dfy ===
/**
 * One aggregation pass for one dashboard: every collected alert is turned
 * into a dashboard alert and lands in exactly one of three lists: known
 * (covered by a downtime of its own connector), shown, or blocked (with
 * the reason). A connector whose collection failed adds one red alert for
 * host "tuwat". The lists are then ordered by age, and the shown alerts
 * are grouped when grouping is configured.
 */
module Aggregation {
  import opened Wrappers
  import opened GoStrings
  import opened RuleEngine
  import opened Matching
  import opened DashboardModes
  import Connectors
  import Downtimes
  import Grouping
  import Sorting
  import GoTime
  import Decimal

  /**
   * What the pass needs from outside: the clock, the zone dates are written
   * in, the `where` template (`None` when executing it fails) and the
   * source of fresh alert ids, indexed by result and alert position.
   */
  datatype Env = Env(
    now: int,
    offset: int,
    whereOf: Connectors.Alert -> Option<string>,
    idFor: (nat, nat) -> string)

  /** One connector's contribution to a collection cycle. */
  datatype CollectResult = CollectResult(
    tag: string,
    connectorName: string,
    alerts: seq<Connectors.Alert>,
    downtimes: seq<Downtime>,
    error: Option<string>)

  datatype BlockedAlert = BlockedAlert(alert: Alert, reason: seq<byte>)

  datatype KnownAlert = KnownAlert(alert: Alert, downtime: string)

  /** Where one alert ends up. */
  datatype Placement = Shown(alert: Alert) | Blocked(blocked: BlockedAlert) | Known(known: KnownAlert)

  /** The three lists of one pass, in collection order. */
  datatype Placed = Placed(shown: seq<Alert>, blocked: seq<BlockedAlert>, known: seq<KnownAlert>)

  /** `aggregation.Aggregate`: what a dashboard serves until the next pass. */
  datatype AggregateData = AggregateData(
    checkTime: int,
    alerts: seq<Alert>,
    grouped: seq<Grouping.AlertGroup>,
    blocked: seq<BlockedAlert>,
    known: seq<KnownAlert>)

  /** The Aggregate a lookup of an unknown dashboard returns. */
  function EmptyAggregate(): AggregateData {
    AggregateData(0, [], [], [], [])
  }

  /** The alert standing for a failed collection. */
  function FailureAlert(r: CollectResult): (a: Alert)
    requires r.error.Some?
    ensures a.where == "tuwat" && a.tag == r.tag && a.status == "red" && a.when == 0
    ensures a.what == "Collection Failure on " + r.connectorName && a.details == r.error.value
    ensures a.labels.None?
  {
    Alert("", "tuwat", r.tag, "Collection Failure on " + r.connectorName, r.error.value,
      0, Connectors.Colour(Connectors.Critical), [], None, false)
  }

  /** The link that offers silencing an alert, appended when a silencer is attached. */
  function SilenceLink(id: string): string {
    "<form class=\"txtform\" action=\"/alerts/" + id
      + "/silence\" method=\"post\"><button class=\"txtbtn\" value=\"silence\" type=\"submit\">\U{1F507}</button></form>"
  }

  /** The connector's labels without the empty-valued ones. */
  function NonEmptyLabels(labels: map<string, string>): (r: map<string, string>)
    ensures forall k :: k in r <==> k in labels && labels[k] != ""
    ensures forall k :: k in r ==> r[k] == labels[k]
  {
    map k | k in labels && labels[k] != "" :: labels[k]
  }

  /** The dashboard alert made from the `ai`-th alert of the `ri`-th result. */
  function BuildAlert(env: Env, r: CollectResult, ri: nat, ai: nat, al: Connectors.Alert): (a: Alert)
    ensures a.id == env.idFor(ri, ai) && a.tag == r.tag
    ensures a.what == al.description && a.details == al.details
    ensures a.when == GoTime.Sub(env.now, al.start)
    ensures a.status == Connectors.Colour(al.state)
    ensures a.labels == Some(NonEmptyLabels(al.labels))
    ensures env.whereOf(al).Some? ==> a.where == env.whereOf(al).value
    ensures env.whereOf(al).None? ==>
      a.where == (if "Hostname" in al.labels then al.labels["Hostname"] else "")
    ensures a.links == al.links + (if al.silenceable then [SilenceLink(a.id)] else [])
    ensures a.silenceable == al.silenceable
  {
    var labels := NonEmptyLabels(al.labels);
    var id := env.idFor(ri, ai);
    Alert(id, AlertWhere(env.whereOf(al), labels), r.tag, al.description, al.details, GoTime.Sub(env.now, al.start),
      Connectors.Colour(al.state),
      al.links + (if al.silenceable then [SilenceLink(id)] else []),
      Some(labels), al.silenceable)
  }

  /** Where an alert is shown: the connector's own answer, else its host name label. */
  function AlertWhere(own: Option<string>, labels: map<string, string>): string {
    match own
    case Some(w) => w
    case None => if "Hostname" in labels then labels["Hostname"] else ""
  }

  /** The labels a known alert gets from its downtime: start and end as Unix seconds, and the author. */
  function DowntimeLabels(labels: map<string, string>, dt: Downtime): (r: map<string, string>)
    ensures r.Keys == labels.Keys + {"DowntimeStart", "DowntimeEnd", "DowntimeAuthor"}
    ensures r["DowntimeStart"] == Decimal.FormatInt(GoTime.Unix(dt.startTime))
    ensures r["DowntimeEnd"] == Decimal.FormatInt(GoTime.Unix(dt.endTime))
    ensures r["DowntimeAuthor"] == dt.author
    ensures forall k :: k in labels && k !in {"DowntimeStart", "DowntimeEnd", "DowntimeAuthor"} ==> r[k] == labels[k]
  {
    labels["DowntimeStart" := Decimal.FormatInt(GoTime.Unix(dt.startTime))]
      ["DowntimeEnd" := Decimal.FormatInt(GoTime.Unix(dt.endTime))]
      ["DowntimeAuthor" := dt.author]
  }

  /**
   * Where one collected alert goes: known when one of its own connector's
   * downtimes covers it, else shown or blocked by the dashboard's filter.
   * The dashboard's unknown-mode panic is `Err`.
   */
  function PlaceAlert(env: Env, d: Dashboard, r: CollectResult, ri: nat, ai: nat): (p: Result<Placement, string>)
    requires ai < |r.alerts|
    ensures p.Err? ==> d.mode != Including && d.mode != Excluding
  {
    var a := BuildAlert(env, r, ri, ai, r.alerts[ai]);
    var dts := Downtimes.DowntimeRules(env.now, env.offset, r.downtimes);
    match MatchAlert(a, dts)
    case Some(i) =>
      var dt := r.downtimes[i];
      Ok(Known(KnownAlert(a.(labels := Some(DowntimeLabels(a.labels.value, dt))), dt.comment)))
    case None =>
      match Allow(a, d)
      case Err(e) => Err(e)
      case Ok(reason) => if reason == [] then Ok(Shown(a)) else Ok(Blocked(BlockedAlert(a, reason)))
  }

  /**
   * The placement `PlaceAlert` picks: known, with the downtime's labels and
   * comment, when the first matching downtime of the alert's own connector
   * covers it; otherwise shown when the filter gives no reason, blocked with
   * the reason when it gives one, and a failure when the mode is unknown.
   */
  lemma PlaceAlertDecides(env: Env, d: Dashboard, r: CollectResult, ri: nat, ai: nat)
    requires ai < |r.alerts|
    ensures var a := BuildAlert(env, r, ri, ai, r.alerts[ai]);
      var dts := Downtimes.DowntimeRules(env.now, env.offset, r.downtimes);
      var p := PlaceAlert(env, d, r, ri, ai);
      match MatchAlert(a, dts)
      case Some(i) =>
        && i < |r.downtimes|
        && p == Ok(Known(KnownAlert(a.(labels := Some(DowntimeLabels(a.labels.value, r.downtimes[i]))),
             r.downtimes[i].comment)))
      case None =>
        && (p.Err? <==> Allow(a, d).Err?)
        && (p.Ok? && p.value.Shown? <==> Allow(a, d) == Ok([]))
        && (p.Ok? && p.value.Shown? ==> p.value.alert == a)
        && (p.Ok? && p.value.Blocked? <==> Allow(a, d).Ok? && Allow(a, d).value != [])
        && (p.Ok? && p.value.Blocked? ==> p.value.blocked == BlockedAlert(a, Allow(a, d).value))
        && (p.Ok? ==> !p.value.Known?)
  {
  }

  /** Appends one placement to the list it belongs in. */
  function Add(p: Placed, x: Placement): (q: Placed)
    ensures |q.shown| + |q.blocked| + |q.known| == |p.shown| + |p.blocked| + |p.known| + 1
    ensures p.shown <= q.shown && p.blocked <= q.blocked && p.known <= q.known
    ensures x.Shown? ==> q == p.(shown := p.shown + [x.alert])
    ensures x.Blocked? ==> q == p.(blocked := p.blocked + [x.blocked])
    ensures x.Known? ==> q == p.(known := p.known + [x.known])
  {
    match x
    case Shown(a) => p.(shown := p.shown + [a])
    case Blocked(b) => p.(blocked := p.blocked + [b])
    case Known(k) => p.(known := p.known + [k])
  }

  function Size(p: Placed): nat {
    |p.shown| + |p.blocked| + |p.known|
  }

  /** How many entries a result contributes: one per alert, plus one for a failure. */
  function Contribution(r: CollectResult): nat {
    |r.alerts| + (if r.error.Some? then 1 else 0)
  }

  /** What a placement adds to the shown list, if anything. */
  function ShownPick(x: Placement): Option<Alert> {
    if x.Shown? then Some(x.alert) else None
  }

  /** What a placement adds to the blocked list, if anything. */
  function BlockedPick(x: Placement): Option<BlockedAlert> {
    if x.Blocked? then Some(x.blocked) else None
  }

  /** What a placement adds to the known list, if anything. */
  function KnownPick(x: Placement): Option<KnownAlert> {
    if x.Known? then Some(x.known) else None
  }

  /** The entries a sequence of placements sends to one list, in order. */
  function Picked<T>(xs: seq<Placement>, pick: Placement -> Option<T>): seq<T> {
    if |xs| == 0 then []
    else
      var last := pick(xs[|xs| - 1]);
      Picked(xs[..|xs| - 1], pick) + (if last.Some? then [last.value] else [])
  }

  /** Picking from a concatenation picks from each part in turn. */
  lemma {:induction false} PickedAppend<T>(xs: seq<Placement>, ys: seq<Placement>, pick: Placement -> Option<T>)
    ensures Picked(xs + ys, pick) == Picked(xs, pick) + Picked(ys, pick)
    decreases |ys|
  {
    if |ys| == 0 {
      assert xs + ys == xs;
    } else {
      assert (xs + ys)[..|xs + ys| - 1] == xs + ys[..|ys| - 1];
      PickedAppend(xs, ys[..|ys| - 1], pick);
    }
  }

  /** An entry is picked exactly when one of the placements yields it. */
  lemma {:induction false} PickedMembers<T>(xs: seq<Placement>, pick: Placement -> Option<T>, v: T)
    ensures v in Picked(xs, pick) <==> exists i :: 0 <= i < |xs| && pick(xs[i]) == Some(v)
  {
    if |xs| > 0 {
      var n := |xs| - 1;
      var init := xs[..n];
      PickedMembers(init, pick, v);
      assert forall i :: 0 <= i < n ==> init[i] == xs[i];
      if exists i :: 0 <= i < |xs| && pick(xs[i]) == Some(v) {
        var i :| 0 <= i < |xs| && pick(xs[i]) == Some(v);
        if i < n {
          assert pick(init[i]) == Some(v);
        }
      }
    }
  }

  /** The lists `p` are those of `start` with the entries of `xs` appended, each to the list it belongs in, in order. */
  predicate Extends(p: Placed, start: Placed, xs: seq<Placement>) {
    && p.shown == start.shown + Picked(xs, ShownPick)
    && p.blocked == start.blocked + Picked(xs, BlockedPick)
    && p.known == start.known + Picked(xs, KnownPick)
  }

  lemma ExtendsNothing(p: Placed)
    ensures Extends(p, p, [])
  {
    assert p.shown + [] == p.shown && p.blocked + [] == p.blocked && p.known + [] == p.known;
  }

  lemma ExtendsAdd(p: Placed, start: Placed, xs: seq<Placement>, x: Placement)
    requires Extends(p, start, xs)
    ensures Extends(Add(p, x), start, xs + [x])
  {
    assert (xs + [x])[..|xs + [x]| - 1] == xs;
  }

  lemma ExtendsTrans(p: Placed, mid: Placed, start: Placed, xs: seq<Placement>, ys: seq<Placement>)
    requires Extends(mid, start, xs) && Extends(p, mid, ys)
    ensures Extends(p, start, xs + ys)
  {
    PickedTrans(start.shown, mid.shown, p.shown, xs, ys, ShownPick);
    PickedTrans(start.blocked, mid.blocked, p.blocked, xs, ys, BlockedPick);
    PickedTrans(start.known, mid.known, p.known, xs, ys, KnownPick);
  }

  /** One list extended by the entries of `xs` and then of `ys` is extended by those of `xs + ys`. */
  lemma PickedTrans<T>(a: seq<T>, b: seq<T>, c: seq<T>, xs: seq<Placement>, ys: seq<Placement>, pick: Placement -> Option<T>)
    requires b == a + Picked(xs, pick) && c == b + Picked(ys, pick)
    ensures c == a + Picked(xs + ys, pick)
  {
    PickedAppend(xs, ys, pick);
  }

  /** The first `n` steps all succeed. */
  predicate AllOk<T>(f: nat -> Result<T, string>, n: nat) {
    forall i :: 0 <= i < n ==> f(i).Ok?
  }

  /** The values of the successful ones among the first `n` steps, in order. */
  function Outcomes<T>(f: nat -> Result<T, string>, n: nat): seq<T> {
    if n == 0 then []
    else Outcomes(f, n - 1) + (if f(n - 1).Ok? then [f(n - 1).value] else [])
  }

  /** A value is an outcome exactly when one of the first `n` steps yields it. */
  lemma {:induction false} OutcomesMember<T>(f: nat -> Result<T, string>, n: nat, y: T)
    ensures y in Outcomes(f, n) <==> exists i :: 0 <= i < n && f(i) == Ok(y)
  {
    if n > 0 {
      OutcomesMember(f, n - 1, y);
      if exists i :: 0 <= i < n && f(i) == Ok(y) {
        var i :| 0 <= i < n && f(i) == Ok(y);
        if i < n - 1 {
          assert y in Outcomes(f, n - 1);
        }
      }
    }
  }

  /** Alert `ai` of the `ri`-th result placed on its own; a position past the last alert has no placement. */
  function Placer(env: Env, d: Dashboard, r: CollectResult, ri: nat): nat -> Result<Placement, string> {
    (ai: nat) => if ai < |r.alerts| then PlaceAlert(env, d, r, ri, ai) else Err("no such alert")
  }

  lemma AllOkStep<T>(f: nat -> Result<T, string>, n: nat)
    requires 0 < n
    ensures AllOk(f, n) <==> AllOk(f, n - 1) && f(n - 1).Ok?
  {
  }

  lemma PlacerAt(env: Env, d: Dashboard, r: CollectResult, ri: nat, ai: nat)
    requires ai < |r.alerts|
    ensures Placer(env, d, r, ri)(ai) == PlaceAlert(env, d, r, ri, ai)
  {
  }

  /** Every one of the first `n` alerts of a result can be placed, which fails only in an unknown mode. */
  predicate AlertsPlaceable(env: Env, d: Dashboard, r: CollectResult, ri: nat, n: nat) {
    AllOk(Placer(env, d, r, ri), n)
  }

  /** The placements of the first `n` alerts, each one as `PlaceAlert` decides it on its own. */
  function Decided(env: Env, d: Dashboard, r: CollectResult, ri: nat, n: nat): seq<Placement> {
    Outcomes(Placer(env, d, r, ri), n)
  }

  /**
   * The first `n` steps placed in turn after whatever `start` already holds,
   * each at the end of the list it belongs in; the first failing step fails
   * the whole.
   */
  function Fold(f: nat -> Result<Placement, string>, n: nat, start: Placed): (res: Result<Placed, string>)
    ensures res.Ok? <==> AllOk(f, n)
    ensures res.Err? ==> exists i :: 0 <= i < n && f(i).Err?
    ensures res.Ok? ==> Extends(res.value, start, Outcomes(f, n))
    ensures res.Ok? ==> Size(res.value) == Size(start) + n
  {
    if n == 0 then
      ExtendsNothing(start);
      Ok(start)
    else
      AllOkStep(f, n);
      match Fold(f, n - 1, start)
      case Err(e) => Err(e)
      case Ok(p) =>
        match f(n - 1)
        case Err(e) => Err(e)
        case Ok(x) =>
          ExtendsAdd(p, start, Outcomes(f, n - 1), x);
          Ok(Add(p, x))
  }

  /** A failing alert among the first `n` means the dashboard's mode is unknown. */
  lemma PlacerFails(env: Env, d: Dashboard, r: CollectResult, ri: nat, n: nat)
    requires n <= |r.alerts|
    requires exists i :: 0 <= i < n && Placer(env, d, r, ri)(i).Err?
    ensures d.mode != Including && d.mode != Excluding
  {
    var i :| 0 <= i < n && Placer(env, d, r, ri)(i).Err?;
    PlacerAt(env, d, r, ri, i);
  }

  /**
   * The first `n` alerts of a result placed after whatever `start` already
   * holds: each lands at the end of the list `PlaceAlert` picks for it, in
   * order, and the pass fails exactly when one of them cannot be placed.
   */
  function PlaceAlerts(env: Env, d: Dashboard, r: CollectResult, ri: nat, n: nat, start: Placed)
    : (res: Result<Placed, string>)
    requires n <= |r.alerts|
    ensures res.Err? ==> d.mode != Including && d.mode != Excluding
    ensures res.Ok? <==> AlertsPlaceable(env, d, r, ri, n)
    ensures res.Ok? ==> Extends(res.value, start, Decided(env, d, r, ri, n))
    ensures res.Ok? ==> Size(res.value) == Size(start) + n
  {
    var res := Fold(Placer(env, d, r, ri), n, start);
    if res.Err? then
      PlacerFails(env, d, r, ri, n);
      res
    else res
  }

  /** A failed result's one placement: its failure alert, shown. */
  function FailurePlacements(r: CollectResult): seq<Placement> {
    if r.error.Some? then [Shown(FailureAlert(r))] else []
  }

  /** Everything one result places, in the order the source appends it. */
  function ResultPlacements(env: Env, d: Dashboard, r: CollectResult, ri: nat): seq<Placement> {
    FailurePlacements(r) + Decided(env, d, r, ri, |r.alerts|)
  }

  /** A result places its failure alert, if any, and exactly its alerts, each as `PlaceAlert` decides. */
  lemma ResultPlacementsMember(env: Env, d: Dashboard, r: CollectResult, ri: nat, y: Placement)
    ensures y in ResultPlacements(env, d, r, ri) <==>
      (exists ai :: 0 <= ai < |r.alerts| && PlaceAlert(env, d, r, ri, ai) == Ok(y))
      || (r.error.Some? && y == Shown(FailureAlert(r)))
  {
    OutcomesMember(Placer(env, d, r, ri), |r.alerts|, y);
    forall ai | 0 <= ai < |r.alerts| ensures Placer(env, d, r, ri)(ai) == PlaceAlert(env, d, r, ri, ai) {
      PlacerAt(env, d, r, ri, ai);
    }
  }

  /** One result placed after `start`: its failure alert first, then its alerts in order. */
  function PlaceResult(env: Env, d: Dashboard, r: CollectResult, ri: nat, start: Placed)
    : (res: Result<Placed, string>)
    ensures res.Err? ==> d.mode != Including && d.mode != Excluding
    ensures res.Ok? <==> AlertsPlaceable(env, d, r, ri, |r.alerts|)
    ensures res.Ok? ==> Extends(res.value, start, ResultPlacements(env, d, r, ri))
    ensures res.Ok? ==> Size(res.value) == Size(start) + Contribution(r)
  {
    var init := if r.error.Some? then start.(shown := start.shown + [FailureAlert(r)]) else start;
    FailureExtends(start, r);
    var res := PlaceAlerts(env, d, r, ri, |r.alerts|, init);
    if res.Ok? then
      ExtendsTrans(res.value, init, start, FailurePlacements(r), Decided(env, d, r, ri, |r.alerts|));
      res
    else res
  }

  lemma FailureExtends(start: Placed, r: CollectResult)
    ensures Extends(if r.error.Some? then start.(shown := start.shown + [FailureAlert(r)]) else start,
      start, FailurePlacements(r))
  {
    if r.error.Some? {
      var xs := FailurePlacements(r);
      assert xs[..0] == [];
    } else {
      ExtendsNothing(start);
    }
  }

  /** The sum of all contributions. */
  function Total(results: seq<CollectResult>): nat {
    if |results| == 0 then 0 else Total(results[..|results| - 1]) + Contribution(results[|results| - 1])
  }

  /** Every alert of every result can be placed, result after result. */
  predicate AllPlaceable(env: Env, d: Dashboard, results: seq<CollectResult>) {
    |results| == 0 ||
      (AllPlaceable(env, d, results[..|results| - 1])
       && AlertsPlaceable(env, d, results[|results| - 1], |results| - 1, |results[|results| - 1].alerts|))
  }


  /** Everything a pass places, result after result. */
  function AllPlacements(env: Env, d: Dashboard, results: seq<CollectResult>): seq<Placement> {
    Joined(PerResult(env, d, results), |results|)
  }

  /** The placements of the `ri`-th result; a position past the last result places nothing. */
  function PerResult(env: Env, d: Dashboard, results: seq<CollectResult>): nat -> seq<Placement> {
    (ri: nat) => if ri < |results| then ResultPlacements(env, d, results[ri], ri) else []
  }

  /** The first `n` pieces, concatenated in order. */
  function Joined<T>(f: nat -> seq<T>, n: nat): seq<T> {
    if n == 0 then [] else Joined(f, n - 1) + f(n - 1)
  }

  lemma {:induction false} JoinedAgree<T>(f: nat -> seq<T>, g: nat -> seq<T>, n: nat)
    requires forall i :: 0 <= i < n ==> f(i) == g(i)
    ensures Joined(f, n) == Joined(g, n)
  {
    if n > 0 {
      JoinedAgree(f, g, n - 1);
    }
  }

  /** A value occurs in the concatenation exactly when it occurs in one of the pieces. */
  lemma {:induction false} JoinedMember<T>(f: nat -> seq<T>, n: nat, y: T)
    ensures y in Joined(f, n) <==> exists i :: 0 <= i < n && y in f(i)
  {
    if n > 0 {
      JoinedMember(f, n - 1, y);
      if exists i :: 0 <= i < n && y in f(i) {
        var i :| 0 <= i < n && y in f(i);
        if i < n - 1 {
          assert y in Joined(f, n - 1);
        }
      }
    }
  }

  /** A pass's placements are those of all results but the last, then the last one's. */
  lemma AllPlacementsStep(env: Env, d: Dashboard, results: seq<CollectResult>)
    requires |results| > 0
    ensures AllPlacements(env, d, results) ==
      AllPlacements(env, d, results[..|results| - 1]) + ResultPlacements(env, d, results[|results| - 1], |results| - 1)
  {
    var k := |results| - 1;
    var pre := results[..k];
    forall i | 0 <= i < k ensures PerResult(env, d, results)(i) == PerResult(env, d, pre)(i) {
      assert pre[i] == results[i];
    }
    JoinedAgree(PerResult(env, d, results), PerResult(env, d, pre), k);
  }




  /** A pass places exactly what the results place, each result's placements taken whole. */
  lemma AllPlacementsMember(env: Env, d: Dashboard, results: seq<CollectResult>, y: Placement)
    ensures y in AllPlacements(env, d, results) <==>
      exists ri :: 0 <= ri < |results| && y in ResultPlacements(env, d, results[ri], ri)
  {
    var f := PerResult(env, d, results);
    JoinedMember(f, |results|, y);
    if y in AllPlacements(env, d, results) {
      var ri :| 0 <= ri < |results| && y in f(ri);
      PerResultAt(env, d, results, ri);
    }
    if exists ri :: 0 <= ri < |results| && y in ResultPlacements(env, d, results[ri], ri) {
      var ri :| 0 <= ri < |results| && y in ResultPlacements(env, d, results[ri], ri);
      PerResultAt(env, d, results, ri);
    }
  }

  lemma PerResultAt(env: Env, d: Dashboard, results: seq<CollectResult>, ri: nat)
    requires ri < |results|
    ensures PerResult(env, d, results)(ri) == ResultPlacements(env, d, results[ri], ri)
  {
  }

  /** A pass places `y` exactly when `PlaceAlert` places some collected alert as `y`, or `y` shows a failure. */
  lemma PlacedMember(env: Env, d: Dashboard, results: seq<CollectResult>, y: Placement)
    ensures y in AllPlacements(env, d, results) <==>
      (exists ri, ai :: 0 <= ri < |results| && 0 <= ai < |results[ri].alerts|
         && PlaceAlert(env, d, results[ri], ri, ai) == Ok(y))
      || (exists ri :: 0 <= ri < |results| && results[ri].error.Some? && y == Shown(FailureAlert(results[ri])))
  {
    AllPlacementsMember(env, d, results, y);
    if y in AllPlacements(env, d, results) {
      var ri :| 0 <= ri < |results| && y in ResultPlacements(env, d, results[ri], ri);
      ResultPlacementsMember(env, d, results[ri], ri, y);
    }
    if exists ri, ai :: 0 <= ri < |results| && 0 <= ai < |results[ri].alerts|
         && PlaceAlert(env, d, results[ri], ri, ai) == Ok(y) {
      var ri, ai :| 0 <= ri < |results| && 0 <= ai < |results[ri].alerts|
         && PlaceAlert(env, d, results[ri], ri, ai) == Ok(y);
      ResultPlacementsMember(env, d, results[ri], ri, y);
    }
    if exists ri :: 0 <= ri < |results| && results[ri].error.Some? && y == Shown(FailureAlert(results[ri])) {
      var ri :| 0 <= ri < |results| && results[ri].error.Some? && y == Shown(FailureAlert(results[ri]));
      ResultPlacementsMember(env, d, results[ri], ri, y);
    }
  }

  /**
   * Every result placed in order, each alert landing where `PlaceAlert`
   * decides and each failure alert shown; the pass fails exactly when an
   * alert cannot be placed, which only a dashboard in an unknown mode causes.
   */
  function PlaceAll(env: Env, d: Dashboard, results: seq<CollectResult>): (res: Result<Placed, string>)
    ensures res.Err? ==> d.mode != Including && d.mode != Excluding
    ensures res.Ok? <==> AllPlaceable(env, d, results)
    ensures res.Ok? ==> Extends(res.value, Placed([], [], []), AllPlacements(env, d, results))
    ensures res.Ok? ==> Size(res.value) == Total(results)
  {
    if |results| == 0 then
      ExtendsNothing(Placed([], [], []));
      Ok(Placed([], [], []))
    else
      match PlaceAll(env, d, results[..|results| - 1])
      case Err(e) => Err(e)
      case Ok(p) =>
        var res := PlaceResult(env, d, results[|results| - 1], |results| - 1, p);
        if res.Ok? then
          AllPlacementsStep(env, d, results);
          ExtendsTrans(res.value, p, Placed([], [], []), AllPlacements(env, d, results[..|results| - 1]),
            ResultPlacements(env, d, results[|results| - 1], |results| - 1));
          res
        else res
  }

  /** An alert is shown exactly when some collected alert is placed as shown, or it stands for a result's collection error. */
  lemma ShownMember(env: Env, d: Dashboard, results: seq<CollectResult>, x: Alert)
    requires PlaceAll(env, d, results).Ok?
    ensures x in PlaceAll(env, d, results).value.shown <==>
      (exists ri, ai :: 0 <= ri < |results| && 0 <= ai < |results[ri].alerts|
         && PlaceAlert(env, d, results[ri], ri, ai) == Ok(Shown(x)))
      || (exists ri :: 0 <= ri < |results| && results[ri].error.Some? && x == FailureAlert(results[ri]))
  {
    var xs := AllPlacements(env, d, results);
    assert PlaceAll(env, d, results).value.shown == [] + Picked(xs, ShownPick);
    ShownPicked(xs, x);
    PlacedMember(env, d, results, Shown(x));
  }

  lemma ShownPicked(xs: seq<Placement>, x: Alert)
    ensures x in Picked(xs, ShownPick) <==> Shown(x) in xs
  {
    PickedMembers(xs, ShownPick, x);
    if x in Picked(xs, ShownPick) {
      var i :| 0 <= i < |xs| && ShownPick(xs[i]) == Some(x);
      assert xs[i] == Shown(x);
    }
    if Shown(x) in xs {
      var i :| 0 <= i < |xs| && xs[i] == Shown(x);
      assert ShownPick(xs[i]) == Some(x);
    }
  }

  /** An alert is blocked exactly when some collected alert is placed as blocked. */
  lemma BlockedMember(env: Env, d: Dashboard, results: seq<CollectResult>, b: BlockedAlert)
    requires PlaceAll(env, d, results).Ok?
    ensures b in PlaceAll(env, d, results).value.blocked <==>
      exists ri, ai :: 0 <= ri < |results| && 0 <= ai < |results[ri].alerts|
        && PlaceAlert(env, d, results[ri], ri, ai) == Ok(Blocked(b))
  {
    var xs := AllPlacements(env, d, results);
    assert PlaceAll(env, d, results).value.blocked == [] + Picked(xs, BlockedPick);
    BlockedPicked(xs, b);
    PlacedMember(env, d, results, Blocked(b));
  }

  lemma BlockedPicked(xs: seq<Placement>, b: BlockedAlert)
    ensures b in Picked(xs, BlockedPick) <==> Blocked(b) in xs
  {
    PickedMembers(xs, BlockedPick, b);
    if b in Picked(xs, BlockedPick) {
      var i :| 0 <= i < |xs| && BlockedPick(xs[i]) == Some(b);
      assert xs[i] == Blocked(b);
    }
    if Blocked(b) in xs {
      var i :| 0 <= i < |xs| && xs[i] == Blocked(b);
      assert BlockedPick(xs[i]) == Some(b);
    }
  }

  /** An alert is known exactly when some collected alert is placed as known. */
  lemma KnownMember(env: Env, d: Dashboard, results: seq<CollectResult>, k: KnownAlert)
    requires PlaceAll(env, d, results).Ok?
    ensures k in PlaceAll(env, d, results).value.known <==>
      exists ri, ai :: 0 <= ri < |results| && 0 <= ai < |results[ri].alerts|
        && PlaceAlert(env, d, results[ri], ri, ai) == Ok(Known(k))
  {
    var xs := AllPlacements(env, d, results);
    assert PlaceAll(env, d, results).value.known == [] + Picked(xs, KnownPick);
    KnownPicked(xs, k);
    PlacedMember(env, d, results, Known(k));
  }

  lemma KnownPicked(xs: seq<Placement>, k: KnownAlert)
    ensures k in Picked(xs, KnownPick) <==> Known(k) in xs
  {
    PickedMembers(xs, KnownPick, k);
    if k in Picked(xs, KnownPick) {
      var i :| 0 <= i < |xs| && KnownPick(xs[i]) == Some(k);
      assert xs[i] == Known(k);
    }
    if Known(k) in xs {
      var i :| 0 <= i < |xs| && xs[i] == Known(k);
      assert KnownPick(xs[i]) == Some(k);
    }
  }


  function BlockedWhen(b: BlockedAlert): int {
    b.alert.when
  }

  function KnownWhen(k: KnownAlert): int {
    k.alert.when
  }

  /** The placed lists ordered by age, with the shown alerts either grouped into `grouped` or listed on their own. */
  function Assemble(env: Env, p: Placed, groupAlerts: bool, grouped: seq<Grouping.AlertGroup>): (a: AggregateData)
    ensures a.checkTime == env.now
    ensures multiset(a.blocked) == multiset(p.blocked) && Sorting.SortedByKey(a.blocked, BlockedWhen)
    ensures multiset(a.known) == multiset(p.known) && Sorting.SortedByKey(a.known, KnownWhen)
    ensures groupAlerts ==> a.alerts == [] && a.grouped == grouped
    ensures !groupAlerts ==> a.grouped == [] && multiset(a.alerts) == multiset(p.shown)
    ensures Sorting.SortedByKey(a.alerts, Grouping.WhenOf)
  {
    var blocked := Sorting.SortByKey(p.blocked, BlockedWhen);
    var known := Sorting.SortByKey(p.known, KnownWhen);
    if groupAlerts then AggregateData(env.now, [], grouped, blocked, known)
    else AggregateData(env.now, Sorting.SortByKey(p.shown, Grouping.WhenOf), [], blocked, known)
  }

  /**
   * `aggregate` up to storing the result: the three lists ordered by age,
   * the shown alerts grouped (and the plain list emptied) when grouping is
   * on. Nothing is lost or duplicated along the way. Groups are keyed as
   * the source keys them, by host and tag run together, so two pairs that
   * concatenate alike share a group, labelled by the first alert collected
   * for the key.
   */
  function Aggregate(env: Env, d: Dashboard, results: seq<CollectResult>, groupAlerts: bool)
    : (res: Result<AggregateData, string>)
    ensures res.Ok? <==> PlaceAll(env, d, results).Ok?
    ensures res.Ok? ==> var p := PlaceAll(env, d, results).value;
      && res.value.checkTime == env.now
      && multiset(res.value.blocked) == multiset(p.blocked)
      && Sorting.SortedByKey(res.value.blocked, BlockedWhen)
      && multiset(res.value.known) == multiset(p.known)
      && Sorting.SortedByKey(res.value.known, KnownWhen)
      && (groupAlerts ==> res.value.alerts == [] && Grouping.FlattenGroups(res.value.grouped) == multiset(p.shown))
      && (groupAlerts ==> forall i :: 0 <= i < |res.value.grouped| ==>
            Grouping.KeyedOk(res.value.grouped[i]) && Grouping.LabelledByFirst(p.shown, res.value.grouped[i]))
      && (groupAlerts ==> Grouping.DistinctBy(res.value.grouped, Grouping.LabelKey))
      && Sorting.SortedByKey(res.value.grouped, Grouping.FirstWhen)
      && (!groupAlerts ==> res.value.grouped == [] && multiset(res.value.alerts) == multiset(p.shown))
      && Sorting.SortedByKey(res.value.alerts, Grouping.WhenOf)
      && |res.value.alerts| + |Grouping.FlattenGroups(res.value.grouped)| + |res.value.blocked| + |res.value.known|
         == Total(results)
  {
    match PlaceAll(env, d, results)
    case Err(e) => Err(e)
    case Ok(p) =>
      Ok(Assemble(env, p, groupAlerts, if groupAlerts then Grouping.GroupAlertsAsWritten(p.shown) else []))
  }

  /**
   * `aggregate` as its grouping evidently intends it: groups keyed by the
   * (host, tag) pair, so alerts of one group share both, and no two groups
   * share a pair.
   */
  function AggregateIntended(env: Env, d: Dashboard, results: seq<CollectResult>, groupAlerts: bool)
    : (res: Result<AggregateData, string>)
    ensures res.Ok? <==> PlaceAll(env, d, results).Ok?
    ensures res.Ok? ==> var p := PlaceAll(env, d, results).value;
      && res.value.checkTime == env.now
      && multiset(res.value.blocked) == multiset(p.blocked)
      && Sorting.SortedByKey(res.value.blocked, BlockedWhen)
      && multiset(res.value.known) == multiset(p.known)
      && Sorting.SortedByKey(res.value.known, KnownWhen)
      && (groupAlerts ==> res.value.alerts == [] && Grouping.FlattenGroups(res.value.grouped) == multiset(p.shown))
      && (groupAlerts ==> forall i :: 0 <= i < |res.value.grouped| ==> Grouping.GroupOk(res.value.grouped[i]))
      && (groupAlerts ==> Grouping.DistinctPairs(res.value.grouped))
      && Sorting.SortedByKey(res.value.grouped, Grouping.FirstWhen)
      && (!groupAlerts ==> res.value.grouped == [] && multiset(res.value.alerts) == multiset(p.shown))
      && Sorting.SortedByKey(res.value.alerts, Grouping.WhenOf)
      && |res.value.alerts| + |Grouping.FlattenGroups(res.value.grouped)| + |res.value.blocked| + |res.value.known|
         == Total(results)
  {
    match PlaceAll(env, d, results)
    case Err(e) => Err(e)
    case Ok(p) =>
      Ok(Assemble(env, p, groupAlerts, if groupAlerts then Grouping.GroupAlerts(p.shown) else []))
  }
}

=== FILE: aggregator.dfy ===
/**
 * The aggregator's own state between passes: the collection interval, the
 * registered live-update clients, the last time a page was served, the
 * stored Aggregate per dashboard, and the time of the last pass. It decides
 * whether collection is active and what the aggregator health check says.
 */
module AggregatorState {
  import opened Wrappers
  import opened Aggregation
  import GoTime
  import Actuator
  import Matching

  datatype Aggregator = Aggregator(
    interval: int,
    registrations: set<string>,
    lastAccess: Option<int>,
    current: map<string, AggregateData>,
    checkTime: int,
    groupAlerts: bool)

  /** `NewAggregator`: an interval of 0 becomes one minute; the last access is now. */
  function NewAggregator(interval: int, groupAlerts: bool, now: int): (a: Aggregator)
    ensures a.interval == (if interval == 0 then GoTime.Minute else interval)
    ensures a.registrations == {} && a.current == map[] && a.checkTime == 0
    ensures a.lastAccess == Some(now) && a.groupAlerts == groupAlerts
  {
    Aggregator(if interval == 0 then GoTime.Minute else interval, {}, Some(now), map[], 0, groupAlerts)
  }

  /**
   * `active`: collecting while clients are registered, before any access,
   * and while the last access lies within three intervals of now.
   */
  predicate Active(a: Aggregator, now: int) {
    if |a.registrations| > 0 then true
    else if a.lastAccess.None? then true
    else if a.lastAccess.value < now - 3 * a.interval then false
    else true
  }

  /** Inactive exactly when nobody is registered and the last access is older than three intervals. */
  lemma ActiveIff(a: Aggregator, now: int)
    ensures !Active(a, now) <==>
      a.registrations == {} && a.lastAccess.Some? && a.lastAccess.value < now - 3 * a.interval
  {
  }

  /** `Register`: the client's old channel (if any) is replaced by a fresh one. */
  function Register(a: Aggregator, handler: string): (r: Aggregator)
    ensures r.registrations == a.registrations + {handler}
    ensures r == a.(registrations := r.registrations)
  {
    a.(registrations := a.registrations + {handler})
  }

  /** `Unregister`: the client's channel is closed and forgotten. */
  function Unregister(a: Aggregator, handler: string): (r: Aggregator)
    ensures r.registrations == a.registrations - {handler}
    ensures r == a.(registrations := r.registrations)
  {
    a.(registrations := a.registrations - {handler})
  }

  /** A registered client keeps collection active whatever the time. */
  lemma RegisteredIsActive(a: Aggregator, handler: string, now: int)
    ensures Active(Register(a, handler), now)
  {
    assert handler in Register(a, handler).registrations;
  }

  /** Registering a new client and unregistering it again restores the registrations. */
  lemma RegisterUnregister(a: Aggregator, handler: string)
    requires handler !in a.registrations
    ensures Unregister(Register(a, handler), handler) == a
  {
    assert a.registrations + {handler} - {handler} == a.registrations;
  }

  /** The end of `aggregate`: the dashboard's Aggregate replaced and the check time set. */
  function Store(a: Aggregator, name: string, data: AggregateData): (r: Aggregator)
    ensures r.current.Keys == a.current.Keys + {name}
    ensures r.current[name] == data && r.checkTime == data.checkTime
    ensures forall n :: n in a.current && n != name ==> r.current[n] == a.current[n]
    ensures r.registrations == a.registrations && r.lastAccess == a.lastAccess && r.interval == a.interval
  {
    a.(current := a.current[name := data], checkTime := data.checkTime)
  }

  /** With exactly one stored dashboard, every stored Aggregate is the same one. */
  lemma SingleEntry(m: map<string, AggregateData>)
    requires |m| == 1
    ensures forall x, y :: x in m && y in m ==> x == y
  {
    var k :| k in m;
    assert m.Keys == {k} by {
      forall x | x in m ensures x == k {
        if x != k {
          assert {x, k} <= m.Keys;
          assert |{x, k}| == 2;
          Matching.SubsetCard({x, k}, m.Keys);
        }
      }
    }
  }

  /**
   * `Alerts`: records the access, then serves the named dashboard, or the
   * only dashboard when the name is empty and just one exists, or an empty
   * Aggregate.
   */
  function AlertsFor(a: Aggregator, name: string, now: int): (r: (Aggregator, AggregateData))
    ensures r.0 == a.(lastAccess := Some(now))
    ensures name in a.current ==> r.1 == a.current[name]
    ensures name !in a.current && name == "" && |a.current| == 1 ==> r.1 in a.current.Values
    ensures name !in a.current && !(name == "" && |a.current| == 1) ==> r.1 == EmptyAggregate()
  {
    var served := a.(lastAccess := Some(now));
    if name in a.current then (served, a.current[name])
    else if |a.current| == 1 && name == "" then
      SingleEntry(a.current);
      var k :| k in a.current;
      (served, a.current[k])
    else (served, EmptyAggregate())
  }

  /** A pass stored under a name is what that name is served until the next pass. */
  lemma StoreThenServe(a: Aggregator, name: string, data: AggregateData, now: int)
    ensures AlertsFor(Store(a, name, data), name, now).1 == data
  {
  }

  /** Serving a page keeps collection active for three more intervals. */
  lemma ServingKeepsActive(a: Aggregator, name: string, now: int, later: int)
    requires later <= now + 3 * a.interval
    ensures Active(AlertsFor(a, name, now).0, later)
  {
  }

  /**
   * `NewAggregatorHealthCheck`: STARTING before the first pass, OLD when
   * active but the last pass is more than three intervals old, OK when
   * active and fresh, INACTIVE otherwise.
   */
  function HealthCheck(a: Aggregator, now: int): (r: (Actuator.Status, string))
    ensures a.checkTime == 0 ==> r == (Actuator.OutOfService, "STARTING")
    ensures a.checkTime != 0 && Active(a, now) && a.checkTime < now - 3 * a.interval ==> r == (Actuator.Down, "OLD")
    ensures a.checkTime != 0 && Active(a, now) && a.checkTime >= now - 3 * a.interval ==> r == (Actuator.Up, "OK")
    ensures a.checkTime != 0 && !Active(a, now) ==> r == (Actuator.Unknown, "INACTIVE")
  {
    if GoTime.IsZero(a.checkTime) then (Actuator.OutOfService, "STARTING")
    else if Active(a, now) then
      if a.checkTime < now - 3 * a.interval then (Actuator.Down, "OLD") else (Actuator.Up, "OK")
    else (Actuator.Unknown, "INACTIVE")
  }

  /** The health check reports a service-unavailable status exactly when no pass has run yet or the passes are stuck. */
  lemma HealthUnavailableIff(a: Aggregator, now: int)
    ensures Actuator.ExplicitCode(HealthCheck(a, now).0) == Some(503) <==>
      a.checkTime == 0 || (Active(a, now) && a.checkTime < now - 3 * a.interval)
  {
  }
}

=== FILE: am_connector.dfy ===
/**
 * The Alertmanager connector: alerts fetched from `/api/v2/alerts` become
 * tuwat alerts unless Alertmanager itself suppressed or silenced them, and
 * an empty answer is reported as a dead-man's switch that has fired.
 *
 * Parsing `startsAt`, the namespace regular expression, and the home link
 * (JSON plus query escaping) are inputs.
 */
module AlertmanagerConnector {
  import opened Wrappers
  import opened GoStrings
  import Connectors

  datatype SourceAlert = SourceAlert(
    labels: map<string, string>,
    startsAt: string,
    annotations: map<string, string>,
    state: string,
    silencedBy: seq<string>)

  /** The `severity` label, "" when there is none. */
  function Severity(a: SourceAlert): string {
    if "severity" in a.labels then a.labels["severity"] else ""
  }

  /** An alert is passed over when suppressed, silenced, or of severity "none". */
  predicate Skipped(a: SourceAlert) {
    a.state == "suppressed" || |a.silencedBy| > 0 || Severity(a) == "none"
  }

  /** The state of a reported alert: active ones by severity, everything else Unknown. */
  function StateOf(state: string, severity: string): (s: Connectors.State)
    ensures s == Connectors.Critical <==> state == "active" && severity in {"critical", "error"}
    ensures s == Connectors.Warning <==> state == "active" && severity in {"", "warning"}
    ensures s == Connectors.Unknown <==> !(state == "active" && severity in {"", "warning", "critical", "error"})
  {
    if state == "unprocessed" then Connectors.Unknown
    else if state == "active" && severity == "" then Connectors.Warning
    else if state == "active" && severity == "warning" then Connectors.Warning
    else if state == "active" && severity == "critical" then Connectors.Critical
    else if state == "active" && severity == "error" then Connectors.Critical
    else Connectors.Unknown
  }

  /** `k8sLabels`: the values of those needles the haystack has, in needle order. */
  function K8sLabels(haystack: map<string, string>, needles: seq<string>): (out: seq<string>)
    ensures |out| <= |needles|
    ensures forall x :: x in out <==> exists n :: n in needles && n in haystack && haystack[n] == x
  {
    if |needles| == 0 then []
    else
      var rest := K8sLabels(haystack, needles[1..]);
      assert forall n :: n in needles <==> n == needles[0] || n in needles[1..];
      if needles[0] in haystack then [haystack[needles[0]]] + rest else rest
  }

  /** When every needle is present, the result is the needles' values one for one. */
  lemma {:induction false} K8sLabelsAllPresent(haystack: map<string, string>, needles: seq<string>)
    requires forall n :: n in needles ==> n in haystack
    ensures |K8sLabels(haystack, needles)| == |needles|
    ensures forall i :: 0 <= i < |needles| ==> K8sLabels(haystack, needles)[i] == haystack[needles[i]]
  {
    if |needles| > 0 {
      K8sLabelsAllPresent(haystack, needles[1..]);
      var out := K8sLabels(haystack, needles);
      assert out == [haystack[needles[0]]] + K8sLabels(haystack, needles[1..]);
    }
  }

  /** The label set of a reported alert: three defaults, each overridden by a source label of that name. */
  function Tags(cluster: string, namespace: string, url: string, labels: map<string, string>): (tags: map<string, string>)
    ensures tags.Keys == labels.Keys + {"Cluster", "Namespace", "Source"}
    ensures forall k :: k in labels ==> tags[k] == labels[k]
    ensures "Cluster" !in labels ==> tags["Cluster"] == cluster
    ensures "Namespace" !in labels ==> tags["Namespace"] == namespace
    ensures "Source" !in labels ==> tags["Source"] == url
  {
    map["Cluster" := cluster, "Namespace" := namespace, "Source" := url] + labels
  }

  /** The connector's configuration and the opaque helpers the alert mapping uses. */
  datatype Env = Env(
    url: string,
    host: string,
    cluster: string,
    now: int,
    parseTime: string -> int,
    namespaceInDetails: string -> Option<string>,
    homeLink: string -> string)

  /** The namespace: the one the details name, else the `namespace` label (or ""). */
  function Namespace(env: Env, a: SourceAlert, details: string): string {
    match env.namespaceInDetails(details)
    case Some(ns) => ns
    case None => Join(K8sLabels(a.labels, ["namespace"]), ":")
  }

  /** The alert built for a source alert that is not skipped. */
  function ToAlert(env: Env, a: SourceAlert): (r: Connectors.Alert)
    ensures r.state == StateOf(a.state, Severity(a))
    ensures r.description == (if "alertname" in a.labels then a.labels["alertname"] else "")
    ensures r.details == Join(K8sLabels(a.annotations, ["summary", "description"]), "\n")
    ensures forall k :: k in a.labels ==> k in r.labels && r.labels[k] == a.labels[k]
    ensures |r.links| == (if "runbook" in a.annotations then 2 else 1) && r.silenceable
  {
    var details := Join(K8sLabels(a.annotations, ["summary", "description"]), "\n");
    var runbook := if "runbook" in a.annotations
      then ["<a href=\"" + a.annotations["runbook"] + "\" target=\"_blank\" alt=\"Runbook\">📖</a>"] else [];
    var uid := if "uid" in a.labels then a.labels["uid"] else "";
    Connectors.Alert(
      Tags(env.cluster, Namespace(env, a, details), env.url, a.labels),
      env.parseTime(a.startsAt),
      StateOf(a.state, Severity(a)),
      if "alertname" in a.labels then a.labels["alertname"] else "",
      details,
      runbook + [env.homeLink(uid)],
      true)
  }

  /** The alert standing for an empty answer. */
  function DeadMansSwitch(env: Env): Connectors.Alert {
    Connectors.Alert(map["Hostname" := env.host], env.now, Connectors.Critical, "DeadMansSwitch dead", "", [], false)
  }

  function Reported(env: Env, sources: seq<SourceAlert>): (r: seq<Connectors.Alert>)
    ensures |r| <= |sources|
    ensures forall x :: x in r <==> exists a :: a in sources && !Skipped(a) && x == ToAlert(env, a)
  {
    if |sources| == 0 then []
    else
      var rest := Reported(env, sources[1..]);
      assert forall a :: a in sources <==> a == sources[0] || a in sources[1..];
      if Skipped(sources[0]) then rest else [ToAlert(env, sources[0])] + rest
  }

  /** `Collect` once the alerts are fetched. */
  function Collect(env: Env, sources: seq<SourceAlert>): (r: seq<Connectors.Alert>)
    ensures |sources| == 0 ==> r == [DeadMansSwitch(env)]
    ensures |sources| > 0 ==> forall x :: x in r <==> exists a :: a in sources && !Skipped(a) && x == ToAlert(env, a)
  {
    if |sources| == 0 then [DeadMansSwitch(env)] else Reported(env, sources)
  }

  /** Every reported alert carries the three default label names. */
  lemma {:induction false} ReportedHaveDefaults(env: Env, sources: seq<SourceAlert>)
    ensures forall x :: x in Reported(env, sources) ==> "Cluster" in x.labels && "Namespace" in x.labels && "Source" in x.labels
  {
    if |sources| > 0 {
      ReportedHaveDefaults(env, sources[1..]);
    }
  }

  /** An empty answer gives one critical alert; a non-empty one never mentions the switch. */
  lemma DeadMansSwitchOnlyWhenEmpty(env: Env, sources: seq<SourceAlert>)
    ensures |sources| == 0 <==> (exists x :: x in Collect(env, sources) && x.description == "DeadMansSwitch dead" && x.labels.Keys == {"Hostname"})
    ensures |sources| == 0 ==> |Collect(env, sources)| == 1 && Collect(env, sources)[0].state == Connectors.Critical
  {
    if |sources| > 0 {
      ReportedHaveDefaults(env, sources);
    } else {
      assert DeadMansSwitch(env) in Collect(env, sources);
    }
  }

  /** A suppressed, silenced or severity-"none" alert changes nothing once anything else was fetched. */
  lemma {:induction false} SkippedChangesNothing(env: Env, sources: seq<SourceAlert>, a: SourceAlert)
    requires Skipped(a) && |sources| > 0
    ensures Collect(env, sources + [a]) == Collect(env, sources)
  {
    SkippedAppended(env, sources, a);
  }

  lemma {:induction false} SkippedAppended(env: Env, sources: seq<SourceAlert>, a: SourceAlert)
    requires Skipped(a)
    ensures Reported(env, sources + [a]) == Reported(env, sources)
  {
    if |sources| == 0 {
      assert Reported(env, [a]) == Reported(env, [a][1..]);
    } else {
      assert (sources + [a])[1..] == sources[1..] + [a];
      SkippedAppended(env, sources[1..], a);
    }
  }
}

=== FILE: am_filter.dfy ===
/**
 * The Alertmanager-compatible `filter` parameter, `{a="b", c!="d"}`: a
 * hand-written scanner that yields (field, operator, value) triples.
 *
 * The scanner reads runes from the string and answers rune 0 once the
 * input is exhausted; putting a rune back after such a failed read does
 * nothing. Its field and value loops only stop on an operator character or
 * a closing quote, so on exhausted input they read rune 0 for ever. The
 * `AsWritten` functions model that, with `None` for a scan that never
 * returns; the plain functions stop at the end of the input instead, which
 * is what the API relies on.
 */
module AlertmanagerFilter {
  import opened Wrappers

  /** One parsed filter: the matcher text is `operator + " " + value`, compiled elsewhere. */
  datatype FieldMatcher = FieldMatcher(field: string, operator: string, value: string)

  /** The zero `fieldMatcher{}`: an empty field ends the filter. */
  const NoMatcher := FieldMatcher("", "", "")

  /** The text handed to the rule-matcher parser. */
  function MatcherText(m: FieldMatcher): string {
    m.operator + " " + m.value
  }

  predicate IsOperator(c: char) {
    c == '~' || c == '!' || c == '='
  }

  predicate IsSkipped(c: char) {
    c == '{' || c == ',' || c == ' '
  }

  /** The first position at or after `p` that is not a skipped character. */
  function SkipSeparators(s: string, p: nat): (q: nat)
    requires p <= |s|
    ensures p <= q <= |s|
    ensures forall i :: p <= i < q ==> IsSkipped(s[i])
    ensures q < |s| ==> !IsSkipped(s[q])
    decreases |s| - p
  {
    if p < |s| && IsSkipped(s[p]) then SkipSeparators(s, p + 1) else p
  }

  /** `parsePrefix`: the longest run of operator characters at `p`. Always returns. */
  function ParsePrefix(s: string, p: nat): (r: (string, nat))
    requires p <= |s|
    ensures r.1 == p + |r.0| && r.1 <= |s|
    ensures r.0 == s[p..r.1]
    ensures forall i :: p <= i < r.1 ==> IsOperator(s[i])
    ensures r.1 < |s| ==> !IsOperator(s[r.1])
    decreases |s| - p
  {
    if p < |s| && IsOperator(s[p]) then
      var rest := ParsePrefix(s, p + 1);
      ([s[p]] + rest.0, rest.1)
    else ([], p)
  }

  // ----- as written: the end of input makes the field and value loops spin -----

  /** `parseField` as written: the text up to the first operator character; `None` when none follows. */
  function ParseFieldAsWritten(s: string, p: nat): (r: Option<(string, nat)>)
    requires p <= |s|
    ensures r.Some? <==> exists i :: p <= i < |s| && IsOperator(s[i])
    ensures r.Some? ==> r.value.1 == p + |r.value.0| < |s| && r.value.0 == s[p..r.value.1]
    ensures r.Some? ==> IsOperator(s[r.value.1]) && forall i :: p <= i < r.value.1 ==> !IsOperator(s[i])
    decreases |s| - p
  {
    if p == |s| then None
    else if IsOperator(s[p]) then Some(([], p))
    else match ParseFieldAsWritten(s, p + 1)
      case None => None
      case Some(rest) => Some(([s[p]] + rest.0, rest.1))
  }

  /** `parseString` as written: discard one rune, then read up to the next quote; `None` when none follows. */
  function ParseStringAsWritten(s: string, p: nat): (r: Option<(string, nat)>)
    requires p <= |s|
    ensures p == |s| ==> r.None?
    ensures p < |s| ==> (r.Some? <==> exists i :: p < i < |s| && s[i] == '"')
    ensures r.Some? ==> p + 1 < r.value.1 <= |s| && s[r.value.1 - 1] == '"'
    ensures r.Some? ==> r.value.0 == s[p + 1..r.value.1 - 1] && '"' !in r.value.0
  {
    QuotedRestAsWritten(s, if p < |s| then p + 1 else p)
  }

  function QuotedRestAsWritten(s: string, p: nat): (r: Option<(string, nat)>)
    requires p <= |s|
    ensures r.Some? <==> exists i :: p <= i < |s| && s[i] == '"'
    ensures r.Some? ==> p < r.value.1 <= |s| && s[r.value.1 - 1] == '"'
    ensures r.Some? ==> r.value.0 == s[p..r.value.1 - 1] && '"' !in r.value.0
    decreases |s| - p
  {
    if p == |s| then None
    else if s[p] == '"' then Some(([], p + 1))
    else match QuotedRestAsWritten(s, p + 1)
      case None => None
      case Some(rest) => Some(([s[p]] + rest.0, rest.1))
  }

  /**
   * `scan` as written: after the separators, a closing brace ends the filter;
   * otherwise the field runs up to the first operator character, the
   * operator is the run of operator characters after it, and the value is
   * what follows one skipped rune up to the next quote.
   */
  function ScanAsWritten(s: string, p: nat): (r: Option<(FieldMatcher, nat)>)
    requires p <= |s|
    ensures r.Some? ==> r.value.1 <= |s|
    ensures r.Some? && r.value.0.field != [] ==> r.value.1 > p
    ensures var q := SkipSeparators(s, p);
      q < |s| && s[q] == '}' ==> r == Some((NoMatcher, q + 1))
  {
    var q := SkipSeparators(s, p);
    if q < |s| && s[q] == '}' then Some((NoMatcher, q + 1))
    else
      match ParseFieldAsWritten(s, q)
      case None => None
      case Some(f) =>
        var op := ParsePrefix(s, f.1);
        match ParseStringAsWritten(s, op.1)
        case None => None
        case Some(v) => Some((FieldMatcher(f.0, op.0, v.0), v.1))
  }

  /**
   * What a scan that does not meet a closing brace reads: nothing, when no
   * operator character follows; otherwise, when it returns, the triple at
   * the first position after the separators.
   */
  lemma ScanReads(s: string, p: nat)
    requires p <= |s|
    ensures var q := SkipSeparators(s, p);
      !(q < |s| && s[q] == '}') && (forall i :: q <= i < |s| ==> !IsOperator(s[i])) ==> ScanAsWritten(s, p).None?
    ensures var q := SkipSeparators(s, p);
      var r := ScanAsWritten(s, p);
      r.Some? && !(q < |s| && s[q] == '}') ==> FieldAt(s, q, r.value.0, r.value.1)
  {
    var q := SkipSeparators(s, p);
    if !(q < |s| && s[q] == '}') {
      var f := ParseFieldAsWritten(s, q);
      if f.Some? {
        var op := ParsePrefix(s, f.value.1);
        var v := ParseStringAsWritten(s, op.1);
        if v.Some? {
          FieldAtParts(s, q, f.value, op, v.value);
        }
      }
    }
  }

  lemma FieldAtParts(s: string, q: nat, f: (string, nat), op: (string, nat), v: (string, nat))
    requires q <= |s| && ParseFieldAsWritten(s, q) == Some(f)
    requires f.1 <= |s| && ParsePrefix(s, f.1) == op
    requires op.1 <= |s| && ParseStringAsWritten(s, op.1) == Some(v)
    ensures FieldAt(s, q, FieldMatcher(f.0, op.0, v.0), v.1)
  {
  }

  /**
   * One parsed triple at `q`: `field` is the text up to the first operator
   * character, `operator` the operator characters after it, and `value` the
   * text after one more rune up to the quote just before `next`.
   */
  predicate FieldAt(s: string, q: nat, m: FieldMatcher, next: nat) {
    var k := q + |m.field|;
    var v := k + |m.operator|;
    && v < next <= |s|
    && s[q..k] == m.field && (forall i :: q <= i < k ==> !IsOperator(s[i])) && IsOperator(s[k])
    && s[k..v] == m.operator && (forall i :: k <= i < v ==> IsOperator(s[i])) && (v < |s| ==> !IsOperator(s[v]))
    && v + 1 < next && s[next - 1] == '"' && s[v + 1..next - 1] == m.value && '"' !in m.value
  }

  /** The scanner as written, with positions past the end of input scanning nothing. */
  function WrittenScanner(s: string): nat -> Option<(FieldMatcher, nat)> {
    (p: nat) => if p <= |s| then ScanAsWritten(s, p) else None
  }

  /**
   * `ms` is what successive scans from `p` read, each scan starting where
   * the previous one stopped (`ps` holds the starts), and every one of them
   * has a field.
   */
  predicate Chain(scan: nat -> Option<(FieldMatcher, nat)>, p: nat, ps: seq<nat>, ms: seq<FieldMatcher>) {
    && |ps| == |ms| + 1 && ps[0] == p
    && forall i :: 0 <= i < |ms| ==> scan(ps[i]) == Some((ms[i], ps[i + 1])) && ms[i].field != []
  }

  /** The scan that ends a chain: it returns, with an empty field. */
  predicate Stops(scan: nat -> Option<(FieldMatcher, nat)>, q: nat) {
    scan(q).Some? && scan(q).value.0.field == []
  }

  /**
   * `parseFilter` as written, from position `p`: the triples successive
   * scans read up to the first one without a field; `None` when some scan
   * along the way never returns.
   */
  function ParseFilterFromAsWritten(s: string, p: nat): (r: Option<seq<FieldMatcher>>)
    requires p <= |s|
    ensures r.Some? ==> forall i :: 0 <= i < |r.value| ==> r.value[i].field != []
    decreases |s| - p
  {
    match ScanAsWritten(s, p)
    case None => None
    case Some(m) =>
      if m.0.field == [] then Some([])
      else match ParseFilterFromAsWritten(s, m.1)
        case None => None
        case Some(rest) => Some([m.0] + rest)
  }

  /**
   * `parseFilter` as written reads, from `p`, the triples of successive
   * scans up to the first one without a field, and fails exactly when a
   * scan along the way never returns.
   */
  lemma {:induction false} WrittenChainFrom(s: string, p: nat)
    requires p <= |s|
    ensures var r := ParseFilterFromAsWritten(s, p);
      r.Some? ==> exists ps :: Chain(WrittenScanner(s), p, ps, r.value) && Stops(WrittenScanner(s), ps[|r.value|])
    ensures var r := ParseFilterFromAsWritten(s, p);
      r.None? ==> exists ps, ms :: Chain(WrittenScanner(s), p, ps, ms) && WrittenScanner(s)(ps[|ms|]).None?
    decreases |s| - p
  {
    var scan := WrittenScanner(s);
    assert scan(p) == ScanAsWritten(s, p);
    match ScanAsWritten(s, p)
    case None =>
      ChainStart(scan, p);
    case Some(m) =>
      if m.0.field == [] {
        ChainStart(scan, p);
      } else {
        WrittenChainFrom(s, m.1);
        match ParseFilterFromAsWritten(s, m.1)
        case None =>
          ChainFails(scan, p, m.0, m.1);
        case Some(rest) =>
          ChainStops(scan, p, m.0, m.1, rest);
      }
  }

  lemma ChainStart(scan: nat -> Option<(FieldMatcher, nat)>, p: nat)
    ensures Chain(scan, p, [p], [])
  {
  }

  /** A scan with a field in front of a chain that stops extends it. */
  lemma ChainStops(scan: nat -> Option<(FieldMatcher, nat)>, p: nat, m: FieldMatcher, q: nat, rest: seq<FieldMatcher>)
    requires scan(p) == Some((m, q)) && m.field != []
    requires exists ps :: Chain(scan, q, ps, rest) && Stops(scan, ps[|rest|])
    ensures exists ps :: Chain(scan, p, ps, [m] + rest) && Stops(scan, ps[|rest| + 1])
  {
    var ps :| Chain(scan, q, ps, rest) && Stops(scan, ps[|rest|]);
    ChainCons(scan, p, m, ps, rest);
  }

  /** A scan with a field in front of a chain that fails extends it. */
  lemma ChainFails(scan: nat -> Option<(FieldMatcher, nat)>, p: nat, m: FieldMatcher, q: nat)
    requires scan(p) == Some((m, q)) && m.field != []
    requires exists ps, ms :: Chain(scan, q, ps, ms) && scan(ps[|ms|]).None?
    ensures exists ps, ms :: Chain(scan, p, ps, ms) && scan(ps[|ms|]).None?
  {
    var ps, ms :| Chain(scan, q, ps, ms) && scan(ps[|ms|]).None?;
    ChainCons(scan, p, m, ps, ms);
  }

  /** A scan with a field in front of a chain extends it. */
  lemma ChainCons(scan: nat -> Option<(FieldMatcher, nat)>, p: nat, m: FieldMatcher, ps: seq<nat>, ms: seq<FieldMatcher>)
    requires |ps| > 0 && scan(p) == Some((m, ps[0])) && m.field != []
    requires Chain(scan, ps[0], ps, ms)
    ensures Chain(scan, p, [p] + ps, [m] + ms)
    ensures ([p] + ps)[|ms| + 1] == ps[|ms|]
  {
  }

  /** `parseFilter` as written; `None` when some scan never returns. */
  function ParseFilterAsWritten(s: string): (r: Option<seq<FieldMatcher>>)
    ensures r.Some? ==> forall i :: 0 <= i < |r.value| ==> r.value[i].field != []
  {
    ParseFilterFromAsWritten(s, 0)
  }

  /** The whole filter as written is the chain of scans from its start. */
  lemma WrittenChain(s: string)
    ensures var r := ParseFilterAsWritten(s);
      r.Some? ==> exists ps :: Chain(WrittenScanner(s), 0, ps, r.value) && Stops(WrittenScanner(s), ps[|r.value|])
    ensures var r := ParseFilterAsWritten(s);
      r.None? ==> exists ps, ms :: Chain(WrittenScanner(s), 0, ps, ms) && WrittenScanner(s)(ps[|ms|]).None?
  {
    WrittenChainFrom(s, 0);
  }

  /** One step of each loop, for evaluating the scanner on concrete filters. */
  lemma FieldStep(s: string, p: nat, f: string, q: nat)
    requires p < |s| && !IsOperator(s[p])
    requires ParseFieldAsWritten(s, p + 1) == Some((f, q))
    ensures ParseFieldAsWritten(s, p) == Some(([s[p]] + f, q))
  {
  }

  lemma PrefixStep(s: string, p: nat, f: string, q: nat)
    requires p < |s| && IsOperator(s[p])
    requires ParsePrefix(s, p + 1) == (f, q)
    ensures ParsePrefix(s, p) == ([s[p]] + f, q)
  {
  }

  lemma QuotedStep(s: string, p: nat, f: string, q: nat)
    requires p < |s| && s[p] != '"'
    requires QuotedRestAsWritten(s, p + 1) == Some((f, q))
    ensures QuotedRestAsWritten(s, p) == Some(([s[p]] + f, q))
  {
  }

  lemma FilterStep(s: string, p: nat, m: FieldMatcher, q: nat, rest: seq<FieldMatcher>)
    requires p <= |s|
    requires ScanAsWritten(s, p) == Some((m, q)) && m.field != []
    requires ParseFilterFromAsWritten(s, q) == Some(rest)
    ensures ParseFilterFromAsWritten(s, p) == Some([m] + rest)
  {
  }

  /** An empty filter value and a filter without braces both make the scanner spin for ever. */
  lemma NonTerminatingInputs()
    ensures ParseFilterAsWritten("").None?
    ensures ParseFilterAsWritten("a=\"b\"").None?
  {
    assert ParseFieldAsWritten("", 0).None?;
    var s := "a=\"b\"";
    assert |s| == 5 && s[0] == 'a' && s[1] == '=' && s[2] == '"' && s[3] == 'b' && s[4] == '"';
    assert SkipSeparators(s, 0) == 0;
    assert ParseFieldAsWritten(s, 1) == Some(([], 1));
    FieldStep(s, 0, "", 1);
    assert [s[0]] + "" == "a";
    assert ParseFieldAsWritten(s, 0) == Some(("a", 1));
    assert ParsePrefix(s, 2) == ([], 2);
    PrefixStep(s, 1, "", 2);
    assert [s[1]] + "" == "=";
    assert ParsePrefix(s, 1) == ("=", 2);
    assert QuotedRestAsWritten(s, 4) == Some(([], 5));
    QuotedStep(s, 3, "", 5);
    assert [s[3]] + "" == "b";
    assert QuotedRestAsWritten(s, 3) == Some(("b", 5));
    assert ScanAsWritten(s, 0) == Some((FieldMatcher("a", "=", "b"), 5));
    assert SkipSeparators(s, 5) == 5;
    assert ParseFieldAsWritten(s, 5).None?;
    assert ScanAsWritten(s, 5).None?;
  }

  /** `s` is the brace-less filter `a="b"`, spelled out so that the verifier does not unfold it as a literal. */
  predicate SpellsOneField(s: string) {
    |s| == 5 && s[0] == 'a' && s[1] == '=' && s[2] == '"' && s[3] == 'b' && s[4] == '"'
  }

  /** The terminating scanner reads the empty filter as no matchers and a brace-less filter as its one matcher. */
  lemma TerminatingInputs(s: string)
    requires SpellsOneField(s)
    ensures ParseFilter("") == []
    ensures ParseFilter(s) == [FieldMatcher("a", "=", "b")]
  {
    assert ParseFieldAsWritten("", 0).None?;
    assert ParseFieldAsWritten(s, 0) == Some(("a", 1)) by {
      assert ParseFieldAsWritten(s, 1) == Some(([], 1));
      FieldStep(s, 0, "", 1);
      assert [s[0]] + "" == "a";
    }
    FieldAgrees(s, 0);
    assert ParsePrefix(s, 1) == ("=", 2) by {
      assert ParsePrefix(s, 2) == ([], 2);
      PrefixStep(s, 1, "", 2);
      assert [s[1]] + "" == "=";
    }
    assert QuotedRestAsWritten(s, 3) == Some(("b", 5)) by {
      assert QuotedRestAsWritten(s, 4) == Some(([], 5));
      QuotedStep(s, 3, "", 5);
      assert [s[3]] + "" == "b";
    }
    QuotedAgrees(s, 3);
    assert Scan(s, 0) == (FieldMatcher("a", "=", "b"), 5);
    assert Scan(s, 5) == (NoMatcher, 5);
    assert ParseFilterFrom(s, 5) == [];
    assert [FieldMatcher("a", "=", "b")] + [] == [FieldMatcher("a", "=", "b")];
  }


  // ----- the scanner stopping at the end of input -----

  /** `parseField`, stopping at the end of input. */
  function ParseField(s: string, p: nat): (r: (string, nat))
    requires p <= |s|
    ensures r.1 == p + |r.0| <= |s| && r.0 == s[p..r.1]
    ensures forall i :: p <= i < r.1 ==> !IsOperator(s[i])
    ensures r.1 < |s| ==> IsOperator(s[r.1])
    decreases |s| - p
  {
    if p == |s| || IsOperator(s[p]) then ([], p)
    else
      var rest := ParseField(s, p + 1);
      ([s[p]] + rest.0, rest.1)
  }

  /** `parseString`, stopping at the end of input. */
  function ParseString(s: string, p: nat): (r: (string, nat))
    requires p <= |s|
    ensures r.1 <= |s|
  {
    QuotedRest(s, if p < |s| then p + 1 else p)
  }

  function QuotedRest(s: string, p: nat): (r: (string, nat))
    requires p <= |s|
    ensures p <= r.1 <= |s| && '"' !in r.0
    decreases |s| - p
  {
    if p == |s| then ([], p)
    else if s[p] == '"' then ([], p + 1)
    else
      var rest := QuotedRest(s, p + 1);
      ([s[p]] + rest.0, rest.1)
  }

  /** `scan`: skip separators; a closing brace or the end of input ends the filter. */
  function Scan(s: string, p: nat): (r: (FieldMatcher, nat))
    requires p <= |s|
    ensures r.1 <= |s|
    ensures r.0.field != [] ==> r.1 > p
  {
    var q := SkipSeparators(s, p);
    if q == |s| then (NoMatcher, q)
    else if s[q] == '}' then (NoMatcher, q + 1)
    else
      var f := ParseField(s, q);
      var op := ParsePrefix(s, f.1);
      var v := ParseString(s, op.1);
      (FieldMatcher(f.0, op.0, v.0), v.1)
  }

  /** The terminating scanner, with positions past the end of input scanning nothing. */
  function Scanner(s: string): nat -> Option<(FieldMatcher, nat)> {
    (p: nat) => if p <= |s| then Some(Scan(s, p)) else None
  }

  function ParseFilterFrom(s: string, p: nat): (r: seq<FieldMatcher>)
    requires p <= |s|
    ensures forall i :: 0 <= i < |r| ==> r[i].field != []
    decreases |s| - p
  {
    var m := Scan(s, p);
    if m.0.field == [] then [] else [m.0] + ParseFilterFrom(s, m.1)
  }

  /** `parseFilter`: the matchers up to the first empty field, always returning. */
  function ParseFilter(s: string): (r: seq<FieldMatcher>)
    ensures forall i :: 0 <= i < |r| ==> r[i].field != []
  {
    ParseFilterFrom(s, 0)
  }

  /** From `p`, the terminating parser reads the triples of successive scans up to the first one without a field. */
  lemma {:induction false} ChainFrom(s: string, p: nat)
    requires p <= |s|
    ensures exists ps :: Chain(Scanner(s), p, ps, ParseFilterFrom(s, p)) && Stops(Scanner(s), ps[|ParseFilterFrom(s, p)|])
    decreases |s| - p
  {
    var scan := Scanner(s);
    var m := Scan(s, p);
    assert scan(p) == Some(m);
    var r := ParseFilterFrom(s, p);
    if m.0.field == [] {
      assert r == [];
      ChainStart(scan, p);
      assert Chain(scan, p, [p], r) && Stops(scan, [p][|r|]);
    } else {
      var rest := ParseFilterFrom(s, m.1);
      assert r == [m.0] + rest;
      ChainFrom(s, m.1);
      ChainStops(scan, p, m.0, m.1, rest);
    }
  }

  /** The whole filter is the chain of scans from its start, up to the first one without a field. */
  lemma FilterChain(s: string)
    ensures exists ps :: Chain(Scanner(s), 0, ps, ParseFilter(s)) && Stops(Scanner(s), ps[|ParseFilter(s)|])
  {
    ChainFrom(s, 0);
    assert ParseFilter(s) == ParseFilterFrom(s, 0);
  }

  lemma {:induction false} FieldAgrees(s: string, p: nat)
    requires p <= |s|
    requires ParseFieldAsWritten(s, p).Some?
    ensures ParseField(s, p) == ParseFieldAsWritten(s, p).value
    decreases |s| - p
  {
    if p < |s| && !IsOperator(s[p]) {
      FieldAgrees(s, p + 1);
    }
  }

  lemma {:induction false} QuotedAgrees(s: string, p: nat)
    requires p <= |s|
    requires QuotedRestAsWritten(s, p).Some?
    ensures QuotedRest(s, p) == QuotedRestAsWritten(s, p).value
    decreases |s| - p
  {
    if p < |s| && s[p] != '"' {
      QuotedAgrees(s, p + 1);
    }
  }

  lemma StringAgrees(s: string, p: nat)
    requires p <= |s|
    requires ParseStringAsWritten(s, p).Some?
    ensures ParseString(s, p) == ParseStringAsWritten(s, p).value
  {
    QuotedAgrees(s, if p < |s| then p + 1 else p);
  }

  lemma ScanAgrees(s: string, p: nat)
    requires p <= |s|
    requires ScanAsWritten(s, p).Some?
    ensures Scan(s, p) == ScanAsWritten(s, p).value
  {
    var q := SkipSeparators(s, p);
    if !(q < |s| && s[q] == '}') {
      FieldAgrees(s, q);
      StringAgrees(s, ParsePrefix(s, ParseField(s, q).1).1);
    }
  }

  /** Wherever the scanner as written returns, the terminating scanner returns the same matchers. */
  lemma {:induction false} ParseFilterAgrees(s: string, p: nat)
    requires p <= |s|
    requires ParseFilterFromAsWritten(s, p).Some?
    ensures ParseFilterFrom(s, p) == ParseFilterFromAsWritten(s, p).value
    decreases |s| - p
  {
    ScanAgrees(s, p);
    var m := Scan(s, p);
    if m.0.field != [] {
      ParseFilterAgrees(s, m.1);
    }
  }

  lemma SingleScan()
    ensures ParseFilterFromAsWritten("{a=\"b\"}", 0) == Some([FieldMatcher("a", "=", "b")])
  {
    var s := "{a=\"b\"}";
    assert |s| == 7 && s[0] == '{' && s[1] == 'a' && s[2] == '=' && s[3] == '"' && s[4] == 'b' && s[5] == '"' && s[6] == '}';
    assert SkipSeparators(s, 1) == 1;
    assert SkipSeparators(s, 0) == 1;
    assert ParseFieldAsWritten(s, 2) == Some(([], 2));
    FieldStep(s, 1, "", 2);
    assert [s[1]] + "" == "a";
    assert ParseFieldAsWritten(s, 1) == Some(("a", 2));
    assert ParsePrefix(s, 3) == ([], 3);
    PrefixStep(s, 2, "", 3);
    assert [s[2]] + "" == "=";
    assert ParsePrefix(s, 2) == ("=", 3);
    assert QuotedRestAsWritten(s, 5) == Some(([], 6));
    QuotedStep(s, 4, "", 6);
    assert [s[4]] + "" == "b";
    assert QuotedRestAsWritten(s, 4) == Some(("b", 6));
    assert ScanAsWritten(s, 0) == Some((FieldMatcher("a", "=", "b"), 6));
    assert SkipSeparators(s, 6) == 6;
    assert ScanAsWritten(s, 6) == Some((NoMatcher, 7));
    assert ParseFilterFromAsWritten(s, 6) == Some([]);
    FilterStep(s, 0, FieldMatcher("a", "=", "b"), 6, []);
    assert [FieldMatcher("a", "=", "b")] + [] == [FieldMatcher("a", "=", "b")];
  }

  /** `{a="b"}` gives one matcher on field "a". */
  lemma SingleMatcher()
    ensures ParseFilterAsWritten("{a=\"b\"}") == Some([FieldMatcher("a", "=", "b")])
    ensures ParseFilter("{a=\"b\"}") == [FieldMatcher("a", "=", "b")]
  {
    SingleScan();
    ParseFilterAgrees("{a=\"b\"}", 0);
  }

  /**
   * `s` is the three-matcher filter of the API tests,
   * `{a="b", c!="d", eeee=~"ffff"}`, spelled out character by character so
   * that the evaluation lemmas below work on a string the verifier does not
   * unfold as a literal.
   */
  predicate SpellsThreeFilter(s: string) {
    |s| == 29 && s[0] == '{' && s[1] == 'a' && s[2] == '=' && s[3] == '"' && s[4] == 'b' && s[5] == '"' && s[6] == ',' && s[7] == ' ' && s[8] == 'c' && s[9] == '!'
      && s[10] == '=' && s[11] == '"' && s[12] == 'd' && s[13] == '"' && s[14] == ',' && s[15] == ' ' && s[16] == 'e' && s[17] == 'e' && s[18] == 'e' && s[19] == 'e'
      && s[20] == '=' && s[21] == '~' && s[22] == '"' && s[23] == 'f' && s[24] == 'f' && s[25] == 'f' && s[26] == 'f' && s[27] == '"' && s[28] == '}'
  }

  lemma ThreeFirst(s: string)
    requires SpellsThreeFilter(s)
    ensures ScanAsWritten(s, 0) == Some((FieldMatcher("a", "=", "b"), 6))
  {
    assert |s| == 29 && s[0] == '{' && s[1] == 'a' && s[2] == '=' && s[3] == '"' && s[4] == 'b' && s[5] == '"' && s[6] == ',';
    assert SkipSeparators(s, 1) == 1;
    assert SkipSeparators(s, 0) == 1;
    assert ParseFieldAsWritten(s, 2) == Some(([], 2));
    FieldStep(s, 1, "", 2);
    assert [s[1]] + "" == "a";
    assert ParseFieldAsWritten(s, 1) == Some(("a", 2));
    assert ParsePrefix(s, 3) == ([], 3);
    PrefixStep(s, 2, "", 3);
    assert [s[2]] + "" == "=";
    assert ParsePrefix(s, 2) == ("=", 3);
    assert QuotedRestAsWritten(s, 5) == Some(([], 6));
    QuotedStep(s, 4, "", 6);
    assert [s[4]] + "" == "b";
    assert QuotedRestAsWritten(s, 4) == Some(("b", 6));
  }

  lemma ThreeSecond(s: string)
    requires SpellsThreeFilter(s)
    ensures ScanAsWritten(s, 6) == Some((FieldMatcher("c", "!=", "d"), 14))
  {
    assert |s| == 29 && s[6] == ',' && s[7] == ' ' && s[8] == 'c' && s[9] == '!' && s[10] == '=' && s[11] == '"' && s[12] == 'd' && s[13] == '"' && s[14] == ',';
    assert SkipSeparators(s, 8) == 8;
    assert SkipSeparators(s, 6) == 8;
    assert ParseFieldAsWritten(s, 9) == Some(([], 9));
    FieldStep(s, 8, "", 9);
    assert [s[8]] + "" == "c";
    assert ParseFieldAsWritten(s, 8) == Some(("c", 9));
    assert ParsePrefix(s, 11) == ([], 11);
    PrefixStep(s, 10, "", 11);
    assert [s[10]] + "" == "=";
    assert ParsePrefix(s, 10) == ("=", 11);
    PrefixStep(s, 9, "=", 11);
    assert [s[9]] + "=" == "!=";
    assert ParsePrefix(s, 9) == ("!=", 11);
    assert QuotedRestAsWritten(s, 13) == Some(([], 14));
    QuotedStep(s, 12, "", 14);
    assert [s[12]] + "" == "d";
    assert QuotedRestAsWritten(s, 12) == Some(("d", 14));
  }

  lemma ThreeThirdField(s: string)
    requires SpellsThreeFilter(s)
    ensures ParseFieldAsWritten(s, 16) == Some(("eeee", 20))
  {
    assert |s| == 29 && s[14] == ',' && s[15] == ' ' && s[16] == 'e' && s[17] == 'e' && s[18] == 'e' && s[19] == 'e' && s[20] == '=' && s[21] == '~' && s[22] == '"' && s[23] == 'f' && s[24] == 'f' && s[25] == 'f' && s[26] == 'f' && s[27] == '"' && s[28] == '}';
    assert ParseFieldAsWritten(s, 20) == Some(([], 20));
    FieldStep(s, 19, "", 20);
    assert [s[19]] + "" == "e";
    assert ParseFieldAsWritten(s, 19) == Some(("e", 20));
    FieldStep(s, 18, "e", 20);
    assert [s[18]] + "e" == "ee";
    assert ParseFieldAsWritten(s, 18) == Some(("ee", 20));
    FieldStep(s, 17, "ee", 20);
    assert [s[17]] + "ee" == "eee";
    assert ParseFieldAsWritten(s, 17) == Some(("eee", 20));
    FieldStep(s, 16, "eee", 20);
    assert [s[16]] + "eee" == "eeee";
    assert ParseFieldAsWritten(s, 16) == Some(("eeee", 20));
  }

  lemma ThreeThirdValue(s: string)
    requires SpellsThreeFilter(s)
    ensures QuotedRestAsWritten(s, 23) == Some(("ffff", 28))
  {
    assert |s| == 29 && s[14] == ',' && s[15] == ' ' && s[16] == 'e' && s[17] == 'e' && s[18] == 'e' && s[19] == 'e' && s[20] == '=' && s[21] == '~' && s[22] == '"' && s[23] == 'f' && s[24] == 'f' && s[25] == 'f' && s[26] == 'f' && s[27] == '"' && s[28] == '}';
    assert QuotedRestAsWritten(s, 27) == Some(([], 28));
    QuotedStep(s, 26, "", 28);
    assert [s[26]] + "" == "f";
    assert QuotedRestAsWritten(s, 26) == Some(("f", 28));
    QuotedStep(s, 25, "f", 28);
    assert [s[25]] + "f" == "ff";
    assert QuotedRestAsWritten(s, 25) == Some(("ff", 28));
    QuotedStep(s, 24, "ff", 28);
    assert [s[24]] + "ff" == "fff";
    assert QuotedRestAsWritten(s, 24) == Some(("fff", 28));
    QuotedStep(s, 23, "fff", 28);
    assert [s[23]] + "fff" == "ffff";
    assert QuotedRestAsWritten(s, 23) == Some(("ffff", 28));
  }

  lemma ThreeThird(s: string)
    requires SpellsThreeFilter(s)
    ensures ScanAsWritten(s, 14) == Some((FieldMatcher("eeee", "=~", "ffff"), 28))
  {
    assert |s| == 29 && s[14] == ',' && s[15] == ' ' && s[16] == 'e' && s[17] == 'e' && s[18] == 'e' && s[19] == 'e' && s[20] == '=' && s[21] == '~' && s[22] == '"' && s[23] == 'f' && s[24] == 'f' && s[25] == 'f' && s[26] == 'f' && s[27] == '"' && s[28] == '}';
    assert SkipSeparators(s, 16) == 16;
    assert SkipSeparators(s, 14) == 16;
    assert ParsePrefix(s, 22) == ([], 22);
    PrefixStep(s, 21, "", 22);
    assert [s[21]] + "" == "~";
    assert ParsePrefix(s, 21) == ("~", 22);
    PrefixStep(s, 20, "~", 22);
    assert [s[20]] + "~" == "=~";
    assert ParsePrefix(s, 20) == ("=~", 22);
    ThreeThirdField(s);
    ThreeThirdValue(s);
  }

  lemma ThreeFrom28(s: string)
    requires SpellsThreeFilter(s)
    ensures ParseFilterFromAsWritten(s, 28) == Some([])
  {
    assert |s| == 29 && s[28] == '}';
    assert SkipSeparators(s, 28) == 28;
    assert ScanAsWritten(s, 28) == Some((NoMatcher, 29));
  }

  /** Three scans with fields, then a closing brace, make a filter of three. */
  lemma ThreeSteps(s: string, m1: FieldMatcher, m2: FieldMatcher, m3: FieldMatcher)
    requires 28 <= |s|
    requires ScanAsWritten(s, 0) == Some((m1, 6)) && m1.field != []
    requires ScanAsWritten(s, 6) == Some((m2, 14)) && m2.field != []
    requires ScanAsWritten(s, 14) == Some((m3, 28)) && m3.field != []
    requires ParseFilterFromAsWritten(s, 28) == Some([])
    ensures ParseFilterFromAsWritten(s, 0) == Some([m1, m2, m3])
  {
    LastTwoSteps(s, m2, m3);
    FilterStep(s, 0, m1, 6, [m2, m3]);
    assert [m1] + [m2, m3] == [m1, m2, m3];
  }

  lemma LastTwoSteps(s: string, m2: FieldMatcher, m3: FieldMatcher)
    requires 28 <= |s|
    requires ScanAsWritten(s, 6) == Some((m2, 14)) && m2.field != []
    requires ScanAsWritten(s, 14) == Some((m3, 28)) && m3.field != []
    requires ParseFilterFromAsWritten(s, 28) == Some([])
    ensures ParseFilterFromAsWritten(s, 6) == Some([m2, m3])
  {
    FilterStep(s, 14, m3, 28, []);
    assert [m3] + [] == [m3];
    FilterStep(s, 6, m2, 14, [m3]);
    assert [m2] + [m3] == [m2, m3];
  }

  lemma ThreeScans(s: string)
    requires SpellsThreeFilter(s)
    ensures ParseFilterFromAsWritten(s, 0) ==
      Some([FieldMatcher("a", "=", "b"), FieldMatcher("c", "!=", "d"), FieldMatcher("eeee", "=~", "ffff")])
  {
    ThreeFirst(s);
    ThreeSecond(s);
    ThreeThird(s);
    ThreeFrom28(s);
    ThreeSteps(s, FieldMatcher("a", "=", "b"), FieldMatcher("c", "!=", "d"), FieldMatcher("eeee", "=~", "ffff"));
  }

  /** `{a="b", c!="d", eeee=~"ffff"}` gives three matchers, on "a", "c" and "eeee" in that order. */
  lemma ThreeMatchers(s: string)
    requires SpellsThreeFilter(s)
    ensures ParseFilterAsWritten(s) ==
      Some([FieldMatcher("a", "=", "b"), FieldMatcher("c", "!=", "d"), FieldMatcher("eeee", "=~", "ffff")])
    ensures ParseFilter(s) ==
      [FieldMatcher("a", "=", "b"), FieldMatcher("c", "!=", "d"), FieldMatcher("eeee", "=~", "ffff")]
  {
    ThreeScans(s);
    FromStart(s);
    ParseFilterAgrees(s, 0);
  }

  lemma FromStart(s: string)
    ensures ParseFilterAsWritten(s) == ParseFilterFromAsWritten(s, 0)
    ensures ParseFilter(s) == ParseFilterFrom(s, 0)
  {
  }



  /** The separators `{`, `,` and space are skipped and `}` ends the scan. */
  lemma BraceEndsScan(s: string, p: nat)
    requires p <= |s|
    requires SkipSeparators(s, p) < |s| && s[SkipSeparators(s, p)] == '}'
    ensures ScanAsWritten(s, p) == Some((NoMatcher, SkipSeparators(s, p) + 1))
    ensures ParseFilterFromAsWritten(s, p) == Some([])
  {
  }
}

=== FILE: am_web.dfy ===
/**
 * The Alertmanager-compatible `GET /v2/alerts` endpoint: every non-green
 * alert of every dashboard, as an Alertmanager "gettable alert" whose
 * annotations are the alert's labels plus `dashboard` and `severity`,
 * narrowed by the `active`, `inhibited` and `filter` query parameters.
 *
 * As written, the label map of the alert is written to directly, and the
 * alert standing for a failed collection has no label map, so a dashboard
 * showing a collection failure makes the request fail; `MapAlertAsWritten`
 * and `AlertsAsWritten` keep that, `MapAlert` and `Alerts` start from an
 * empty map instead.
 */
module AlertmanagerApi {
  import opened Wrappers
  import opened RuleEngine
  import opened Matching
  import opened AlertmanagerFilter
  import Aggregation
  import AggregatorState
  import Grouping

  const ActiveState := "active"
  const SuppressedState := "suppressed"

  /** `gettableAlert` without its clock-derived time stamps. */
  datatype Gettable = Gettable(annotations: map<string, string>, fingerprint: string, state: string)

  /**
   * The query parameters: the first `active` and `inhibited` values (empty
   * when absent) and every `filter` value.
   */
  datatype Query = Query(active: string, inhibited: string, filters: seq<string>)

  /** A boolean parameter: true unless given and different from "true". */
  function Flag(val: string): (b: bool)
    ensures b <==> val == "" || val == "true"
  {
    if val != "" then val == "true" else true
  }

  /** The Alertmanager severity for a tuwat status colour. */
  function Severity(status: string): (s: string)
    ensures s == "critical" <==> status == "red"
    ensures s == "warning" <==> status == "yellow"
    ensures s == "" <==> status != "red" && status != "yellow"
  {
    if status == "red" then "critical"
    else if status == "yellow" then "warning"
    else ""
  }

  /** One alert the handler reports: its dashboard, the alert and the state it is reported in. */
  datatype Candidate = Candidate(dashboard: string, alert: Alert, state: string)

  /** The non-green alerts of `alerts`, in order, reported for `name` in `state`. */
  function NonGreen(name: string, alerts: seq<Alert>, state: string): (r: seq<Candidate>)
    ensures forall c :: c in r <==>
      c.dashboard == name && c.state == state && c.alert in alerts && c.alert.status != "green"
    ensures |r| <= |alerts|
  {
    if |alerts| == 0 then []
    else
      var rest := NonGreen(name, alerts[1..], state);
      assert forall x :: x in alerts <==> x == alerts[0] || x in alerts[1..];
      if alerts[0].status == "green" then rest
      else [Candidate(name, alerts[0], state)] + rest
  }

  /** The alerts of the groups, group by group. */
  function GroupedAlerts(groups: seq<Grouping.AlertGroup>): (r: seq<Alert>)
    ensures forall a :: a in r <==> exists i :: 0 <= i < |groups| && a in groups[i].alerts
  {
    if |groups| == 0 then []
    else
      var rest := GroupedAlerts(groups[1..]);
      assert forall i :: 1 <= i < |groups| ==> groups[1..][i - 1] == groups[i];
      groups[0].alerts + rest
  }

  function BlockedAlerts(blocked: seq<Aggregation.BlockedAlert>): (r: seq<Alert>)
    ensures |r| == |blocked|
    ensures forall i :: 0 <= i < |r| ==> r[i] == blocked[i].alert
  {
    if |blocked| == 0 then [] else [blocked[0].alert] + BlockedAlerts(blocked[1..])
  }

  /**
   * What one dashboard contributes: its shown alerts and the alerts of its
   * groups as active, its blocked alerts as suppressed; green ones never.
   */
  function Candidates(name: string, data: Aggregation.AggregateData): (r: seq<Candidate>)
    ensures forall c :: c in r ==> c.dashboard == name && c.alert.status != "green"
    ensures forall c :: c in r ==> c.state == ActiveState || c.state == SuppressedState
    ensures forall a :: a in data.alerts && a.status != "green" ==> Candidate(name, a, ActiveState) in r
    ensures forall i, a :: 0 <= i < |data.grouped| && a in data.grouped[i].alerts && a.status != "green" ==>
      Candidate(name, a, ActiveState) in r
    ensures forall i :: 0 <= i < |data.blocked| && data.blocked[i].alert.status != "green" ==>
      Candidate(name, data.blocked[i].alert, SuppressedState) in r
    ensures forall c :: c in r && c.state == SuppressedState ==>
      exists i :: 0 <= i < |data.blocked| && data.blocked[i].alert == c.alert
    ensures forall c :: c in r && c.state == ActiveState ==>
      c.alert in data.alerts || exists i :: 0 <= i < |data.grouped| && c.alert in data.grouped[i].alerts
  {
    var blocked := BlockedAlerts(data.blocked);
    assert forall i :: 0 <= i < |data.blocked| ==> data.blocked[i].alert in blocked by {
      forall i | 0 <= i < |data.blocked| ensures data.blocked[i].alert in blocked {
        assert blocked[i] == data.blocked[i].alert;
      }
    }
    NonGreen(name, data.alerts, ActiveState)
      + NonGreen(name, GroupedAlerts(data.grouped), ActiveState)
      + NonGreen(name, blocked, SuppressedState)
  }

  /** The annotations: the labels with `dashboard` and `severity` written over them. */
  function Annotations(labels: map<string, string>, c: Candidate): (m: map<string, string>)
    ensures "dashboard" in m && "severity" in m
    ensures m["dashboard"] == c.dashboard && m["severity"] == Severity(c.alert.status)
    ensures forall k :: k in m <==> k in labels || k == "dashboard" || k == "severity"
    ensures forall k :: k in labels && k != "dashboard" && k != "severity" ==> m[k] == labels[k]
  {
    labels["dashboard" := c.dashboard]["severity" := Severity(c.alert.status)]
  }

  /** `mapAlert` as written: writing into a nil label map panics. */
  function MapAlertAsWritten(c: Candidate): (r: Result<Gettable, string>)
    ensures r.Err? <==> c.alert.labels.None?
    ensures r.Ok? ==> r.value.annotations == Annotations(c.alert.labels.value, c)
    ensures r.Ok? ==> r.value.fingerprint == c.alert.id && r.value.state == c.state
  {
    match c.alert.labels
    case None => Err("assignment to entry in nil map")
    case Some(labels) => Ok(Gettable(Annotations(labels, c), c.alert.id, c.state))
  }

  /** `mapAlert`, treating a missing label map as an empty one. */
  function MapAlert(c: Candidate): (g: Gettable)
    ensures g.fingerprint == c.alert.id && g.state == c.state
    ensures "dashboard" in g.annotations && "severity" in g.annotations
    ensures g.annotations["dashboard"] == c.dashboard && g.annotations["severity"] == Severity(c.alert.status)
    ensures forall k :: k in g.annotations <==> HasLabel(c.alert.labels, k) || k == "dashboard" || k == "severity"
  {
    Gettable(Annotations(c.alert.labels.GetOr(map[]), c), c.alert.id, c.state)
  }

  /** Wherever the alert has a label map, both agree. */
  lemma MapAlertAgrees(c: Candidate)
    requires c.alert.labels.Some?
    ensures MapAlertAsWritten(c) == Ok(MapAlert(c))
  {
  }

  /** The collection-failure alert is one whose mapping as written panics. */
  lemma FailureAlertPanics(r: Aggregation.CollectResult, name: string)
    requires r.error.Some?
    ensures MapAlertAsWritten(Candidate(name, Aggregation.FailureAlert(r), ActiveState)).Err?
    ensures MapAlert(Candidate(name, Aggregation.FailureAlert(r), ActiveState)).annotations ==
      map["dashboard" := name, "severity" := "critical"]
  {
  }

  /** Mapping every candidate in order, failing at the first panic. */
  function MapAllAsWritten(cs: seq<Candidate>): (r: Result<seq<Gettable>, string>)
    ensures r.Err? <==> exists i :: 0 <= i < |cs| && cs[i].alert.labels.None?
    ensures r.Ok? ==> |r.value| == |cs| && forall i :: 0 <= i < |cs| ==> r.value[i] == MapAlert(cs[i])
  {
    if |cs| == 0 then Ok([])
    else
      match MapAlertAsWritten(cs[0])
      case Err(e) => Err(e)
      case Ok(g) =>
        match MapAllAsWritten(cs[1..])
        case Err(e) =>
          assert exists i :: 0 <= i < |cs| && cs[i].alert.labels.None? by {
            var j :| 0 <= j < |cs[1..]| && cs[1..][j].alert.labels.None?;
            assert cs[j + 1] == cs[1..][j];
          }
          Err(e)
        case Ok(rest) =>
          assert forall i :: 1 <= i < |cs| ==> cs[i] == cs[1..][i - 1];
          Ok([g] + rest)
  }

  function MapAll(cs: seq<Candidate>): (r: seq<Gettable>)
    ensures |r| == |cs| && forall i :: 0 <= i < |cs| ==> r[i] == MapAlert(cs[i])
  {
    seq(|cs|, i requires 0 <= i < |cs| => MapAlert(cs[i]))
  }

  /** `slices.DeleteFunc` with the complementary predicate: the elements `keep` accepts, in order. */
  function Retain(xs: seq<Gettable>, keep: Gettable -> bool): (r: seq<Gettable>)
    ensures forall x :: multiset(r)[x] == if keep(x) then multiset(xs)[x] else 0
    ensures forall x :: x in r <==> x in xs && keep(x)
  {
    if |xs| == 0 then []
    else
      var rest := Retain(xs[1..], keep);
      assert xs == [xs[0]] + xs[1..];
      if keep(xs[0]) then [xs[0]] + rest else rest
  }

  /** A filter compiled by the rule-matcher parser: the annotation it reads and the matcher it applies. */
  datatype Filter = Filter(field: string, m: Matcher)

  function Compile(fm: FieldMatcher, compile: string -> Matcher): Filter {
    Filter(fm.field, compile(MatcherText(fm)))
  }

  function CompileAll(fms: seq<FieldMatcher>, compile: string -> Matcher): (r: seq<Filter>)
    ensures |r| == |fms| && forall i :: 0 <= i < |fms| ==> r[i] == Compile(fms[i], compile)
  {
    seq(|fms|, i requires 0 <= i < |fms| => Compile(fms[i], compile))
  }

  /**
   * The handler's count of matching filters, or `None` as soon as an
   * annotation a filter reads is missing; the alert stays only when the
   * count equals the number of filters.
   */
  function MatchedFilters(g: Gettable, fs: seq<Filter>): (r: Option<nat>)
    ensures r.Some? ==> r.value <= |fs|
    decreases |fs|
  {
    if |fs| == 0 then Some(0)
    else if fs[0].field !in g.annotations then None
    else
      match MatchedFilters(g, fs[1..])
      case None => None
      case Some(n) => Some(n + if fs[0].m.matches(g.annotations[fs[0].field]) then 1 else 0)
  }

  /** Every filter's annotation is present and its matcher accepts the value. */
  predicate FiltersHold(g: Gettable, fs: seq<Filter>) {
    forall i :: 0 <= i < |fs| ==> fs[i].field in g.annotations && fs[i].m.matches(g.annotations[fs[i].field])
  }

  /** Counting up to the number of filters is the same as every filter holding. */
  lemma {:induction false} MatchedFiltersIff(g: Gettable, fs: seq<Filter>)
    ensures MatchedFilters(g, fs) == Some(|fs|) <==> FiltersHold(g, fs)
    decreases |fs|
  {
    if |fs| > 0 {
      MatchedFiltersIff(g, fs[1..]);
      assert forall i :: 1 <= i < |fs| ==> fs[i] == fs[1..][i - 1];
      if FiltersHold(g, fs) {
        assert FiltersHold(g, fs[1..]);
      }
      if MatchedFilters(g, fs) == Some(|fs|) {
        var n := MatchedFilters(g, fs[1..]);
        assert n.Some? && n.value <= |fs| - 1;
      }
    }
  }

  /** The three deletions: active alerts when `active` is off, suppressed ones when `inhibited` is off, then the filters. */
  function Narrow(gs: seq<Gettable>, active: bool, inhibited: bool, fs: seq<Filter>): (r: seq<Gettable>)
    ensures forall g :: g in r <==>
      g in gs && (active || g.state != ActiveState) && (inhibited || g.state != SuppressedState) && FiltersHold(g, fs)
  {
    var afterActive := if !active then Retain(gs, (x: Gettable) => x.state != ActiveState) else gs;
    var afterInhibited := if !inhibited then Retain(afterActive, (x: Gettable) => x.state != SuppressedState) else afterActive;
    if |fs| > 0 then
      var r := Retain(afterInhibited, (x: Gettable) => MatchedFilters(x, fs) == Some(|fs|));
      assert forall g :: g in r <==> g in afterInhibited && FiltersHold(g, fs) by {
        forall g ensures g in r <==> g in afterInhibited && FiltersHold(g, fs) {
          MatchedFiltersIff(g, fs);
        }
      }
      r
    else afterInhibited
  }

  /** Serving does not change what a dashboard name is served. */
  lemma ServedDependsOnStore(a: AggregatorState.Aggregator, b: AggregatorState.Aggregator, name: string, now: int)
    requires a.current == b.current
    ensures AggregatorState.AlertsFor(a, name, now).1 == AggregatorState.AlertsFor(b, name, now).1
  {
    if name !in a.current && name == "" && |a.current| == 1 {
      AggregatorState.SingleEntry(a.current);
    }
  }

  /** The dashboards in the configuration's iteration order `order`, each served once. */
  function Collect(a: AggregatorState.Aggregator, now: int, order: seq<string>): (r: (AggregatorState.Aggregator, seq<Candidate>))
    ensures r.0 == if |order| == 0 then a else a.(lastAccess := Some(now))
    ensures forall c :: c in r.1 <==>
      (exists i :: 0 <= i < |order| && c in Candidates(order[i], AggregatorState.AlertsFor(a, order[i], now).1))
    decreases |order|
  {
    if |order| == 0 then (a, [])
    else
      var first := AggregatorState.AlertsFor(a, order[0], now);
      var rest := Collect(first.0, now, order[1..]);
      forall i | 1 <= i < |order|
        ensures AggregatorState.AlertsFor(first.0, order[i], now).1 == AggregatorState.AlertsFor(a, order[i], now).1
      {
        ServedDependsOnStore(first.0, a, order[i], now);
      }
      assert forall i :: 1 <= i < |order| ==> order[1..][i - 1] == order[i];
      (rest.0, Candidates(order[0], first.1) + rest.1)
  }

  /** Every `filter` value parsed by the terminating scanner, in order. */
  function ParseAll(filters: seq<string>): (r: seq<FieldMatcher>)
    ensures forall m :: m in r <==> exists i :: 0 <= i < |filters| && m in ParseFilter(filters[i])
  {
    if |filters| == 0 then []
    else
      var rest := ParseAll(filters[1..]);
      assert forall i :: 1 <= i < |filters| ==> filters[i] == filters[1..][i - 1];
      ParseFilter(filters[0]) + rest
  }

  /** The filters of every `filter` value, compiled. */
  function Filters(q: Query, compile: string -> Matcher): seq<Filter> {
    CompileAll(ParseAll(q.filters), compile)
  }

  /** The reported alerts of `cs`, mapped one by one. */
  predicate Reported(g: Gettable, cs: seq<Candidate>) {
    exists c :: c in cs && g == MapAlert(c)
  }

  lemma MapAllReported(cs: seq<Candidate>)
    ensures forall g :: g in MapAll(cs) <==> Reported(g, cs)
  {
    var gs := MapAll(cs);
    forall g | g in gs ensures Reported(g, cs) {
      var i :| 0 <= i < |gs| && gs[i] == g;
      assert cs[i] in cs;
    }
    forall g | Reported(g, cs) ensures g in gs {
      var c :| c in cs && g == MapAlert(c);
      var i :| 0 <= i < |cs| && cs[i] == c;
      assert gs[i] == g;
    }
  }

  /**
   * `alerts`: an alert is reported exactly when it is a non-green alert of
   * one of the dashboards, in a state the query keeps, and every filter
   * holds on its annotations.
   */
  function Alerts(a: AggregatorState.Aggregator, now: int, q: Query, order: seq<string>, compile: string -> Matcher)
    : (r: (AggregatorState.Aggregator, seq<Gettable>))
    ensures r.0 == Collect(a, now, order).0
    ensures forall g :: g in r.1 <==>
      Reported(g, Collect(a, now, order).1) &&
      (Flag(q.active) || g.state != ActiveState) && (Flag(q.inhibited) || g.state != SuppressedState) &&
      FiltersHold(g, Filters(q, compile))
  {
    var collected := Collect(a, now, order);
    MapAllReported(collected.1);
    (collected.0, Narrow(MapAll(collected.1), Flag(q.active), Flag(q.inhibited), Filters(q, compile)))
  }

  /** What a request comes to as written. */
  datatype Outcome = Hangs | Fails(reason: string) | Served(alerts: seq<Gettable>)

  /** Every `filter` value parsed by the scanner as written; `None` when one of them never returns. */
  function ParseAllAsWritten(filters: seq<string>): (r: Option<seq<FieldMatcher>>)
    ensures r.Some? <==> forall i :: 0 <= i < |filters| ==> ParseFilterAsWritten(filters[i]).Some?
    ensures r.Some? ==> r.value == ParseAll(filters)
  {
    if |filters| == 0 then Some([])
    else
      var rest := ParseAllAsWritten(filters[1..]);
      assert forall i :: 1 <= i < |filters| ==> filters[i] == filters[1..][i - 1];
      match ParseFilterAsWritten(filters[0])
      case None => None
      case Some(first) =>
        if rest.None? then None
        else
          ParseFilterAgrees(filters[0], 0);
          Some(first + rest.value)
  }

  /**
   * `alerts` as written: a filter value the scanner never finishes hangs
   * the request before any dashboard is read; otherwise a reported alert
   * without a label map fails it.
   */
  function AlertsAsWritten(a: AggregatorState.Aggregator, now: int, q: Query, order: seq<string>, compile: string -> Matcher)
    : (r: (AggregatorState.Aggregator, Outcome))
    ensures r.1.Hangs? <==> exists i :: 0 <= i < |q.filters| && ParseFilterAsWritten(q.filters[i]).None?
    ensures r.1.Hangs? ==> r.0 == a
    ensures r.1.Fails? <==> !r.1.Hangs? && exists c :: c in Collect(a, now, order).1 && c.alert.labels.None?
  {
    match ParseAllAsWritten(q.filters)
    case None => (a, Hangs)
    case Some(fms) =>
      var collected := Collect(a, now, order);
      match MapAllAsWritten(collected.1)
      case Err(e) => (collected.0, Fails(e))
      case Ok(gs) =>
        MappedAllLabelled(collected.1);
        (collected.0, Served(Respond(gs, q, fms, compile)))
  }

  /** The served list: the mapped alerts narrowed by the query's flags and parsed filters. */
  function Respond(gs: seq<Gettable>, q: Query, fms: seq<FieldMatcher>, compile: string -> Matcher): seq<Gettable> {
    Narrow(gs, Flag(q.active), Flag(q.inhibited), CompileAll(fms, compile))
  }

  /** Mapping succeeds only when every collected alert carries a label map. */
  lemma MappedAllLabelled(cs: seq<Candidate>)
    requires MapAllAsWritten(cs).Ok?
    ensures forall c :: c in cs ==> c.alert.labels.Some?
  {
    forall c | c in cs ensures c.alert.labels.Some? {
      var i :| 0 <= i < |cs| && cs[i] == c;
    }
  }

  /** Wherever the handler as written serves, it serves what `Alerts` does. */
  lemma AlertsAgree(a: AggregatorState.Aggregator, now: int, q: Query, order: seq<string>, compile: string -> Matcher)
    requires AlertsAsWritten(a, now, q, order, compile).1.Served?
    ensures AlertsAsWritten(a, now, q, order, compile) == (Alerts(a, now, q, order, compile).0,
      Served(Alerts(a, now, q, order, compile).1))
  {
    var collected := Collect(a, now, order);
    var gs := MapAllAsWritten(collected.1);
    assert gs.Ok?;
    assert gs.value == MapAll(collected.1);
  }

  /** An empty `filter` parameter hangs the request. */
  lemma EmptyFilterHangs(a: AggregatorState.Aggregator, now: int, q: Query, order: seq<string>, compile: string -> Matcher)
    requires "" in q.filters
    ensures AlertsAsWritten(a, now, q, order, compile).1.Hangs?
  {
    NonTerminatingInputs();
    var i :| 0 <= i < |q.filters| && q.filters[i] == "";
  }

  /**
   * A dashboard showing a collection failure makes every request that gets
   * past the filters fail as written, while `Alerts` reports the failure
   * as a critical alert.
   */
  lemma CollectionFailureFails(a: AggregatorState.Aggregator, now: int, q: Query, order: seq<string>,
                               compile: string -> Matcher, i: nat, r: Aggregation.CollectResult)
    requires forall j :: 0 <= j < |q.filters| ==> ParseFilterAsWritten(q.filters[j]).Some?
    requires i < |order| && r.error.Some?
    requires Aggregation.FailureAlert(r) in AggregatorState.AlertsFor(a, order[i], now).1.alerts
    ensures AlertsAsWritten(a, now, q, order, compile).1.Fails?
    ensures var g := MapAlert(Candidate(order[i], Aggregation.FailureAlert(r), ActiveState));
      g.annotations["severity"] == "critical" &&
      (Flag(q.active) && FiltersHold(g, Filters(q, compile)) ==> g in Alerts(a, now, q, order, compile).1)
  {
    var c := Candidate(order[i], Aggregation.FailureAlert(r), ActiveState);
    assert c in Candidates(order[i], AggregatorState.AlertsFor(a, order[i], now).1);
    assert c in Collect(a, now, order).1;
  }
}

=== FILE: connectors.dfy ===
/**
 * The connector side of tuwat: the four alert states a connector reports,
 * their colours, and the alert record every connector hands to the
 * aggregator.
 */
module Connectors {

  /** `connectors.State` is a Go `int`; four values are named. */
  type State = int

  const OK: State := 0
  const Warning: State := 1
  const Critical: State := 2
  const Unknown: State := 3

  /** `State.String`: the traffic-light colour the dashboard shows. */
  function Colour(s: State): (c: string)
    ensures c in {"green", "yellow", "red", "grey"}
    ensures c == "green" <==> s == OK
    ensures c == "yellow" <==> s == Warning
    ensures c == "red" <==> s == Critical
    ensures c == "grey" <==> (s != OK && s != Warning && s != Critical)
  {
    if s == OK then "green"
    else if s == Warning then "yellow"
    else if s == Critical then "red"
    else "grey"
  }

  /** The named states are exactly 0, 1, 2 and 3, and they get four different colours. */
  lemma NamedStatesDistinct()
    ensures [OK, Warning, Critical, Unknown] == [0, 1, 2, 3]
    ensures |{Colour(OK), Colour(Warning), Colour(Critical), Colour(Unknown)}| == 4
  {
    assert Colour(Unknown) == "grey";
    assert Colour(OK) != Colour(Warning);
  }

  /**
   * `connectors.Alert` as a connector reports it. Instants are nanoseconds
   * since Go's zero Time; `links` are the HTML snippets the connector built;
   * `silenceable` says whether the connector attached a silencer function.
   */
  datatype Alert = Alert(
    labels: map<string, string>,
    start: int,
    state: State,
    description: string,
    details: string,
    links: seq<string>,
    silenceable: bool)

  /** The empty-valued label map Go code writes as `map[string]string{}`. */
  function NoLabels(): map<string, string> {
    map[]
  }
}

=== FILE: dashboard_mode.dfy ===
/**
 * How a dashboard's filter rules are read. `DashboardMode` is a Go `uint8`:
 * Excluding is 0, the zero value, so an unset mode excludes; Including is 1.
 */
module DashboardModes {
  import opened Wrappers

  type DashboardMode = x: int | 0 <= x < 256

  const Excluding: DashboardMode := 0
  const Including: DashboardMode := 1

  /** `DashboardMode.String`. */
  function ModeName(m: DashboardMode): (s: string)
    ensures s == "including" <==> m == Including
    ensures s == "excluding" <==> m == Excluding
    ensures s == "unknown" <==> (m != Including && m != Excluding)
  {
    if m == Including then "including"
    else if m == Excluding then "excluding"
    else "unknown"
  }

  /** The value a TOML document hands to `UnmarshalTOML`. */
  datatype TomlValue = TomlString(s: string) | TomlOther

  datatype ModeError =
    | UnknownMode(message: string)
      /** `data.(string)` on a non-string panics. */
    | NotAString

  /** `DashboardMode.UnmarshalTOML`. */
  function ParseMode(data: TomlValue): (r: Result<DashboardMode, ModeError>)
    ensures data.TomlOther? ==> r == Err(NotAString)
    ensures data.TomlString? ==>
      (r == Ok(Including) <==> data.s in {"including", "include"})
    ensures data.TomlString? ==>
      (r == Ok(Excluding) <==> data.s in {"excluding", "exclude"})
    ensures data.TomlString? && data.s !in {"including", "include", "excluding", "exclude"} ==>
      r == Err(UnknownMode("unknown dashboard mode: " + data.s))
  {
    match data
    case TomlOther => Err(NotAString)
    case TomlString(s) =>
      if s == "including" || s == "include" then Ok(Including)
      else if s == "excluding" || s == "exclude" then Ok(Excluding)
      else Err(UnknownMode("unknown dashboard mode: " + s))
  }

  /** Reading back the name of a known mode gives the mode. */
  lemma ParseModeName(m: DashboardMode)
    requires m == Including || m == Excluding
    ensures ParseMode(TomlString(ModeName(m))) == Ok(m)
  {
  }

  /** The name of any other mode does not read back. */
  lemma UnknownNameRejected(m: DashboardMode)
    requires m != Including && m != Excluding
    ensures ParseMode(TomlString(ModeName(m))).Err?
  {
  }
}

=== FILE: decimal.dfy ===
/**
 * Decimal integers as Go's `strconv` reads and writes them: `Itoa`/`FormatInt`
 * render a canonical decimal, `ParseInt(s, 10, bits)`/`Atoi` accept an optional
 * sign followed by at least one ASCII digit, and clamp out-of-range values to
 * the bit width while reporting a range error.
 */
module Decimal {
  import opened Wrappers

  predicate IsDigit(c: char) {
    '0' <= c <= '9'
  }

  function DigitValue(c: char): nat
    requires IsDigit(c)
  {
    (c as int) - ('0' as int)
  }

  function DigitChar(d: nat): (c: char)
    requires d < 10
    ensures IsDigit(c) && DigitValue(c) == d
  {
    (('0' as int) + d) as char
  }

  predicate AllDigits(s: string) {
    forall i :: 0 <= i < |s| ==> IsDigit(s[i])
  }

  /** The value of a string of decimal digits, most significant first. */
  function DigitsValue(s: string): nat
    requires AllDigits(s)
  {
    if |s| == 0 then 0 else DigitsValue(s[..|s| - 1]) * 10 + DigitValue(s[|s| - 1])
  }

  /** The canonical decimal rendering of a natural number (no leading zeros). */
  function FormatNat(n: nat): (s: string)
    ensures |s| >= 1 && AllDigits(s)
    ensures |s| > 1 ==> s[0] != '0'
  {
    if n < 10 then [DigitChar(n)] else FormatNat(n / 10) + [DigitChar(n % 10)]
  }

  /** `strconv.Itoa` / `strconv.FormatInt(n, 10)`. */
  function FormatInt(n: int): (s: string)
    ensures |s| >= 1
  {
    if n < 0 then "-" + FormatNat(-n) else FormatNat(n)
  }

  lemma {:induction false} DigitsOfFormatNat(n: nat)
    ensures DigitsValue(FormatNat(n)) == n
  {
    if n >= 10 {
      var s := FormatNat(n);
      DigitsOfFormatNat(n / 10);
      assert s[..|s| - 1] == FormatNat(n / 10);
    }
  }

  /** The number a Go decimal literal denotes, or None when `s` is not one. */
  function ParseDecimal(s: string): (r: Option<int>)
    ensures r.Some? ==> |s| >= 1
  {
    if |s| == 0 then None
    else if s[0] == '+' || s[0] == '-' then
      var digits := s[1..];
      if |digits| == 0 || !AllDigits(digits) then None
      else if s[0] == '-' then Some(-(DigitsValue(digits) as int))
      else Some(DigitsValue(digits))
    else if AllDigits(s) then Some(DigitsValue(s))
    else None
  }

  /** Reading back what `FormatInt` wrote gives the same number. */
  lemma ParseFormat(n: int)
    ensures ParseDecimal(FormatInt(n)) == Some(n)
  {
    if n < 0 {
      ParseFormatNegative(-n);
    } else {
      ParseFormatNat(n);
    }
  }

  lemma ParseFormatNat(n: nat)
    ensures ParseDecimal(FormatNat(n)) == Some(n)
  {
    DigitsOfFormatNat(n);
    assert IsDigit(FormatNat(n)[0]);
  }

  lemma ParseFormatNegative(n: nat)
    ensures ParseDecimal("-" + FormatNat(n)) == Some(-(n as int))
  {
    var s := "-" + FormatNat(n);
    assert s[1..] == FormatNat(n);
    DigitsOfFormatNat(n);
  }

  /** `FormatInt` never maps two numbers to the same text. */
  lemma FormatIntInjective(a: int, b: int)
    requires FormatInt(a) == FormatInt(b)
    ensures a == b
  {
    ParseFormat(a);
    ParseFormat(b);
  }

  datatype NumError = ErrSyntax | ErrRange

  /** What `strconv.ParseInt` returns: a value and possibly an error. */
  datatype Parsed = Parsed(value: int, err: Option<NumError>)

  /**
   * `strconv.ParseInt(s, 10, bits)`: a syntax error yields 0; a value outside
   * the signed `bits`-bit range yields the nearest bound and a range error.
   */
  function ParseInt(s: string, bits: nat): (r: Parsed)
    requires 1 <= bits <= 64
    ensures r.err == Some(ErrSyntax) <==> ParseDecimal(s).None?
    ensures r.err.None? ==> ParseDecimal(s) == Some(r.value)
    ensures -(Pow2(bits - 1) as int) <= r.value < Pow2(bits - 1)
  {
    match ParseDecimal(s)
    case None => Parsed(0, Some(ErrSyntax))
    case Some(v) =>
      if v >= Pow2(bits - 1) then Parsed(Pow2(bits - 1) - 1, Some(ErrRange))
      else if v < -(Pow2(bits - 1) as int) then Parsed(-(Pow2(bits - 1) as int), Some(ErrRange))
      else Parsed(v, None)
  }

  /** `strconv.Atoi` on a 64-bit platform. */
  function Atoi(s: string): Parsed
  {
    ParseInt(s, 64)
  }

  function Pow2(n: nat): (r: nat)
    ensures r >= 1
  {
    if n == 0 then 1 else 2 * Pow2(n - 1)
  }

  function Pow10(n: nat): (r: nat)
    ensures r >= 1
  {
    if n == 0 then 1 else 10 * Pow10(n - 1)
  }

  /** A string of `n` zero digits. */
  function Repeat0(n: nat): (s: string)
    ensures |s| == n
  {
    if n == 0 then "" else "0" + Repeat0(n - 1)
  }
}

=== FILE: downtime.dfy ===
/**
 * Downtimes become rules: each reported downtime turns into a rule whose
 * label matchers are the downtime's and whose description says how long the
 * downtime lasts, cut to at most 100 bytes plus an ellipsis.
 */
module Downtimes {
  import opened GoStrings
  import opened RuleEngine
  import opened Wrappers
  import GoTime
  import Decimal

  /** The bucket `niceDate` picks for an instant, with the rounded amount where there is one. */
  datatype NiceDate =
    | Until(t: int)
    | ForHours(hours: int)
    | ForMinutes(minutes: int)
    | ForSeconds(seconds: int)
    | Ended(t: int)

  /** The bucket of the duration `d` for the instant `t`, from the largest unit down. */
  function Bucket(d: int, t: int): (r: NiceDate)
    ensures r.Until? <==> d > 2 * GoTime.Day
    ensures r.ForHours? <==> 2 * GoTime.Hour < d <= 2 * GoTime.Day
    ensures r.ForMinutes? <==> 2 * GoTime.Minute < d <= 2 * GoTime.Hour
    ensures r.ForSeconds? <==> 0 < d <= 2 * GoTime.Minute
    ensures r.Ended? <==> d <= 0
    ensures (r.Until? || r.Ended?) ==> r.t == t
    ensures r.ForHours? ==> r.hours >= 2
    ensures r.ForMinutes? ==> r.minutes >= 2
    ensures r.ForSeconds? ==> r.seconds >= 0
  {
    if d > 2 * GoTime.Day then Until(t)
    else if d > 2 * GoTime.Hour then ForHours(GoTime.RoundHalfEven(d, GoTime.Hour))
    else if d > 2 * GoTime.Minute then ForMinutes(GoTime.RoundHalfEven(d, GoTime.Minute))
    else if d > 0 then ForSeconds(GoTime.RoundHalfEven(d, GoTime.Second))
    else Ended(t)
  }

  /**
   * `niceDate` as written: it buckets `d = now - t`, the time since `t`, so
   * an end time still ahead reads "ended".
   */
  function ClassifyDate(now: int, t: int): (r: NiceDate)
    ensures var d := GoTime.Sub(now, t);
      && (r.Until? <==> d > 2 * GoTime.Day)
      && (r.ForHours? <==> 2 * GoTime.Hour < d <= 2 * GoTime.Day)
      && (r.ForMinutes? <==> 2 * GoTime.Minute < d <= 2 * GoTime.Hour)
      && (r.ForSeconds? <==> 0 < d <= 2 * GoTime.Minute)
      && (r.Ended? <==> d <= 0)
    ensures r.Ended? <==> now <= t
    ensures (r.Until? || r.Ended?) ==> r.t == t
    ensures r.ForHours? ==> r.hours >= 2
    ensures r.ForMinutes? ==> r.minutes >= 2
    ensures r.ForSeconds? ==> r.seconds >= 0
  {
    Bucket(GoTime.Sub(now, t), t)
  }

  /**
   * `niceDate` as evidently intended: it buckets `d = t - now`, the time
   * left until `t`, so a downtime still running reads "until …" or
   * "for …" and only one already over reads "ended".
   */
  function ClassifyDateIntended(now: int, t: int): (r: NiceDate)
    ensures var d := GoTime.Sub(t, now);
      && (r.Until? <==> d > 2 * GoTime.Day)
      && (r.ForHours? <==> 2 * GoTime.Hour < d <= 2 * GoTime.Day)
      && (r.ForMinutes? <==> 2 * GoTime.Minute < d <= 2 * GoTime.Hour)
      && (r.ForSeconds? <==> 0 < d <= 2 * GoTime.Minute)
      && (r.Ended? <==> d <= 0)
    ensures r.Ended? <==> t <= now
    ensures (r.Until? || r.Ended?) ==> r.t == t
    ensures r.ForHours? ==> r.hours >= 2
    ensures r.ForMinutes? ==> r.minutes >= 2
    ensures r.ForSeconds? ==> r.seconds >= 0
  {
    Bucket(GoTime.Sub(t, now), t)
  }

  /** The text of a bucket; dates are written in a zone `offset` seconds east of UTC. */
  function RenderDate(nd: NiceDate, offset: int): string {
    match nd
    case Until(t) => "until " + GoTime.FormatDate(t, offset, false)
    case ForHours(n) => "for " + Decimal.FormatInt(n) + "h"
    case ForMinutes(n) => "for " + Decimal.FormatInt(n) + "m"
    case ForSeconds(n) => "for " + Decimal.FormatInt(n) + "s"
    case Ended(t) => "ended " + GoTime.FormatDate(t, offset, true)
  }

  /** The untruncated description: `Downtimed <niceDate>: <comment>`, as bytes. */
  function FullDescription(now: int, offset: int, dt: Downtime): seq<byte> {
    Utf8("Downtimed " + DateAndComment(now, offset, dt))
  }

  /** What follows "Downtimed ": the bucket's text, a colon and the comment. */
  function DateAndComment(now: int, offset: int, dt: Downtime): string {
    RenderDate(ClassifyDate(now, dt.endTime), offset) + ": " + dt.comment
  }

  /** The three bytes of U+2026 HORIZONTAL ELLIPSIS. */
  const Ellipsis: seq<byte> := [0xE2, 0x80, 0xA6]

  /** `downtimeDescription`: the full description, or its first 99 bytes and an ellipsis when it exceeds 100 bytes. */
  function DowntimeDescription(now: int, offset: int, dt: Downtime): (r: seq<byte>)
    ensures var full := FullDescription(now, offset, dt);
      && (|full| <= 100 ==> r == full)
      && (|full| > 100 ==> |r| == 102 && r[..99] == full[..99] && r[99..] == Ellipsis)
    ensures |r| <= 102
  {
    var full := FullDescription(now, offset, dt);
    if |full| > 100 then full[..99] + Ellipsis else full
  }

  /** `downtimeRules`: one rule per downtime, in order, matching on the downtime's labels only. */
  function DowntimeRules(now: int, offset: int, downtimes: seq<Downtime>): (rules: seq<Rule>)
    ensures |rules| == |downtimes|
    ensures forall i :: 0 <= i < |rules| ==>
      && rules[i].labels == downtimes[i].matchers
      && rules[i].what.None? && rules[i].when.None?
      && rules[i].description == DowntimeDescription(now, offset, downtimes[i])
  {
    seq(|downtimes|, i requires 0 <= i < |downtimes| =>
      Rule(DowntimeDescription(now, offset, downtimes[i]), None, None, downtimes[i].matchers))
  }

  /** A description always starts with the ten ASCII bytes of "Downtimed ". */
  lemma DescriptionPrefix(now: int, offset: int, dt: Downtime)
    ensures |DowntimeDescription(now, offset, dt)| >= 10
    ensures DowntimeDescription(now, offset, dt)[..10] == Utf8("Downtimed ")
  {
    DowntimedLength();
    EncodedHead("Downtimed ", DateAndComment(now, offset, dt));
  }

  /** The encoding of a concatenation starts with the encoding of its head. */
  lemma EncodedHead(head: string, rest: string)
    ensures |Utf8(head + rest)| >= |Utf8(head)|
    ensures Utf8(head + rest)[..|Utf8(head)|] == Utf8(head)
  {
    Utf8Append(head, rest);
  }

  /** "Downtimed " is ASCII, so it encodes to ten bytes. */
  lemma DowntimedLength()
    ensures |Utf8("Downtimed ")| == 10
  {
    Utf8Ascii("Downtimed ");
  }

  /** An end time at or after now is described as ended. */
  lemma FutureEndReadsEnded(now: int, t: int)
    requires t >= now
    ensures ClassifyDate(now, t) == Ended(t)
  {
  }

  /**
   * A downtime ending an hour from now reads "for 60m" when corrected and
   * "ended" as written; one that ended an hour ago reads "ended" corrected, while as written it
   * reads "for 60m".
   */
  lemma EndInAnHourIntended(now: int)
    ensures ClassifyDateIntended(now, now + GoTime.Hour) == ForMinutes(60)
    ensures ClassifyDate(now, now + GoTime.Hour) == Ended(now + GoTime.Hour)
    ensures ClassifyDateIntended(now + GoTime.Hour, now) == Ended(now)
    ensures ClassifyDate(now + GoTime.Hour, now) == ForMinutes(60)
  {
    assert GoTime.RoundHalfEven(GoTime.Hour, GoTime.Minute) == 60;
  }
}

=== FILE: gostrings.dfy ===
/**
 * Go string helpers: Go strings are byte sequences, split on a separator
 * and joined with one. `Split` and `Join` follow `strings.Split` and
 * `strings.Join` for a one-character separator.
 */
module GoStrings {

  newtype byte = x: int | 0 <= x < 256

  /** The UTF-8 encoding of one Unicode scalar value. */
  function EncodeChar(c: char): (r: seq<byte>)
    ensures 1 <= |r| <= 4
    ensures (c as int < 0x80) <==> |r| == 1
  {
    var n := c as int;
    if n < 0x80 then [n as byte]
    else if n < 0x800 then [(0xC0 + n / 64) as byte, (0x80 + n % 64) as byte]
    else if n < 0x10000 then
      [(0xE0 + n / 4096) as byte, (0x80 + (n / 64) % 64) as byte, (0x80 + n % 64) as byte]
    else
      [(0xF0 + n / 262144) as byte, (0x80 + (n / 4096) % 64) as byte,
       (0x80 + (n / 64) % 64) as byte, (0x80 + n % 64) as byte]
  }

  /** The bytes of a Go string literal written as `s`. */
  function Utf8(s: string): (r: seq<byte>)
    ensures |r| >= |s|
  {
    if |s| == 0 then [] else EncodeChar(s[0]) + Utf8(s[1..])
  }

  /** An ASCII string encodes to one byte per character, each the character's code. */
  lemma {:induction false} Utf8Ascii(s: string)
    requires forall i :: 0 <= i < |s| ==> s[i] as int < 0x80
    ensures |Utf8(s)| == |s|
    ensures forall i :: 0 <= i < |s| ==> Utf8(s)[i] as int == s[i] as int
  {
    if |s| > 0 {
      Utf8Ascii(s[1..]);
    }
  }

  lemma Utf8Append(a: string, b: string)
    ensures Utf8(a + b) == Utf8(a) + Utf8(b)
  {
    if |a| > 0 {
      assert (a + b)[1..] == a[1..] + b;
      Utf8Append(a[1..], b);
    } else {
      assert a + b == b;
    }
  }

  /** Position of the first occurrence of `c` in `s`. */
  function IndexOf(s: string, c: char): (i: nat)
    requires c in s
    ensures i < |s| && s[i] == c && c !in s[..i]
  {
    if s[0] == c then 0 else 1 + IndexOf(s[1..], c)
  }

  /** The first `c` of `a + [c] + b` sits right after a `c`-free prefix `a`. */
  lemma {:induction false} IndexOfAfterFree(a: string, c: char, b: string)
    requires c !in a
    ensures IndexOf(a + [c] + b, c) == |a|
  {
    if |a| > 0 {
      assert (a + [c] + b)[1..] == a[1..] + [c] + b;
      IndexOfAfterFree(a[1..], c, b);
    }
  }

  /** `strings.Split(s, string(c))`: the pieces between occurrences of `c`. */
  function Split(s: string, c: char): (parts: seq<string>)
    ensures |parts| >= 1
    ensures forall i :: 0 <= i < |parts| ==> c !in parts[i]
    decreases |s|
  {
    if c !in s then [s]
    else
      var i := IndexOf(s, c);
      [s[..i]] + Split(s[i + 1..], c)
  }

  /** `strings.Join(parts, sep)`. */
  function Join(parts: seq<string>, sep: string): string
  {
    if |parts| == 0 then ""
    else if |parts| == 1 then parts[0]
    else parts[0] + sep + Join(parts[1..], sep)
  }

  /** Joining the pieces of a split with the separator gives the string back. */
  lemma {:induction false} JoinSplit(s: string, c: char)
    ensures Join(Split(s, c), [c]) == s
    decreases |s|
  {
    if c in s {
      var i := IndexOf(s, c);
      var rest := s[i + 1..];
      JoinSplit(rest, c);
      assert Split(s, c) == [s[..i]] + Split(rest, c);
      assert s == s[..i] + [c] + rest;
    }
  }

  /** Splitting a join of separator-free pieces gives the pieces back. */
  lemma {:induction false} SplitJoin(parts: seq<string>, c: char)
    requires |parts| >= 1
    requires forall i :: 0 <= i < |parts| ==> c !in parts[i]
    ensures Split(Join(parts, [c]), c) == parts
    decreases |parts|
  {
    if |parts| > 1 {
      var rest := Join(parts[1..], [c]);
      Around(parts[0], c, rest);
      IndexOfAfterFree(parts[0], c, rest);
      assert forall i :: 0 <= i < |parts[1..]| ==> parts[1..][i] == parts[i + 1];
      SplitJoin(parts[1..], c);
      assert parts == [parts[0]] + parts[1..];
    } else {
      assert Join(parts, [c]) == parts[0];
    }
  }

  /** The pieces either side of a single character can be cut back out. */
  lemma Around(a: string, c: char, b: string)
    ensures |a + [c] + b| > |a|
    ensures (a + [c] + b)[|a|] == c
    ensures (a + [c] + b)[..|a|] == a
    ensures (a + [c] + b)[|a| + 1..] == b
  {
  }

  predicate HasSuffix(s: string, suffix: string) {
    |suffix| <= |s| && s[|s| - |suffix|..] == suffix
  }

  /** `strings.Repeat(s, n)`. */
  function Repeat(s: string, n: nat): (r: string)
    ensures |r| == n * |s|
  {
    if n == 0 then "" else s + Repeat(s, n - 1)
  }
}

=== FILE: gotime.dfy ===
/**
 * Go's `time` package as far as the model needs it. An instant is the number
 * of nanoseconds since Go's zero Time (January 1, year 1, 00:00:00 UTC), so
 * `IsZero` is `t == 0`; a Duration is a signed number of nanoseconds held in
 * 64 bits.
 */
module GoTime {
  import Decimal

  const Nanosecond: int := 1
  const Microsecond: int := 1000
  const Millisecond: int := 1000000
  const Second: int := 1000000000
  const Minute: int := 60 * Second
  const Hour: int := 60 * Minute
  const Day: int := 24 * Hour

  const MinDuration: int := -0x8000_0000_0000_0000
  const MaxDuration: int := 0x7FFF_FFFF_FFFF_FFFF

  /** Seconds between Go's zero Time and the Unix epoch. */
  const UnixToInternal: int := 62135596800

  predicate IsZero(t: int) {
    t == 0
  }

  /** `t.Sub(u)`: the elapsed Duration, saturated to the 64-bit range. */
  function Sub(t: int, u: int): (d: int)
    ensures MinDuration <= d <= MaxDuration
    ensures MinDuration <= t - u <= MaxDuration ==> d == t - u
    ensures t - u > MaxDuration ==> d == MaxDuration
    ensures t - u < MinDuration ==> d == MinDuration
  {
    if t - u > MaxDuration then MaxDuration
    else if t - u < MinDuration then MinDuration
    else t - u
  }

  /** `t.Unix()`: whole seconds since the Unix epoch, rounded down. */
  function Unix(t: int): int {
    t / Second - UnixToInternal
  }

  /**
   * Nearest integer to `num / den`, ties to even: what `%.0f` prints for a
   * quotient computed exactly.
   */
  function RoundHalfEven(num: int, den: int): (r: int)
    requires den > 0
    ensures 2 * (num - r * den) <= den && 2 * (r * den - num) <= den
    ensures num >= 0 ==> r >= 0
  {
    var q := num / den;
    var r := num % den;
    if 2 * r < den then q
    else if 2 * r > den then q + 1
    else if q % 2 == 0 then q
    else q + 1
  }

  /** A non-negative number printed with at least `width` digits. */
  function PadNat(n: nat, width: nat): string {
    var s := Decimal.FormatNat(n);
    if |s| >= width then s else Decimal.Repeat0(width - |s|) + s
  }

  /** Year, month and day of a day count since 1970-01-01 (proleptic Gregorian). */
  function CivilFromDays(days: int): (int, int, int) {
    var z := days + 719468;
    var era := z / 146097;
    var doe := z - era * 146097;
    var yoe := (doe - doe / 1460 + doe / 36524 - doe / 146096) / 365;
    var doy := doe - (365 * yoe + yoe / 4 - yoe / 100);
    var mp := (5 * doy + 2) / 153;
    var d := doy - (153 * mp + 2) / 5 + 1;
    var m := if mp < 10 then mp + 3 else mp - 9;
    var y := yoe + era * 400 + (if m <= 2 then 1 else 0);
    (y, m, d)
  }

  function FormatYear(y: int): string {
    if y < 0 then "-" + PadNat(-y, 4) else PadNat(y, 4)
  }

  /**
   * The wall clock of instant `t` in a zone `offset` seconds east of UTC,
   * laid out as Go's `2006-01-02` (with `withTime`, `2006-01-02 15:04`).
   */
  function FormatDate(t: int, offset: int, withTime: bool): string {
    var secs := t / Second - UnixToInternal + offset;
    var days := secs / 86400;
    var inDay := secs % 86400;
    var (y, m, d) := CivilFromDays(days);
    var date := FormatYear(y) + "-" + PadNat(if m < 0 then 0 else m, 2) + "-" + PadNat(if d < 0 then 0 else d, 2);
    if withTime then date + " " + PadNat(inDay / 3600, 2) + ":" + PadNat((inDay / 60) % 60, 2)
    else date
  }

  /** Digits of `v mod 10^prec` after a '.', trailing zeros dropped (Go's `fmtFrac`). */
  function Frac(v: nat, prec: nat): string {
    var digits := PadNat(v % Decimal.Pow10(prec), prec);
    var trimmed := TrimZeros(if prec == 0 then "" else digits);
    if |trimmed| == 0 then "" else "." + trimmed
  }

  function TrimZeros(s: string): (r: string)
    ensures |r| <= |s|
  {
    if |s| == 0 then s
    else if s[|s| - 1] == '0' then TrimZeros(s[..|s| - 1])
    else s
  }

  /** Go's `Duration.String`, e.g. "0s", "-1.5s", "-2h3m4s", "-12µs". */
  function DurationString(d: int): string
    requires MinDuration <= d <= MaxDuration
  {
    var u: nat := if d < 0 then -d else d;
    var sign := if d < 0 then "-" else "";
    if u == 0 then "0s"
    else if u < Microsecond then sign + Decimal.FormatNat(u) + "ns"
    else if u < Millisecond then sign + Decimal.FormatNat(u / 1000) + Frac(u, 3) + "µs"
    else if u < Second then sign + Decimal.FormatNat(u / 1000000) + Frac(u, 6) + "ms"
    else
      var secs := u / Second;
      var mins := secs / 60;
      var hours := mins / 60;
      var tail := Decimal.FormatNat(secs % 60) + Frac(u, 9) + "s";
      if mins == 0 then sign + tail
      else if hours == 0 then sign + Decimal.FormatNat(mins % 60) + "m" + tail
      else sign + Decimal.FormatNat(hours) + "h" + Decimal.FormatNat(mins % 60) + "m" + tail
  }
}

=== FILE: graylog.dfy ===
/**
 * The Graylog connector: events found by the events search become alerts,
 * one per aggregation (the event definition together with the values it
 * was grouped by), earliest first.
 *
 * The priority constants are Graylog's event priorities 1 (low), 2 (normal)
 * and 3 (high); their Go declarations are not part of this model.
 */
module Graylog {
  import opened Wrappers
  import opened GoStrings
  import Sorting
  import Connectors

  const PriorityLow := 1
  const PriorityNormal := 2
  const PriorityHigh := 3

  /** `priorityToLabel`. */
  function PriorityLabel(p: int): (s: string)
    ensures s in {"Low", "Normal", "High", "Unknown"}
    ensures s == "Low" <==> p == PriorityLow
    ensures s == "Normal" <==> p == PriorityNormal
    ensures s == "High" <==> p == PriorityHigh
  {
    if p == PriorityLow then "Low"
    else if p == PriorityNormal then "Normal"
    else if p == PriorityHigh then "High"
    else "Unknown"
  }

  /** `priorityToState`. */
  function PriorityState(p: int): (s: Connectors.State)
    ensures s == Connectors.Critical <==> p == PriorityHigh
    ensures s == Connectors.Warning <==> p == PriorityLow || p == PriorityNormal
    ensures s == Connectors.Unknown <==> !(p in {PriorityLow, PriorityNormal, PriorityHigh})
  {
    if p == PriorityLow || p == PriorityNormal then Connectors.Warning
    else if p == PriorityHigh then Connectors.Critical
    else Connectors.Unknown
  }

  /** The label and the state tell the same story: "High" is red, "Low" and "Normal" yellow, the rest grey. */
  lemma LabelAgreesWithState(p: int)
    ensures PriorityLabel(p) == "High" <==> Connectors.Colour(PriorityState(p)) == "red"
    ensures PriorityLabel(p) in {"Low", "Normal"} <==> Connectors.Colour(PriorityState(p)) == "yellow"
    ensures PriorityLabel(p) == "Unknown" <==> Connectors.Colour(PriorityState(p)) == "grey"
  {
  }

  /** `alertToLabel`. */
  function EventTypeLabel(isAlert: bool): (s: string)
    ensures s == "Alert" <==> isAlert
    ensures s == "Event" <==> !isAlert
  {
    if isAlert then "Alert" else "Event"
  }

  /** The search window in seconds: the configured one, 600 when none is configured. */
  function TimeRangeSeconds(configured: int): (r: int)
    ensures r != 0
    ensures configured != 0 ==> r == configured
    ensures configured == 0 ==> r == 600
  {
    if configured == 0 then 600 else configured
  }

  /**
   * An event of the search result. `groupBy` lists the `group_by_fields`
   * object's entries in the order a Go map iteration happens to visit them.
   */
  datatype Event = Event(
    definitionId: string,
    groupBy: seq<(string, string)>,
    source: string,
    priority: int,
    isAlert: bool,
    timestamp: string,
    message: string)

  /** A result page: its events, the titles of its streams, and event definition descriptions by id. */
  datatype Page = Page(events: seq<Event>, streams: seq<string>, definitions: map<string, string>)

  function Values(fields: seq<(string, string)>): (vs: seq<string>)
    ensures |vs| == |fields|
    ensures forall i :: 0 <= i < |fields| ==> vs[i] == fields[i].1
  {
    seq(|fields|, i requires 0 <= i < |fields| => fields[i].1)
  }
  /** `eventToAggregationId`: the definition id followed by the grouped values in ascending order. */
  function AggregationId(e: Event): string {
    e.definitionId + Join(Sorting.SortStrings(Values(e.groupBy)), "")
  }

  lemma ValuesAppend(a: seq<(string, string)>, b: seq<(string, string)>)
    ensures Values(a + b) == Values(a) + Values(b)
  {
  }

  /** Taking the entry at `j` out of a sequence takes its value out of the values' multiset. */
  lemma ValuesRemove(b: seq<(string, string)>, j: nat)
    requires j < |b|
    ensures multiset(Values(b)) == multiset(Values(b[..j] + b[j + 1..])) + multiset{b[j].1}
  {
    assert b == b[..j] + [b[j]] + b[j + 1..];
    ValuesAppend(b[..j] + [b[j]], b[j + 1..]);
    ValuesAppend(b[..j], [b[j]]);
    ValuesAppend(b[..j], b[j + 1..]);
  }

  /** Matching the first entry of `a` with its copy in `b` leaves two reorderings of each other. */
  lemma ValuesMatchFirst(a: seq<(string, string)>, b: seq<(string, string)>) returns (rest: seq<(string, string)>)
    requires |a| > 0 && multiset(a) == multiset(b)
    ensures multiset(a[1..]) == multiset(rest)
    ensures multiset(Values(b)) == multiset(Values(rest)) + multiset{a[0].1}
  {
    var j := Sorting.PositionOf(b, a[0]);
    rest := b[..j] + b[j + 1..];
    Sorting.RemoveAtMultiset(b, j);
    Sorting.TailMultiset(a);
    ValuesRemove(b, j);
  }

  lemma {:induction false} ValuesMultiset(a: seq<(string, string)>, b: seq<(string, string)>)
    requires multiset(a) == multiset(b)
    ensures multiset(Values(a)) == multiset(Values(b))
    decreases |a|
  {
    if |a| == 0 {
      assert |b| == |multiset(b)| == 0;
    } else {
      var rest := ValuesMatchFirst(a, b);
      ValuesMultiset(a[1..], rest);
      ValuesTail(a);
    }
  }

  lemma ValuesTail(a: seq<(string, string)>)
    requires |a| > 0
    ensures multiset(Values(a)) == multiset(Values(a[1..])) + multiset{a[0].1}
  {
    assert Values(a) == [a[0].1] + Values(a[1..]);
  }

  /** The aggregation id does not depend on the order in which the grouped fields are visited. */
  lemma AggregationIdOrderIndependent(e: Event, order: seq<(string, string)>)
    requires multiset(order) == multiset(e.groupBy)
    ensures AggregationId(e.(groupBy := order)) == AggregationId(e)
  {
    ValuesMultiset(order, e.groupBy);
    Sorting.SortStringsOrderIndependent(Values(order), Values(e.groupBy));
  }

  /** Every event in search order, next to the page it came on. */
  function Flatten(pages: seq<Page>): seq<(Page, Event)> {
    if |pages| == 0 then []
    else seq(|pages[0].events|, i requires 0 <= i < |pages[0].events| => (pages[0], pages[0].events[i])) + Flatten(pages[1..])
  }

  /** The flattened sequence holds exactly the events of the pages, each next to its page. */
  lemma {:induction false} FlattenMembers(pages: seq<Page>)
    ensures forall p, e :: p in pages && e in p.events ==> (p, e) in Flatten(pages)
    ensures forall it :: it in Flatten(pages) ==> it.0 in pages && it.1 in it.0.events
  {
    if |pages| > 0 {
      FlattenMembers(pages[1..]);
      var head := seq(|pages[0].events|, i requires 0 <= i < |pages[0].events| => (pages[0], pages[0].events[i]));
      assert Flatten(pages) == head + Flatten(pages[1..]);
      forall p, e | p in pages && e in p.events
        ensures (p, e) in Flatten(pages)
      {
        if p == pages[0] {
          var i :| 0 <= i < |p.events| && p.events[i] == e;
          assert head[i] == (p, e);
        } else {
          assert p in pages[1..];
        }
      }
    }
  }

  /**
   * `Collect`'s de-duplication, for any key: walking the events in order, an
   * event is dropped when its key was already seen or carried by an earlier
   * event. Graylog's key is the aggregation id (`FirstPerId` below).
   */
  function FirstPerKey(items: seq<(Page, Event)>, seen: set<string>, key: ((Page, Event)) -> string): seq<(Page, Event)>
    decreases |items|
  {
    if |items| == 0 then []
    else
      var k := key(items[0]);
      if k in seen then FirstPerKey(items[1..], seen, key)
      else [items[0]] + FirstPerKey(items[1..], seen + {k}, key)
  }

  function KeysOf(items: seq<(Page, Event)>, key: ((Page, Event)) -> string): set<string> {
    set it | it in items :: key(it)
  }

  /** No two events share a key. */
  predicate DistinctKeys(kept: seq<(Page, Event)>, key: ((Page, Event)) -> string) {
    forall k, l :: 0 <= k < l < |kept| ==> key(kept[k]) != key(kept[l])
  }

  /** The kept events are events of the input whose keys were not seen before. */
  lemma {:induction false} FirstPerKeyFromInput(items: seq<(Page, Event)>, seen: set<string>, key: ((Page, Event)) -> string)
    ensures forall it :: it in FirstPerKey(items, seen, key) ==> it in items && key(it) !in seen
    decreases |items|
  {
    if |items| > 0 {
      var k := key(items[0]);
      assert items == [items[0]] + items[1..];
      if k in seen {
        FirstPerKeyFromInput(items[1..], seen, key);
      } else {
        FirstPerKeyFromInput(items[1..], seen + {k}, key);
      }
    }
  }

  /** An event whose key no later event carries can go in front of events with distinct keys. */
  lemma ConsDistinct(x: (Page, Event), rest: seq<(Page, Event)>, key: ((Page, Event)) -> string)
    requires DistinctKeys(rest, key)
    requires forall l :: 0 <= l < |rest| ==> key(rest[l]) != key(x)
    ensures DistinctKeys([x] + rest, key)
  {
    var kept := [x] + rest;
    forall k, l | 0 <= k < l < |kept| ensures key(kept[k]) != key(kept[l]) {
      assert kept[l] == rest[l - 1];
      if k > 0 {
        assert kept[k] == rest[k - 1];
      }
    }
  }

  /** No two kept events share a key. */
  lemma {:induction false} FirstPerKeyDistinct(items: seq<(Page, Event)>, seen: set<string>, key: ((Page, Event)) -> string)
    ensures DistinctKeys(FirstPerKey(items, seen, key), key)
    decreases |items|
  {
    if |items| > 0 {
      var k := key(items[0]);
      if k in seen {
        FirstPerKeyDistinct(items[1..], seen, key);
      } else {
        var seen' := seen + {k};
        FirstPerKeyDistinct(items[1..], seen', key);
        FirstPerKeyFromInput(items[1..], seen', key);
        var rest := FirstPerKey(items[1..], seen', key);
        forall l | 0 <= l < |rest| ensures key(rest[l]) != k {
          assert rest[l] in rest;
        }
        ConsDistinct(items[0], rest, key);
      }
    }
  }

  /** Every input key was seen before or is carried by a kept event. */
  lemma {:induction false} FirstPerKeyCovers(items: seq<(Page, Event)>, seen: set<string>, key: ((Page, Event)) -> string)
    ensures forall it :: it in items ==> key(it) in seen || key(it) in KeysOf(FirstPerKey(items, seen, key), key)
    decreases |items|
  {
    if |items| > 0 {
      var k := key(items[0]);
      assert items == [items[0]] + items[1..];
      if k in seen {
        FirstPerKeyCovers(items[1..], seen, key);
      } else {
        FirstPerKeyCovers(items[1..], seen + {k}, key);
        var rest := FirstPerKey(items[1..], seen + {k}, key);
        var kept := [items[0]] + rest;
        assert items[0] in kept;
        assert forall it :: it in rest ==> it in kept;
      }
    }
  }

  /** An event whose key is neither seen nor carried by an earlier event is kept. */
  lemma {:induction false} FirstPerKeyFirstKept(items: seq<(Page, Event)>, seen: set<string>, key: ((Page, Event)) -> string, i: nat)
    requires i < |items| && key(items[i]) !in seen
    requires forall j :: 0 <= j < i ==> key(items[j]) != key(items[i])
    ensures items[i] in FirstPerKey(items, seen, key)
    decreases i
  {
    var k := key(items[0]);
    if i > 0 {
      var seen' := if k in seen then seen else seen + {k};
      forall j | 0 <= j < i - 1
        ensures key(items[1..][j]) != key(items[1..][i - 1])
      {
        assert items[1..][j] == items[j + 1];
      }
      assert items[1..][i - 1] == items[i];
      FirstPerKeyFirstKept(items[1..], seen', key, i - 1);
    }
  }

  /** The aggregation id of a flattened event. */
  function EventId(it: (Page, Event)): string {
    AggregationId(it.1)
  }

  function Ids(items: seq<(Page, Event)>): set<string> {
    KeysOf(items, EventId)
  }

  /** The events `Collect` keeps, given the aggregation ids seen so far: the first event per id. */
  function FirstPerId(items: seq<(Page, Event)>, seen: set<string>): seq<(Page, Event)> {
    FirstPerKey(items, seen, EventId)
  }

  /**
   * The kept events are events of the input, none with an id already seen,
   * no two with the same id, and every input id is seen or kept.
   */
  lemma FirstPerIdKeepsOnePerId(items: seq<(Page, Event)>, seen: set<string>)
    ensures var kept := FirstPerId(items, seen);
      && (forall it :: it in kept ==> it in items && AggregationId(it.1) !in seen)
      && (forall k, l :: 0 <= k < l < |kept| ==> AggregationId(kept[k].1) != AggregationId(kept[l].1))
      && (forall it :: it in items ==> AggregationId(it.1) in seen || AggregationId(it.1) in Ids(kept))
  {
    FirstPerKeyFromInput(items, seen, EventId);
    FirstPerKeyDistinct(items, seen, EventId);
    FirstPerKeyCovers(items, seen, EventId);
  }

  /** An event whose id is neither seen nor carried by an earlier event is kept: the first occurrence wins. */
  lemma FirstOccurrenceKept(items: seq<(Page, Event)>, seen: set<string>, i: nat)
    requires i < |items| && AggregationId(items[i].1) !in seen
    requires forall j :: 0 <= j < i ==> AggregationId(items[j].1) != AggregationId(items[i].1)
    ensures items[i] in FirstPerId(items, seen)
  {
    FirstPerKeyFirstKept(items, seen, EventId, i);
  }

  /** The alert `Collect` builds for an event; `parseTime` and the URL's host name are inputs. */
  function ToAlert(url: string, hostname: string, parseTime: string -> int, it: (Page, Event)): (a: Connectors.Alert)
    ensures a.state == PriorityState(it.1.priority) && a.description == it.1.message
    ensures a.labels.Keys == {"Source", "Stream", "Priority", "EventType", "Hostname"}
    ensures a.labels["Priority"] == PriorityLabel(it.1.priority) && a.labels["EventType"] == EventTypeLabel(it.1.isAlert)
    ensures a.labels["Stream"] == Join(it.0.streams, ",")
    ensures a.details == (if it.1.definitionId in it.0.definitions then it.0.definitions[it.1.definitionId] else "")
  {
    var (page, e) := it;
    Connectors.Alert(
      map["Source" := e.source, "Stream" := Join(page.streams, ","), "Priority" := PriorityLabel(e.priority),
          "EventType" := EventTypeLabel(e.isAlert), "Hostname" := hostname],
      parseTime(e.timestamp),
      PriorityState(e.priority),
      e.message,
      if e.definitionId in page.definitions then page.definitions[e.definitionId] else "",
      ["<a href=\"" + url + "/alerts\" target=\"_blank\" alt=\"Home\">🏠</a>"],
      false)
  }

  /** `Collect` once the pages are fetched: one alert per aggregation id, from its first event. */
  function Collect(url: string, hostname: string, parseTime: string -> int, pages: seq<Page>): (alerts: seq<Connectors.Alert>)
    ensures var kept := FirstPerId(Flatten(pages), {});
      |alerts| == |kept| && forall k :: 0 <= k < |kept| ==> alerts[k] == ToAlert(url, hostname, parseTime, kept[k])
  {
    var kept := FirstPerId(Flatten(pages), {});
    seq(|kept|, k requires 0 <= k < |kept| => ToAlert(url, hostname, parseTime, kept[k]))
  }

  /** Every event on every page is represented, and no aggregation id is reported twice. */
  lemma CollectCoversOncePerId(pages: seq<Page>)
    ensures var kept := FirstPerId(Flatten(pages), {});
      && (forall p, e :: p in pages && e in p.events ==> AggregationId(e) in Ids(kept))
      && (forall k, l :: 0 <= k < l < |kept| ==> AggregationId(kept[k].1) != AggregationId(kept[l].1))
      && (forall it :: it in kept ==> it.0 in pages && it.1 in it.0.events)
  {
    FlattenMembers(pages);
    FirstPerIdKeepsOnePerId(Flatten(pages), {});
  }

  /** Two events of one aggregation on the same page: only the first becomes an alert. */
  lemma DuplicateDropped(p: Page, e1: Event, e2: Event)
    requires p.events == [e1, e2] && AggregationId(e1) == AggregationId(e2)
    ensures FirstPerId(Flatten([p]), {}) == [(p, e1)]
  {
    var items := Flatten([p]);
    assert items == [(p, e1), (p, e2)] by {
      assert [p][1..] == [];
      assert Flatten([p][1..]) == [];
    }
    var id := AggregationId(e1);
    assert items[1..] == [(p, e2)];
    assert items[1..][1..] == [];
    assert FirstPerId(items[1..][1..], {id}) == [];
    assert FirstPerId(items[1..], {id}) == [];
    assert FirstPerId(items, {}) == [items[0]] + FirstPerId(items[1..], {} + {id});
    assert {} + {id} == {id};
  }

  /** How the page loop ends: with the pages collected, with an error, or still asking for more. */
  datatype Paging = Done(pages: seq<Page>) | Failed(error: string) | MorePages

  /**
   * `collectAlertEvents`, given the replies to pages 1, 2, ...: pages are
   * requested until one comes back empty, which is not kept; an error
   * ends the loop with that error.
   */
  function CollectPages(replies: seq<Result<Page, string>>): (r: Paging)
    ensures r.Done? ==> |r.pages| < |replies| && forall i :: 0 <= i < |r.pages| ==> |r.pages[i].events| > 0
    ensures r.Failed? ==> Err(r.error) in replies
    ensures r.MorePages? <==> forall i :: 0 <= i < |replies| ==> replies[i].Ok? && |replies[i].value.events| > 0
  {
    if |replies| == 0 then MorePages
    else match replies[0]
      case Err(e) => Failed(e)
      case Ok(page) =>
        if |page.events| == 0 then Done([])
        else
          var rest := CollectPages(replies[1..]);
          assert forall i :: 1 <= i < |replies| ==> replies[i] == replies[1..][i - 1];
          if rest.Done? then Done([page] + rest.pages) else rest
  }

  /** Whether the reply at `k` is the first empty page, every reply before it being a non-empty page. */
  predicate FirstEmptyAt(replies: seq<Result<Page, string>>, k: nat) {
    && k < |replies| && replies[k].Ok? && |replies[k].value.events| == 0
    && forall j :: 0 <= j < k ==> replies[j].Ok? && |replies[j].value.events| > 0
  }

  /**
   * The loop finishes exactly when a first empty page arrives before any
   * error; the pages kept are the replies before it, all non-empty.
   */
  lemma {:induction false} CollectPagesDone(replies: seq<Result<Page, string>>)
    ensures CollectPages(replies).Done? <==> exists k :: FirstEmptyAt(replies, k)
    ensures forall k :: FirstEmptyAt(replies, k) ==>
      |CollectPages(replies).pages| == k && forall j :: 0 <= j < k ==> replies[j] == Ok(CollectPages(replies).pages[j])
    decreases |replies|
  {
    if |replies| > 0 && replies[0].Ok? && |replies[0].value.events| > 0 {
      var tail := replies[1..];
      CollectPagesDone(tail);
      forall k: nat | FirstEmptyAt(replies, k)
        ensures k > 0 && FirstEmptyAt(tail, k - 1)
      {
        forall j | 0 <= j < k - 1
          ensures tail[j].Ok? && |tail[j].value.events| > 0
        {
          assert tail[j] == replies[j + 1];
        }
      }
      forall k: nat | FirstEmptyAt(tail, k)
        ensures FirstEmptyAt(replies, k + 1)
      {
        forall j | 0 <= j < k + 1
          ensures replies[j].Ok? && |replies[j].value.events| > 0
        {
          if j > 0 { assert replies[j] == tail[j - 1]; }
        }
      }
      forall k: nat | FirstEmptyAt(replies, k)
        ensures |CollectPages(replies).pages| == k && forall j :: 0 <= j < k ==> replies[j] == Ok(CollectPages(replies).pages[j])
      {
        assert FirstEmptyAt(tail, k - 1);
        forall j | 0 <= j < k
          ensures replies[j] == Ok(CollectPages(replies).pages[j])
        {
          if j > 0 { assert replies[j] == tail[j - 1]; }
        }
      }
    } else if |replies| > 0 && replies[0].Ok? {
      assert FirstEmptyAt(replies, 0);
      forall k: nat | FirstEmptyAt(replies, k)
        ensures k == 0
      {
      }
    } else {
      forall k: nat | FirstEmptyAt(replies, k)
        ensures false
      {
      }
    }
  }

  /** An error before the first empty page ends the loop with that error; nothing is kept. */
  lemma CollectPagesFails(replies: seq<Result<Page, string>>, k: nat)
    requires k < |replies| && replies[k].Err?
    requires forall j :: 0 <= j < k ==> replies[j].Ok? && |replies[j].value.events| > 0
    ensures CollectPages(replies) == Failed(replies[k].error)
    decreases k
  {
    if k > 0 {
      CollectPagesFails(replies[1..], k - 1);
    }
  }
}

=== FILE: grouping.dfy ===
/**
 * `groupAlerts`: shown alerts gathered into one group per host and tag,
 * each group ordered by age and the groups ordered by their first alert.
 *
 * The source keys its group map by the concatenation `Where + Tag`, so two
 * different (host, tag) pairs with the same concatenation share a group
 * that is labelled with the first one's host and tag. `AsWrittenKey` and
 * `CollisionExample` record that; the model groups by the pair itself
 * (`PairKey`), which is what the group's `Where`/`Tag` fields describe.
 */
module Grouping {
  import opened Wrappers
  import opened Matching
  import Sorting

  datatype AlertGroup = AlertGroup(where: string, tag: string, alerts: seq<Alert>)

  /** The group key as the source computes it. */
  function AsWrittenKey(a: Alert): string {
    a.where + a.tag
  }

  /** The group key the group's fields describe. */
  function PairKey(a: Alert): (string, string) {
    (a.where, a.tag)
  }

  /** All alerts of a sequence of keyed groups, counted with multiplicity. */
  function Flatten<K>(groups: seq<(K, AlertGroup)>): multiset<Alert> {
    if |groups| == 0 then multiset{}
    else multiset(groups[0].1.alerts) + Flatten(groups[1..])
  }

  /** All alerts of a sequence of groups, counted with multiplicity. */
  function FlattenGroups(groups: seq<AlertGroup>): multiset<Alert> {
    if |groups| == 0 then multiset{}
    else multiset(groups[0].alerts) + FlattenGroups(groups[1..])
  }

  /** Well-formed buckets: distinct keys, non-empty groups whose alerts all carry the bucket's key, labelled by the first alert. */
  ghost predicate WellFormed<K>(groups: seq<(K, AlertGroup)>, key: Alert -> K) {
    && (forall i, j :: 0 <= i < j < |groups| ==> groups[i].0 != groups[j].0)
    && (forall i :: 0 <= i < |groups| ==> |groups[i].1.alerts| > 0)
    && (forall i, k :: 0 <= i < |groups| && 0 <= k < |groups[i].1.alerts| ==>
          key(groups[i].1.alerts[k]) == groups[i].0)
    && (forall i :: 0 <= i < |groups| ==>
          groups[i].1.where == groups[i].1.alerts[0].where && groups[i].1.tag == groups[i].1.alerts[0].tag)
  }

  /** The position of the bucket with key `k`, if there is one. */
  function FindKey<K(==)>(groups: seq<(K, AlertGroup)>, k: K): (r: Option<nat>)
    ensures r.Some? ==> r.value < |groups| && groups[r.value].0 == k
    ensures r.None? ==> forall i :: 0 <= i < |groups| ==> groups[i].0 != k
  {
    if |groups| == 0 then None
    else if groups[0].0 == k then Some(0)
    else match FindKey(groups[1..], k)
      case None => None
      case Some(i) => Some(i + 1)
  }

  lemma {:induction false} FlattenAppend<K>(a: seq<(K, AlertGroup)>, b: seq<(K, AlertGroup)>)
    ensures Flatten(a + b) == Flatten(a) + Flatten(b)
  {
    if |a| == 0 {
      assert a + b == b;
    } else {
      assert (a + b)[1..] == a[1..] + b;
      FlattenAppend(a[1..], b);
    }
  }

  lemma {:induction false} FlattenUpdate<K>(groups: seq<(K, AlertGroup)>, i: nat, g: (K, AlertGroup))
    requires i < |groups|
    ensures Flatten(groups[i := g]) + multiset(groups[i].1.alerts) == Flatten(groups) + multiset(g.1.alerts)
  {
    var u := groups[i := g];
    if i == 0 {
      assert u[1..] == groups[1..];
    } else {
      assert u[0] == groups[0];
      assert groups[1..][i - 1] == groups[i];
      assert u[1..] == groups[1..][i - 1 := g];
      FlattenUpdate(groups[1..], i - 1, g);
      assert Flatten(u) == multiset(groups[0].1.alerts) + Flatten(groups[1..][i - 1 := g]);
      assert Flatten(groups) == multiset(groups[0].1.alerts) + Flatten(groups[1..]);
      assert Flatten(groups[1..][i - 1 := g]) + multiset(groups[i].1.alerts)
        == Flatten(groups[1..]) + multiset(g.1.alerts);
      assert Flatten(u) + multiset(groups[i].1.alerts)
        == multiset(groups[0].1.alerts) + (Flatten(groups[1..][i - 1 := g]) + multiset(groups[i].1.alerts));
    }
  }

  lemma Cancel(x: multiset<Alert>, y: multiset<Alert>, z: multiset<Alert>)
    requires x + z == y + z
    ensures x == y
  {
    forall e ensures x[e] == y[e] {
      assert (x + z)[e] == (y + z)[e];
    }
  }

  lemma ExtendKeepsWellFormed<K>(groups: seq<(K, AlertGroup)>, i: nat, a: Alert, key: Alert -> K)
    requires WellFormed(groups, key) && i < |groups| && groups[i].0 == key(a)
    ensures WellFormed(groups[i := (key(a), groups[i].1.(alerts := groups[i].1.alerts + [a]))], key)
  {
    var g := groups[i].1;
    var r := groups[i := (key(a), g.(alerts := g.alerts + [a]))];
    forall j, k | 0 <= j < |r| && 0 <= k < |r[j].1.alerts|
      ensures key(r[j].1.alerts[k]) == r[j].0
    {
      if j == i && k == |g.alerts| {
        assert r[j].1.alerts[k] == a;
      } else if j == i {
        assert r[j].1.alerts[k] == g.alerts[k];
      }
    }
    assert forall j :: 0 <= j < |r| ==> r[j].1.alerts[0] == groups[j].1.alerts[0];
  }

  lemma OpenKeepsWellFormed<K>(groups: seq<(K, AlertGroup)>, a: Alert, key: Alert -> K)
    requires WellFormed(groups, key)
    requires forall i :: 0 <= i < |groups| ==> groups[i].0 != key(a)
    ensures WellFormed(groups + [(key(a), AlertGroup(a.where, a.tag, [a]))], key)
  {
  }

  /** One step of the grouping loop: append `a` to its bucket, or open a new bucket for it. */
  function AddAlert<K(==)>(groups: seq<(K, AlertGroup)>, a: Alert, key: Alert -> K): (r: seq<(K, AlertGroup)>)
    ensures FindKey(groups, key(a)).Some? ==> |r| == |groups|
    ensures FindKey(groups, key(a)).None? ==> |r| == |groups| + 1
  {
    match FindKey(groups, key(a))
    case Some(i) =>
      groups[i := (key(a), groups[i].1.(alerts := groups[i].1.alerts + [a]))]
    case None =>
      groups + [(key(a), AlertGroup(a.where, a.tag, [a]))]
  }

  /** The grouping step keeps the buckets well formed and adds exactly `a`. */
  lemma AddAlertSpec<K>(groups: seq<(K, AlertGroup)>, a: Alert, key: Alert -> K)
    requires WellFormed(groups, key)
    ensures WellFormed(AddAlert(groups, a, key), key)
    ensures Flatten(AddAlert(groups, a, key)) == Flatten(groups) + multiset{a}
  {
    match FindKey(groups, key(a))
    case Some(i) => ExtendSpec(groups, i, a, key);
    case None => OpenSpec(groups, a, key);
  }

  lemma ExtendSpec<K>(groups: seq<(K, AlertGroup)>, i: nat, a: Alert, key: Alert -> K)
    requires WellFormed(groups, key) && i < |groups| && groups[i].0 == key(a)
    ensures var r := groups[i := (key(a), groups[i].1.(alerts := groups[i].1.alerts + [a]))];
      WellFormed(r, key) && Flatten(r) == Flatten(groups) + multiset{a}
  {
    var g := groups[i].1;
    FlattenUpdate(groups, i, (key(a), g.(alerts := g.alerts + [a])));
    var r := groups[i := (key(a), g.(alerts := g.alerts + [a]))];
    assert multiset(g.alerts + [a]) == multiset(g.alerts) + multiset{a};
    Cancel(Flatten(r), Flatten(groups) + multiset{a}, multiset(g.alerts));
    ExtendKeepsWellFormed(groups, i, a, key);
  }

  lemma OpenSpec<K>(groups: seq<(K, AlertGroup)>, a: Alert, key: Alert -> K)
    requires WellFormed(groups, key)
    requires forall i :: 0 <= i < |groups| ==> groups[i].0 != key(a)
    ensures var r := groups + [(key(a), AlertGroup(a.where, a.tag, [a]))];
      WellFormed(r, key) && Flatten(r) == Flatten(groups) + multiset{a}
  {
    var single := [(key(a), AlertGroup(a.where, a.tag, [a]))];
    FlattenAppend(groups, single);
    assert Flatten(single) == multiset{a} by {
      assert single[1..] == [];
      assert Flatten(single[1..]) == multiset{};
      assert multiset(single[0].1.alerts) == multiset{a};
    }
    OpenKeepsWellFormed(groups, a, key);
  }

  /** The group map the source builds, in first-occurrence order of the keys. */
  function Bucket<K(==)>(alerts: seq<Alert>, key: Alert -> K): (r: seq<(K, AlertGroup)>)
    ensures WellFormed(r, key)
    ensures Flatten(r) == multiset(alerts)
  {
    if |alerts| == 0 then []
    else
      var init := alerts[..|alerts| - 1];
      assert alerts == init + [alerts[|alerts| - 1]];
      AddAlertSpec(Bucket(init, key), alerts[|alerts| - 1], key);
      AddAlert(Bucket(init, key), alerts[|alerts| - 1], key)
  }

  /**
   * Every alert sits in a bucket with its key: for any alert of the input
   * there is exactly one bucket with that key, and it holds the alert.
   */
  lemma {:induction false} BucketHoldsAlert<K>(alerts: seq<Alert>, key: Alert -> K, a: Alert)
    requires a in alerts
    ensures exists i :: (0 <= i < |Bucket(alerts, key)| &&
      Bucket(alerts, key)[i].0 == key(a) && a in Bucket(alerts, key)[i].1.alerts)
  {
    var r := Bucket(alerts, key);
    assert a in multiset(alerts);
    FlattenMember(r, a);
    var i :| 0 <= i < |r| && a in r[i].1.alerts;
    var k :| 0 <= k < |r[i].1.alerts| && r[i].1.alerts[k] == a;
    assert key(r[i].1.alerts[k]) == r[i].0;
  }

  lemma {:induction false} FlattenMember<K>(groups: seq<(K, AlertGroup)>, a: Alert)
    requires a in Flatten(groups)
    ensures exists i :: 0 <= i < |groups| && a in groups[i].1.alerts
  {
    if a in multiset(groups[0].1.alerts) {
      assert a in groups[0].1.alerts;
    } else {
      FlattenMember(groups[1..], a);
      var i :| 0 <= i < |groups[1..]| && a in groups[1..][i].1.alerts;
      assert a in groups[i + 1].1.alerts;
    }
  }

  function WhenOf(a: Alert): int {
    a.when
  }

  /** The age of a group's first alert, which orders the groups. */
  function FirstWhen(g: AlertGroup): int {
    if |g.alerts| > 0 then g.alerts[0].when else 0
  }

  /** A group in final form: non-empty, ordered by age, every alert carrying the group's host and tag. */
  ghost predicate GroupOk(g: AlertGroup) {
    && |g.alerts| > 0
    && Sorting.SortedByKey(g.alerts, WhenOf)
    && forall k :: 0 <= k < |g.alerts| ==> g.alerts[k].where == g.where && g.alerts[k].tag == g.tag
  }

  /** A group's host and tag. */
  function Label(g: AlertGroup): (string, string) {
    (g.where, g.tag)
  }

  /** The key the source files a group under: its host and tag concatenated. */
  function LabelKey(g: AlertGroup): string {
    g.where + g.tag
  }

  /** No two groups agree on `labelOf`. */
  ghost predicate DistinctBy<K>(gs: seq<AlertGroup>, labelOf: AlertGroup -> K) {
    forall i, j :: 0 <= i < j < |gs| ==> labelOf(gs[i]) != labelOf(gs[j])
  }

  /** No two groups describe the same host and tag. */
  ghost predicate DistinctPairs(gs: seq<AlertGroup>) {
    DistinctBy(gs, Label)
  }

  /** The buckets with each group's alerts sorted by age, before the groups themselves are ordered. */
  function SortedBuckets<K(==)>(alerts: seq<Alert>, key: Alert -> K): (gs: seq<AlertGroup>)
    ensures FlattenGroups(gs) == multiset(alerts)
    ensures |gs| == |Bucket(alerts, key)|
    ensures forall i :: 0 <= i < |gs| ==>
      && |gs[i].alerts| > 0
      && Sorting.SortedByKey(gs[i].alerts, WhenOf)
      && (gs[i].where, gs[i].tag) == PairKey(Bucket(alerts, key)[i].1.alerts[0])
      && multiset(gs[i].alerts) == multiset(Bucket(alerts, key)[i].1.alerts)
  {
    var b := Bucket(alerts, key);
    var gs := seq(|b|, i requires 0 <= i < |b| =>
      b[i].1.(alerts := Sorting.SortByKey(b[i].1.alerts, WhenOf)));
    FlattenSorted(b, gs);
    gs
  }

  lemma {:induction false} FlattenSorted<K>(b: seq<(K, AlertGroup)>, gs: seq<AlertGroup>)
    requires |gs| == |b|
    requires forall i :: 0 <= i < |b| ==> multiset(gs[i].alerts) == multiset(b[i].1.alerts)
    ensures FlattenGroups(gs) == Flatten(b)
  {
    if |b| > 0 {
      FlattenSorted(b[1..], gs[1..]);
    }
  }

  /**
   * `groupAlerts`, grouping by (host, tag): every shown alert appears in
   * exactly one group, each group holds only alerts of its host and tag and
   * is ordered by age, no two groups share a host and tag, and the groups
   * are ordered by the age of their first alert.
   */
  function GroupAlerts(alerts: seq<Alert>): (gs: seq<AlertGroup>)
    ensures FlattenGroups(gs) == multiset(alerts)
    ensures forall i :: 0 <= i < |gs| ==> GroupOk(gs[i])
    ensures DistinctPairs(gs)
    ensures Sorting.SortedByKey(gs, FirstWhen)
  {
    var pre := SortedBuckets(alerts, PairKey);
    PairBucketsOk(alerts);
    var gs := Sorting.SortByKey(pre, FirstWhen);
    PermFlattenGroups(pre, gs);
    PermNoDup(pre, gs, Label);
    forall i | 0 <= i < |gs| ensures GroupOk(gs[i]) {
      assert gs[i] in multiset(pre);
    }
    gs
  }

  /** With the pair as key, the sorted buckets are final groups with distinct pairs. */
  lemma PairBucketsOk(alerts: seq<Alert>)
    ensures forall i :: 0 <= i < |SortedBuckets(alerts, PairKey)| ==> GroupOk(SortedBuckets(alerts, PairKey)[i])
    ensures DistinctPairs(SortedBuckets(alerts, PairKey))
  {
    var gs := SortedBuckets(alerts, PairKey);
    forall i | 0 <= i < |gs| ensures GroupOk(gs[i]) {
      PairBucketOk(alerts, i);
    }
    PairBucketsDistinct(alerts);
  }

  /** Every alert of a pair bucket carries the bucket's pair. */
  lemma PairBucketOk(alerts: seq<Alert>, i: nat)
    requires i < |SortedBuckets(alerts, PairKey)|
    ensures GroupOk(SortedBuckets(alerts, PairKey)[i])
  {
    var b := Bucket(alerts, PairKey);
    var g := SortedBuckets(alerts, PairKey)[i];
    forall k | 0 <= k < |g.alerts|
      ensures g.alerts[k].where == g.where && g.alerts[k].tag == g.tag
    {
      var x := g.alerts[k];
      assert x in multiset(b[i].1.alerts);
      var m := Sorting.PositionOf(b[i].1.alerts, x);
      assert PairKey(b[i].1.alerts[m]) == b[i].0;
      assert PairKey(b[i].1.alerts[0]) == b[i].0;
    }
  }

  /** Different pair buckets carry different pairs. */
  lemma PairBucketsDistinct(alerts: seq<Alert>)
    ensures DistinctPairs(SortedBuckets(alerts, PairKey))
  {
    var b := Bucket(alerts, PairKey);
    var gs := SortedBuckets(alerts, PairKey);
    forall i, j | 0 <= i < j < |gs| ensures Label(gs[i]) != Label(gs[j]) {
      assert PairKey(b[i].1.alerts[0]) == b[i].0;
      assert PairKey(b[j].1.alerts[0]) == b[j].0;
    }
  }

  lemma {:induction false} FlattenGroupsAppend(a: seq<AlertGroup>, b: seq<AlertGroup>)
    ensures FlattenGroups(a + b) == FlattenGroups(a) + FlattenGroups(b)
  {
    if |a| == 0 {
      assert a + b == b;
    } else {
      assert (a + b)[1..] == a[1..] + b;
      FlattenGroupsAppend(a[1..], b);
    }
  }

  /** Taking the group at position `k` out of a sequence. */
  lemma RemoveAt(t: seq<AlertGroup>, k: nat)
    requires k < |t|
    ensures FlattenGroups(t) == multiset(t[k].alerts) + FlattenGroups(t[..k] + t[k + 1..])
    ensures multiset(t[..k] + t[k + 1..]) == multiset(t) - multiset{t[k]}
  {
    RemoveAtFlatten(t, k);
    Sorting.RemoveAtMultiset(t, k);
  }

  lemma RemoveAtFlatten(t: seq<AlertGroup>, k: nat)
    requires k < |t|
    ensures FlattenGroups(t) == multiset(t[k].alerts) + FlattenGroups(t[..k] + t[k + 1..])
  {
    Sorting.SplitAt(t, k);
    FlattenGroupsAppend(t[..k], [t[k]] + t[k + 1..]);
    FlattenCons(t[k], t[k + 1..]);
    FlattenGroupsAppend(t[..k], t[k + 1..]);
  }

  lemma FlattenCons(x: AlertGroup, r: seq<AlertGroup>)
    ensures FlattenGroups([x] + r) == multiset(x.alerts) + FlattenGroups(r)
  {
    assert ([x] + r)[1..] == r;
  }

  /** Matching the first group of `s` with its copy in `t` leaves two reorderings of each other. */
  lemma MatchFirst(s: seq<AlertGroup>, t: seq<AlertGroup>) returns (rest: seq<AlertGroup>)
    requires |s| > 0 && multiset(s) == multiset(t)
    ensures multiset(s[1..]) == multiset(rest)
    ensures FlattenGroups(t) == multiset(s[0].alerts) + FlattenGroups(rest)
  {
    var k := Sorting.PositionOf(t, s[0]);
    rest := t[..k] + t[k + 1..];
    RemoveAt(t, k);
    Sorting.TailMultiset(s);
  }

  /** Reordering groups does not change which alerts they hold. */
  lemma {:induction false} PermFlattenGroups(s: seq<AlertGroup>, t: seq<AlertGroup>)
    requires multiset(s) == multiset(t)
    ensures FlattenGroups(s) == FlattenGroups(t)
  {
    if |s| == 0 {
      assert |t| == |multiset(t)| == 0;
    } else {
      var rest := MatchFirst(s, t);
      PermFlattenGroups(s[1..], rest);
    }
  }

  /** Two positions holding the same group make it occur at least twice. */
  lemma TwoOccurrences(t: seq<AlertGroup>, i: nat, j: nat)
    requires i < j < |t|
    ensures t[i] == t[j] ==> multiset(t)[t[i]] >= 2
  {
    assert t == t[..j] + t[j..];
    assert t[..j][i] == t[i];
    assert t[j..][0] == t[j];
  }

  /** Groups with distinct labels each occur once. */
  lemma {:induction false} DistinctOnce<K>(s: seq<AlertGroup>, labelOf: AlertGroup -> K)
    requires DistinctBy(s, labelOf)
    ensures forall x :: multiset(s)[x] <= 1
  {
    if |s| > 0 {
      var tl := s[1..];
      forall i, j | 0 <= i < j < |tl| ensures labelOf(tl[i]) != labelOf(tl[j]) {
        assert tl[i] == s[i + 1] && tl[j] == s[j + 1];
      }
      DistinctOnce(tl, labelOf);
      forall m | 0 <= m < |tl| ensures tl[m] != s[0] {
        assert tl[m] == s[m + 1];
        assert labelOf(s[0]) != labelOf(s[m + 1]);
      }
      assert s[0] !in multiset(tl);
      assert s == [s[0]] + tl;
      assert multiset(s) == multiset{s[0]} + multiset(tl);
    }
  }

  /** Reordering groups keeps their labels distinct, whatever the label. */
  lemma PermNoDup<K>(s: seq<AlertGroup>, t: seq<AlertGroup>, labelOf: AlertGroup -> K)
    requires multiset(s) == multiset(t)
    requires DistinctBy(s, labelOf)
    ensures DistinctBy(t, labelOf)
  {
    DistinctOnce(s, labelOf);
    forall i, j | 0 <= i < j < |t| ensures labelOf(t[i]) != labelOf(t[j]) {
      TwoOccurrences(t, i, j);
      assert multiset(t)[t[i]] <= 1;
      assert t[i] != t[j];
      assert t[i] in multiset(s) && t[j] in multiset(s);
      var a :| 0 <= a < |s| && s[a] == t[i];
      var b :| 0 <= b < |s| && s[b] == t[j];
      if a < b {
        assert labelOf(s[a]) != labelOf(s[b]);
      } else {
        assert labelOf(s[b]) != labelOf(s[a]);
      }
    }
  }

  /** A group as the source files it: non-empty, ordered by age, every alert filed under the group's concatenated key. */
  ghost predicate KeyedOk(g: AlertGroup) {
    && |g.alerts| > 0
    && Sorting.SortedByKey(g.alerts, WhenOf)
    && forall k :: 0 <= k < |g.alerts| ==> AsWrittenKey(g.alerts[k]) == LabelKey(g)
  }

  /** `g` carries the host and tag of the earliest input alert filed under its key. */
  ghost predicate LabelledByFirst(alerts: seq<Alert>, g: AlertGroup) {
    exists k :: 0 <= k < |alerts| && PairKey(alerts[k]) == Label(g)
      && forall m :: 0 <= m < k ==> AsWrittenKey(alerts[m]) != AsWrittenKey(alerts[k])
  }

  /**
   * `groupAlerts` exactly as written: the groups hold every shown alert once,
   * each group holds the alerts of one concatenated key `Where + Tag`, is
   * ordered by age and is labelled by the first alert filed under that key;
   * no two groups share a key, and the groups are ordered by their first alert.
   */
  function GroupAlertsAsWritten(alerts: seq<Alert>): (gs: seq<AlertGroup>)
    ensures FlattenGroups(gs) == multiset(alerts)
    ensures forall i :: 0 <= i < |gs| ==> KeyedOk(gs[i]) && LabelledByFirst(alerts, gs[i])
    ensures DistinctBy(gs, LabelKey)
    ensures Sorting.SortedByKey(gs, FirstWhen)
  {
    var pre := SortedBuckets(alerts, AsWrittenKey);
    WrittenBucketsOk(alerts);
    var gs := Sorting.SortByKey(pre, FirstWhen);
    PermFlattenGroups(pre, gs);
    PermNoDup(pre, gs, LabelKey);
    forall i | 0 <= i < |gs| ensures KeyedOk(gs[i]) && LabelledByFirst(alerts, gs[i]) {
      assert gs[i] in multiset(pre);
    }
    gs
  }

  /** With the concatenation as key, the sorted buckets are keyed groups labelled by their first alert, with distinct keys. */
  lemma WrittenBucketsOk(alerts: seq<Alert>)
    ensures forall i :: 0 <= i < |SortedBuckets(alerts, AsWrittenKey)| ==>
      KeyedOk(SortedBuckets(alerts, AsWrittenKey)[i]) && LabelledByFirst(alerts, SortedBuckets(alerts, AsWrittenKey)[i])
    ensures DistinctBy(SortedBuckets(alerts, AsWrittenKey), LabelKey)
  {
    var b := Bucket(alerts, AsWrittenKey);
    var gs := SortedBuckets(alerts, AsWrittenKey);
    forall i | 0 <= i < |gs| ensures KeyedOk(gs[i]) && LabelledByFirst(alerts, gs[i]) {
      WrittenBucketOk(alerts, i);
    }
    forall i, j | 0 <= i < j < |gs| ensures LabelKey(gs[i]) != LabelKey(gs[j]) {
      assert AsWrittenKey(b[i].1.alerts[0]) == b[i].0;
      assert AsWrittenKey(b[j].1.alerts[0]) == b[j].0;
    }
  }

  /** One concatenated-key bucket, sorted: every alert carries its key, and its label is the earliest such alert's. */
  lemma WrittenBucketOk(alerts: seq<Alert>, i: nat)
    requires i < |SortedBuckets(alerts, AsWrittenKey)|
    ensures KeyedOk(SortedBuckets(alerts, AsWrittenKey)[i])
    ensures LabelledByFirst(alerts, SortedBuckets(alerts, AsWrittenKey)[i])
  {
    var b := Bucket(alerts, AsWrittenKey);
    var g := SortedBuckets(alerts, AsWrittenKey)[i];
    assert AsWrittenKey(b[i].1.alerts[0]) == b[i].0 == LabelKey(g);
    forall k | 0 <= k < |g.alerts| ensures AsWrittenKey(g.alerts[k]) == LabelKey(g) {
      var x := g.alerts[k];
      assert x in multiset(b[i].1.alerts);
      var m := Sorting.PositionOf(b[i].1.alerts, x);
      assert AsWrittenKey(b[i].1.alerts[m]) == b[i].0;
    }
    var k := FirstWithKey(alerts, AsWrittenKey, i);
    assert PairKey(alerts[k]) == Label(g);
  }

  /** Each bucket's first alert is the earliest input alert with the bucket's key. */
  lemma {:induction false} FirstWithKey<K>(alerts: seq<Alert>, key: Alert -> K, i: nat) returns (k: nat)
    requires i < |Bucket(alerts, key)|
    ensures k < |alerts| && alerts[k] == Bucket(alerts, key)[i].1.alerts[0]
    ensures forall m :: 0 <= m < k ==> key(alerts[m]) != Bucket(alerts, key)[i].0
  {
    var init := alerts[..|alerts| - 1];
    var a := alerts[|alerts| - 1];
    BucketStep(alerts, key);
    if i < |Bucket(init, key)| {
      AddAlertKeepsHeads(Bucket(init, key), a, key, i);
      k := FirstWithKey(init, key, i);
      EarlierInPrefix(alerts, init, key, k, Bucket(init, key)[i].0);
    } else {
      AddAlertOpens(Bucket(init, key), a, key, i);
      NoBucketNoAlert(init, key, key(a));
      EarlierInPrefix(alerts, init, key, |alerts| - 1, key(a));
      k := |alerts| - 1;
    }
  }

  /** The bucketing loop's last step: the buckets of all but the last alert, with the last one added. */
  lemma BucketStep<K>(alerts: seq<Alert>, key: Alert -> K)
    requires |alerts| > 0
    ensures Bucket(alerts, key) == AddAlert(Bucket(alerts[..|alerts| - 1], key), alerts[|alerts| - 1], key)
  {
  }

  /** What holds of the positions before `k` in all but the last alert holds of them in the whole sequence. */
  lemma EarlierInPrefix<K>(alerts: seq<Alert>, init: seq<Alert>, key: Alert -> K, k: nat, kk: K)
    requires 0 < |alerts| && init == alerts[..|alerts| - 1] && k < |alerts|
    requires forall m :: 0 <= m < k && m < |init| ==> key(init[m]) != kk
    ensures k < |init| ==> alerts[k] == init[k]
    ensures forall m :: 0 <= m < k ==> key(alerts[m]) != kk
  {
    assert forall m :: 0 <= m < |init| ==> init[m] == alerts[m];
  }

  /** Adding an alert leaves every existing bucket's key and first alert in place. */
  lemma AddAlertKeepsHeads<K>(groups: seq<(K, AlertGroup)>, a: Alert, key: Alert -> K, i: nat)
    requires WellFormed(groups, key) && i < |groups|
    ensures i < |AddAlert(groups, a, key)|
    ensures AddAlert(groups, a, key)[i].0 == groups[i].0
    ensures AddAlert(groups, a, key)[i].1.alerts[0] == groups[i].1.alerts[0]
  {
  }

  /** A bucket beyond the existing ones is opened for `a` alone, because no bucket had its key. */
  lemma AddAlertOpens<K>(groups: seq<(K, AlertGroup)>, a: Alert, key: Alert -> K, i: nat)
    requires |groups| <= i < |AddAlert(groups, a, key)|
    ensures FindKey(groups, key(a)).None?
    ensures AddAlert(groups, a, key)[i].0 == key(a) && AddAlert(groups, a, key)[i].1.alerts[0] == a
  {
  }

  /** A key without a bucket belongs to no input alert. */
  lemma NoBucketNoAlert<K>(alerts: seq<Alert>, key: Alert -> K, k: K)
    requires FindKey(Bucket(alerts, key), k).None?
    ensures forall m :: 0 <= m < |alerts| ==> key(alerts[m]) != k
  {
    forall m | 0 <= m < |alerts| ensures key(alerts[m]) != k {
      BucketHoldsAlert(alerts, key, alerts[m]);
    }
  }

  /**
   * Host "ab" with tag "c" and host "a" with tag "bc" share the key "abc":
   * the source puts both alerts into one group labelled host "ab", which then
   * holds an alert of host "a". Grouping by the pair keeps them apart.
   */
  lemma CollisionExample(a1: Alert, a2: Alert)
    requires a1.where == "ab" && a1.tag == "c"
    requires a2.where == "a" && a2.tag == "bc"
    ensures |GroupAlertsAsWritten([a1, a2])| == 1
    ensures var g := GroupAlertsAsWritten([a1, a2])[0]; g.where == "ab" && a2 in g.alerts
    ensures |GroupAlerts([a1, a2])| == 2
  {
    SharedBucket(a1, a2);
    var gs := GroupAlertsAsWritten([a1, a2]);
    var pre := SortedBuckets([a1, a2], AsWrittenKey);
    assert |gs| == 1;
    assert gs[0] in multiset(pre);
    assert gs[0] == pre[0];
    assert FlattenGroups(gs) == multiset(gs[0].alerts) + FlattenGroups(gs[1..]);
    assert a2 in multiset(gs[0].alerts);
    SeparateBuckets(a1, a2);
    var ps := GroupAlerts([a1, a2]);
    assert |ps| == |SortedBuckets([a1, a2], PairKey)|;
  }

  lemma SharedBucket(a1: Alert, a2: Alert)
    requires a1.where == "ab" && a1.tag == "c"
    requires a2.where == "a" && a2.tag == "bc"
    ensures Bucket([a1, a2], AsWrittenKey) == [(AsWrittenKey(a1), AlertGroup("ab", "c", [a1, a2]))]
  {
    assert AsWrittenKey(a1) == AsWrittenKey(a2);
    assert [a1, a2][..1] == [a1];
    assert [a1][..0] == [];
    var b1 := Bucket([a1], AsWrittenKey);
    assert b1 == [(AsWrittenKey(a1), AlertGroup("ab", "c", [a1]))];
    assert FindKey(b1, AsWrittenKey(a2)) == Some(0);
    assert [a1] + [a2] == [a1, a2];
  }

  lemma SeparateBuckets(a1: Alert, a2: Alert)
    requires PairKey(a1) != PairKey(a2)
    ensures |Bucket([a1, a2], PairKey)| == 2
  {
    assert [a1, a2][..1] == [a1];
    assert [a1][..0] == [];
    var p1 := Bucket([a1], PairKey);
    assert p1 == [(PairKey(a1), AlertGroup(a1.where, a1.tag, [a1]))];
    assert FindKey(p1, PairKey(a2)) == None;
  }
}

=== FILE: icinga2.dfy ===
/**
 * The Icinga2 connector: host and service objects become alerts when they
 * are in a problem state nobody has taken care of. A host alert hides the
 * service alerts of that host.
 *
 * `start` is the instant Go derives from `last_state_change` (float
 * seconds since the Unix epoch); that conversion is not modelled.
 */
module Icinga2 {
  import opened GoStrings
  import Connectors

  datatype Host = Host(
    displayName: string,
    state: int,
    acknowledgement: int,
    downtimeDepth: int,
    enableNotifications: bool,
    groups: seq<string>,
    output: string,
    start: int)

  datatype Service = Service(
    hostName: string,
    name: string,
    displayName: string,
    zone: string,
    state: int,
    acknowledgement: int,
    downtimeDepth: int,
    enableNotifications: bool,
    groups: seq<string>,
    output: string,
    start: int)

  /** A host is reported unless acknowledged, muted, in downtime or up. */
  predicate HostReported(h: Host) {
    h.acknowledgement <= 0 && h.enableNotifications && h.downtimeDepth <= 0 && h.state != 0
  }

  /**
   * A service is reported unless its host raised an alert, or it is muted,
   * in downtime or OK. Acknowledgement is not looked at.
   */
  predicate ServiceReported(s: Service, problemHosts: set<string>) {
    s.hostName !in problemHosts && s.enableNotifications && s.downtimeDepth <= 0 && s.state != 0
  }

  function HostAlert(url: string, dashboardUrl: string, h: Host): (a: Connectors.Alert)
    ensures a.labels.Keys == {"Hostname", "Source", "groups", "Type"}
    ensures a.state == h.state && a.labels["Type"] == "Host" && a.labels["Hostname"] == h.displayName
    ensures a.description == "Host down" && a.details == h.output && a.silenceable
  {
    Connectors.Alert(
      map["Hostname" := h.displayName, "Source" := url, "groups" := Join(h.groups, ","), "Type" := "Host"],
      h.start, h.state, "Host down", h.output,
      ["<a href=\"" + dashboardUrl + "/dashboard#!/monitoring/host/show?host=" + h.displayName + "\" target=\"_blank\" alt=\"Home\">🏠</a>"],
      true)
  }

  function ServiceAlert(url: string, dashboardUrl: string, s: Service): (a: Connectors.Alert)
    ensures a.labels.Keys == {"Hostname", "Zone", "Source", "groups", "Type"}
    ensures a.state == s.state && a.labels["Type"] == "Service" && a.labels["Hostname"] == s.hostName
    ensures a.labels["Zone"] == s.zone && a.description == s.displayName && a.details == s.output && a.silenceable
  {
    Connectors.Alert(
      map["Hostname" := s.hostName, "Zone" := s.zone, "Source" := url, "groups" := Join(s.groups, ","), "Type" := "Service"],
      s.start, s.state, s.displayName, s.output,
      ["<a href=\"" + dashboardUrl + "/dashboard#!/monitoring/host/show?host=" + s.hostName + "&service=" + s.name + "\" target=\"_blank\" alt=\"Home\">🏠</a>"],
      true)
  }

  /** The alerts for the reported hosts, in order. */
  function HostAlerts(url: string, dashboardUrl: string, hosts: seq<Host>): (r: seq<Connectors.Alert>)
    ensures forall a :: a in r <==> exists h :: h in hosts && HostReported(h) && a == HostAlert(url, dashboardUrl, h)
  {
    if |hosts| == 0 then []
    else
      var rest := HostAlerts(url, dashboardUrl, hosts[1..]);
      assert forall h :: h in hosts <==> h == hosts[0] || h in hosts[1..];
      if HostReported(hosts[0]) then [HostAlert(url, dashboardUrl, hosts[0])] + rest else rest
  }

  /** The display names of the hosts that raised an alert. */
  function ProblemHosts(hosts: seq<Host>): set<string> {
    set h | h in hosts && HostReported(h) :: h.displayName
  }

  /** The alerts for the reported services, in order. */
  function ServiceAlerts(url: string, dashboardUrl: string, services: seq<Service>, problemHosts: set<string>): (r: seq<Connectors.Alert>)
    ensures forall a :: a in r <==> exists s :: s in services && ServiceReported(s, problemHosts) && a == ServiceAlert(url, dashboardUrl, s)
  {
    if |services| == 0 then []
    else
      var rest := ServiceAlerts(url, dashboardUrl, services[1..], problemHosts);
      assert forall s :: s in services <==> s == services[0] || s in services[1..];
      if ServiceReported(services[0], problemHosts) then [ServiceAlert(url, dashboardUrl, services[0])] + rest else rest
  }

  /** `Collect` once hosts and services are fetched: host alerts first, then service alerts. */
  function Collect(url: string, dashboardUrl: string, hosts: seq<Host>, services: seq<Service>): (r: seq<Connectors.Alert>)
    ensures forall a :: a in r ==> a.state != Connectors.OK && "Type" in a.labels && a.labels["Type"] in {"Host", "Service"}
    ensures forall h :: h in hosts && HostReported(h) ==> HostAlert(url, dashboardUrl, h) in r
    ensures forall s :: s in services && ServiceReported(s, ProblemHosts(hosts)) ==> ServiceAlert(url, dashboardUrl, s) in r
    ensures forall a :: a in r && a.labels["Type"] == "Host" ==>
      exists h :: h in hosts && HostReported(h) && a == HostAlert(url, dashboardUrl, h)
    ensures forall a :: a in r && a.labels["Type"] == "Service" ==>
      exists s :: s in services && ServiceReported(s, ProblemHosts(hosts)) && a == ServiceAlert(url, dashboardUrl, s)
  {
    HostAlerts(url, dashboardUrl, hosts) + ServiceAlerts(url, dashboardUrl, services, ProblemHosts(hosts))
  }

  /** A service on a host that raised an alert is never reported, whatever its own state. */
  lemma HostAlertHidesServices(url: string, dashboardUrl: string, hosts: seq<Host>, services: seq<Service>, h: Host, s: Service)
    requires h in hosts && HostReported(h) && s.hostName == h.displayName
    ensures forall a :: a in Collect(url, dashboardUrl, hosts, services) && a.labels["Type"] == "Service" ==>
      a.labels["Hostname"] != s.hostName
  {
    assert s.hostName in ProblemHosts(hosts);
  }

  /** An acknowledged host problem stays quiet, an acknowledged service problem does not. */
  lemma AcknowledgementOnlyForHosts()
    ensures !HostReported(Host("h", 1, 1, 0, true, [], "", 0))
    ensures ServiceReported(Service("h", "disk", "Disk", "z", 2, 1, 0, true, [], "", 0), {})
  {
  }

  /** Whether a service is reported never depends on its acknowledgement. */
  lemma ServiceAcknowledgementIgnored(s: Service, problemHosts: set<string>, ack: int)
    ensures ServiceReported(s.(acknowledgement := ack), problemHosts) == ServiceReported(s, problemHosts)
  {
  }
}

=== FILE: live_update.dfy ===
/**
 * The dashboard's live-update connection (`index.js`): a WebSocket whose
 * messages Turbo renders, re-opened a second after it closes while the
 * connection is wanted, or, without WebSocket support, a page reload
 * every 60 seconds. A checkbox switches the connection off and on.
 *
 * Browser callbacks become events applied to an explicit state. Sockets
 * are numbered in the order they are opened; `live` holds the sockets
 * whose close event has not fired yet, `closing` those the page asked to
 * close, `streams` those Turbo listens to, and `retries` the pending
 * one-second timers.
 */
module LiveUpdate {
  import opened Wrappers

  datatype WsConn = WsConn(
    url: string,
    active: bool,
    socket: Option<nat>,
    next: nat,
    live: set<nat>,
    closing: set<nat>,
    streams: set<nat>,
    retries: nat)

  /** `new WebSocketConn(url)`: active, without a socket. */
  function NewWsConn(url: string): (c: WsConn)
    ensures c.active && c.socket.None? && c.live == {} && c.retries == 0
  {
    WsConn(url, true, None, 0, {}, {}, {}, 0)
  }

  /** `connect`: open a fresh socket and remember it. */
  function Connect(c: WsConn): (r: WsConn)
    ensures r.socket == Some(c.next) && r.next == c.next + 1 && r.live == c.live + {c.next}
    ensures r.active == c.active && r.closing == c.closing && r.streams == c.streams
  {
    c.(socket := Some(c.next), next := c.next + 1, live := c.live + {c.next})
  }

  /** `disconnect`: no longer wanted; the current socket leaves Turbo, is asked to close and forgotten. */
  function Disconnect(c: WsConn): (r: WsConn)
    ensures !r.active && r.socket.None? && r.live == c.live && r.next == c.next
    ensures c.socket.Some? ==> r.closing == c.closing + {c.socket.value} && r.streams == c.streams - {c.socket.value}
    ensures c.socket.None? ==> r.closing == c.closing && r.streams == c.streams
  {
    match c.socket
    case None => c.(active := false)
    case Some(s) => c.(active := false, closing := c.closing + {s}, streams := c.streams - {s}, socket := None)
  }

  /** `reconnect`: wanted again; a socket is opened only when there is none. */
  function Reconnect(c: WsConn): (r: WsConn)
    ensures r.active && r.socket.Some?
    ensures c.socket.Some? ==> r == c.(active := true)
    ensures c.socket.None? ==> r.live == c.live + {c.next}
  {
    if c.socket.None? then Connect(c.(active := true)) else c.(active := true)
  }

  /** The `open` handler: Turbo starts listening to the socket; which socket is current does not change. */
  function OnOpen(c: WsConn, s: nat): (r: WsConn)
    requires s in c.live
    ensures s in r.streams && r.streams - {s} == c.streams - {s}
    ensures r.socket == c.socket && r.active == c.active && r.live == c.live && r.closing == c.closing
    ensures SingleSocket(c) ==> SingleSocket(r)
  {
    c.(streams := c.streams + {s})
  }

  /** The `error` handler: the socket is asked to close. */
  function OnError(c: WsConn, s: nat): (r: WsConn)
    requires s in c.live
    ensures r.closing == c.closing + {s} && r.socket == c.socket && r.active == c.active
  {
    c.(closing := c.closing + {s})
  }

  /**
   * The `close` handler as written: Turbo stops listening to that socket,
   * the connection forgets whatever socket it holds, and a retry is armed.
   */
  function OnClose(c: WsConn, s: nat): (r: WsConn)
    requires s in c.live
    ensures r.socket.None? && r.live == c.live - {s} && r.streams == c.streams - {s} && r.retries == c.retries + 1
  {
    c.(socket := None, live := c.live - {s}, closing := c.closing - {s}, streams := c.streams - {s}, retries := c.retries + 1)
  }

  /** The `close` handler as evidently intended: only forget the socket when it is the one that closed. */
  function OnCloseIntended(c: WsConn, s: nat): (r: WsConn)
    requires s in c.live
    ensures r.socket == (if c.socket == Some(s) then None else c.socket)
    ensures r.live == c.live - {s} && r.streams == c.streams - {s} && r.retries == c.retries + 1
  {
    c.(socket := if c.socket == Some(s) then None else c.socket,
       live := c.live - {s}, closing := c.closing - {s}, streams := c.streams - {s}, retries := c.retries + 1)
  }

  /** A one-second retry fires: reconnect only while the connection is wanted. */
  function OnRetry(c: WsConn): (r: WsConn)
    requires c.retries > 0
    ensures r.retries == c.retries - 1
    ensures !c.active ==> r == c.(retries := c.retries - 1)
    ensures c.active ==> r.active && r.socket.Some?
  {
    var d := c.(retries := c.retries - 1);
    if d.active then Reconnect(d) else d
  }

  /**
   * At most one socket is in use: every live socket the page has not asked
   * to close is the current one, and the current one is live (it may be
   * closing after an error).
   */
  predicate SingleSocket(c: WsConn) {
    && (forall s :: s in c.live && s !in c.closing ==> c.socket == Some(s))
    && (c.socket.Some? ==> c.socket.value in c.live)
    && (forall s :: s in c.live ==> s < c.next)
    && c.closing <= c.live
  }

  /** The events of one socket connection, with the intended close handler. */
  datatype Event = Connected | Disconnected | Reconnected | Opened(s: nat) | Errored(s: nat) | Closed(s: nat) | Retried

  predicate Enabled(c: WsConn, e: Event) {
    match e
    case Connected => c.socket.None?
    case Opened(s) => s in c.live
    case Errored(s) => s in c.live
    case Closed(s) => s in c.live
    case Retried => c.retries > 0
    case _ => true
  }

  function StepIntended(c: WsConn, e: Event): WsConn
    requires Enabled(c, e)
  {
    match e
    case Connected => Connect(c)
    case Disconnected => Disconnect(c)
    case Reconnected => Reconnect(c)
    case Opened(s) => OnOpen(c, s)
    case Errored(s) => OnError(c, s)
    case Closed(s) => OnCloseIntended(c, s)
    case Retried => OnRetry(c)
  }

  /** With the intended close handler, every event keeps a single socket in use. */
  lemma StepKeepsSingleSocket(c: WsConn, e: Event)
    requires SingleSocket(c) && Enabled(c, e)
    ensures SingleSocket(StepIntended(c, e))
  {
    match e
    case Connected =>
    case Disconnected =>
    case Reconnected =>
    case Opened(s) =>
    case Errored(s) =>
    case Closed(s) =>
    case Retried =>
  }

  /**
   * As written, closing by hand and switching back on before the old
   * socket's close event arrives ends with two open sockets: the late close
   * event makes the connection forget the new socket, and the retry opens a
   * third one while the second stays open.
   */
  lemma StaleCloseLeaksSocket(url: string)
    ensures var c0 := Connect(NewWsConn(url));
      var c1 := Reconnect(Disconnect(c0));
      var c2 := OnRetry(OnClose(c1, 0));
      && c2.live == {1, 2} && c2.closing == {} && c2.socket == Some(2)
      && !SingleSocket(c2)
  {
  }

  /** The same events with the intended close handler keep the second socket and open no third. */
  lemma StaleCloseIntended(url: string)
    ensures var c0 := Connect(NewWsConn(url));
      var c1 := Reconnect(Disconnect(c0));
      var c2 := OnRetry(OnCloseIntended(c1, 0));
      && c2.live == {1} && c2.socket == Some(1) && SingleSocket(c2)
  {
  }

  /** A close the page asked for, while switched off, re-opens nothing. */
  lemma ManualDisconnectStays(c: WsConn)
    requires c.socket.Some? && SingleSocket(c)
    ensures var d := Disconnect(c); var e := OnRetry(OnClose(d, c.socket.value));
      !e.active && e.socket.None? && e.live == c.live - {c.socket.value}
  {
  }

  /** The reload fallback: whether it is wanted, the tracked timer, pending timers, and reloads so far. */
  datatype FallbackConn = FallbackConn(active: bool, timerId: Option<nat>, pending: set<nat>, next: nat, reloads: nat)

  function NewFallbackConn(): (f: FallbackConn)
    ensures f.active && f.pending == {} && f.reloads == 0
  {
    FallbackConn(true, None, {}, 0, 0)
  }

  /** `connect`: arm a 60-second timer and track it. */
  function FallbackConnect(f: FallbackConn): (r: FallbackConn)
    ensures r.timerId == Some(f.next) && r.pending == f.pending + {f.next} && r.active == f.active && r.reloads == f.reloads
  {
    f.(timerId := Some(f.next), pending := f.pending + {f.next}, next := f.next + 1)
  }

  /** A timer fires: while wanted, reload and arm the next one; otherwise nothing more. */
  function Tick(f: FallbackConn, t: nat): (r: FallbackConn)
    requires t in f.pending
    ensures r.reloads == (if f.active then f.reloads + 1 else f.reloads)
    ensures f.active ==> r.pending == f.pending - {t} + {f.next} && r.timerId == Some(f.next)
    ensures !f.active ==> r.pending == f.pending - {t} && r.timerId == f.timerId
  {
    var g := f.(pending := f.pending - {t});
    if g.active then FallbackConnect(g.(reloads := g.reloads + 1)) else g
  }

  /** `disconnect`: not wanted; the tracked timer is cleared. */
  function FallbackDisconnect(f: FallbackConn): (r: FallbackConn)
    ensures !r.active && r.reloads == f.reloads
    ensures f.timerId.Some? ==> r.pending == f.pending - {f.timerId.value}
    ensures f.timerId.None? ==> r.pending == f.pending
  {
    match f.timerId
    case None => f.(active := false)
    case Some(t) => f.(active := false, pending := f.pending - {t})
  }

  /** `reconnect`: wanted again, and a fresh timer armed. */
  function FallbackReconnect(f: FallbackConn): (r: FallbackConn)
    ensures r.active && r.timerId == Some(f.next) && r.pending == f.pending + {f.next}
  {
    FallbackConnect(f.(active := true))
  }

  /** Once switched off, no timer reloads the page until it is switched on again. */
  lemma {:induction false} NoReloadWhileOff(f: FallbackConn, ticks: seq<nat>)
    requires !f.active
    requires forall i :: 0 <= i < |ticks| ==> ticks[i] in f.pending
    requires forall i, j :: 0 <= i < j < |ticks| ==> ticks[i] != ticks[j]
    ensures Ticks(f, ticks).reloads == f.reloads && !Ticks(f, ticks).active
    ensures Ticks(f, ticks).pending == f.pending - set i | 0 <= i < |ticks| :: ticks[i]
    decreases |ticks|
  {
    if |ticks| > 0 {
      var rest := ticks[1..];
      var g := Tick(f, ticks[0]);
      assert forall i :: 0 <= i < |rest| ==> rest[i] == ticks[i + 1] && rest[i] in g.pending;
      NoReloadWhileOff(g, rest);
      assert (set i | 0 <= i < |ticks| :: ticks[i]) == {ticks[0]} + set i | 0 <= i < |rest| :: rest[i];
    }
  }

  /** Timers firing one after another. */
  function Ticks(f: FallbackConn, ticks: seq<nat>): FallbackConn
    requires forall i :: 0 <= i < |ticks| ==> ticks[i] in f.pending
    requires forall i, j :: 0 <= i < j < |ticks| ==> ticks[i] != ticks[j]
    ensures Ticks(f, ticks).active == f.active
    decreases |ticks|
  {
    if |ticks| == 0 then f
    else
      var g := Tick(f, ticks[0]);
      assert forall i :: 1 <= i < |ticks| ==> ticks[i] in g.pending;
      Ticks(g, ticks[1..])
  }

  /** The transport the page picks, and for WebSocket the address it connects to. */
  datatype Transport = Socket(url: string) | Fallback

  /** `wss://` under https, `ws://` otherwise, then the host and `/ws/alerts`; the reload fallback without WebSocket. */
  function ChooseTransport(hasWebSocket: bool, protocol: string, host: string): (t: Transport)
    ensures t.Socket? <==> hasWebSocket
    ensures t.Socket? && protocol == "https:" ==> t.url == "wss://" + host + "/ws/alerts"
    ensures t.Socket? && protocol != "https:" ==> t.url == "ws://" + host + "/ws/alerts"
  {
    if hasWebSocket then Socket((if protocol == "https:" then "wss://" else "ws://") + host + "/ws/alerts") else Fallback
  }

  /** A secure page gets a secure socket and an insecure page an insecure one. */
  lemma SchemeFollowsPage(protocol: string, host: string)
    ensures var t := ChooseTransport(true, protocol, host);
      (t.url[..6] == "wss://") <==> protocol == "https:"
  {
    var t := ChooseTransport(true, protocol, host);
    if protocol != "https:" {
      assert t.url[..5] == "ws://";
      assert t.url[2] == ':';
    }
  }

  /** Either connection, as the page holds it. */
  datatype Conn = Ws(ws: WsConn) | Fb(fb: FallbackConn)

  function Active(c: Conn): bool {
    match c
    case Ws(w) => w.active
    case Fb(f) => f.active
  }

  /** The start-up: build the chosen connection and connect it. */
  function Start(t: Transport): (c: Conn)
    ensures Active(c)
    ensures t.Socket? ==> c.Ws? && c.ws.url == t.url && c.ws.socket.Some?
    ensures t.Fallback? ==> c.Fb? && c.fb.timerId.Some?
  {
    match t
    case Socket(url) => Ws(Connect(NewWsConn(url)))
    case Fallback => Fb(FallbackConnect(NewFallbackConn()))
  }

  /** The checkbox's `change` handler: checked reconnects, unchecked disconnects. */
  function OnCheckbox(c: Conn, checked: bool): (r: Conn)
    ensures Active(r) == checked
    ensures r.Ws? == c.Ws?
    ensures r.Ws? && checked ==> r.ws.socket.Some?
    ensures r.Ws? && !checked ==> r.ws.socket.None?
  {
    match c
    case Ws(w) => Ws(if checked then Reconnect(w) else Disconnect(w))
    case Fb(f) => Fb(if checked then FallbackReconnect(f) else FallbackDisconnect(f))
  }
}

=== FILE: matching.dfy ===
/**
 * Rule matching for aggregated alerts: which configured rule (or downtime
 * rule) an alert matches, and whether a dashboard shows or blocks it.
 *
 * A rule builds a map from alert values to matchers: the `what` matcher
 * keyed by the alert's description (only when it already matches), the
 * `when` matcher keyed by the alert's age in whole seconds, and one entry
 * per label matcher keyed by the alert's value for that label. Because the
 * map is keyed by the alert's value, matchers on equal values overwrite
 * each other and only the last one written is consulted. A rule matches
 * when that map is non-empty and every entry matches its key.
 */
module Matching {
  import opened Wrappers
  import opened GoStrings
  import opened RuleEngine
  import opened DashboardModes
  import GoTime
  import Decimal

  /**
   * `aggregation.Alert`. `labels` is `None` for Go's nil map (the
   * collection-failure alert has one); `when` is the alert's age in
   * nanoseconds; `silenceable` records whether a silencer is attached.
   */
  datatype Alert = Alert(
    id: string,
    where: string,
    tag: string,
    what: string,
    details: string,
    when: int,
    status: string,
    links: seq<string>,
    labels: Option<map<string, string>>,
    silenceable: bool)

  /** `config.Dashboard`: a name, a filter mode and the filter rules. */
  datatype Dashboard = Dashboard(name: string, mode: DashboardMode, filter: seq<Rule>)

  /** Whether a lookup of `k` in the alert's label map finds an entry (a nil map finds none). */
  predicate HasLabel(labels: Option<map<string, string>>, k: string) {
    labels.Some? && k in labels.value
  }

  /**
   * `strconv.FormatFloat(d.Seconds(), 'f', 0, 64)`: the duration in whole
   * seconds, rounded half to even, with a minus sign for negative durations
   * (so a duration in (-0.5s, 0) prints as "-0"). The rounding is of the
   * exact nanosecond count; Go rounds the float64 `Seconds()`, which can
   * already have rounded a near-half value up to the half.
   */
  function SecondsText(d: int): (s: string)
    ensures |s| >= 1
    ensures d >= 0 ==> Decimal.ParseDecimal(s) == Some(GoTime.RoundHalfEven(d, GoTime.Second))
    ensures d < 0 <==> s[0] == '-'
  {
    var n := GoTime.RoundHalfEven(if d < 0 then -d else d, GoTime.Second);
    Decimal.ParseFormat(n);
    assert Decimal.FormatInt(n) == Decimal.FormatNat(n);
    assert "" + Decimal.FormatNat(n) == Decimal.FormatNat(n);
    (if d < 0 then "-" else "") + Decimal.FormatNat(n)
  }

  /**
   * The label part of a rule's matcher map, as the sequence of writes the
   * label loop performs, or `None` when some label is missing from the alert
   * (the rule is then skipped).
   */
  function LabelWrites(labels: Option<map<string, string>>, ls: seq<(string, Matcher)>)
    : (r: Option<seq<(string, Matcher)>>)
    ensures r.Some? <==> forall i :: 0 <= i < |ls| ==> HasLabel(labels, ls[i].0)
    ensures r.Some? ==> |r.value| == |ls|
    ensures r.Some? ==> forall i :: 0 <= i < |ls| ==>
      HasLabel(labels, ls[i].0) && r.value[i] == (labels.value[ls[i].0], ls[i].1)
  {
    if |ls| == 0 then Some([])
    else if !HasLabel(labels, ls[0].0) then None
    else match LabelWrites(labels, ls[1..])
      case None => None
      case Some(rest) => Some([(labels.value[ls[0].0], ls[0].1)] + rest)
  }

  /** Every write `matchAlert` makes into a rule's matcher map, in order; `None` when the rule is skipped. */
  function MatcherWrites(alert: Alert, rule: Rule): (r: Option<seq<(string, Matcher)>>)
    ensures r.Some? <==> forall i :: 0 <= i < |rule.labels| ==> HasLabel(alert.labels, rule.labels[i].0)
  {
    var whatW := if rule.what.Some? && rule.what.value.matches(alert.what)
      then [(alert.what, rule.what.value)] else [];
    var whenW := if rule.when.Some? then [(SecondsText(alert.when), rule.when.value)] else [];
    match LabelWrites(alert.labels, rule.labels)
    case None => None
    case Some(lw) => Some(whatW + whenW + lw)
  }

  /** The Go map after performing `writes` in order on an empty map. */
  function Collapse(writes: seq<(string, Matcher)>): (m: map<string, Matcher>)
    ensures |writes| > 0 ==> writes[|writes| - 1].0 in m && m[writes[|writes| - 1].0] == writes[|writes| - 1].1
  {
    if |writes| == 0 then map[]
    else
      var last := writes[|writes| - 1];
      Collapse(writes[..|writes| - 1])[last.0 := last.1]
  }

  /** The map's keys are exactly the keys written. */
  lemma {:induction false} CollapseKeys(writes: seq<(string, Matcher)>)
    ensures Collapse(writes).Keys == set i | 0 <= i < |writes| :: writes[i].0
  {
    if |writes| > 0 {
      var init := writes[..|writes| - 1];
      CollapseKeys(init);
      assert forall i :: 0 <= i < |init| ==> init[i] == writes[i];
      assert (set i | 0 <= i < |writes| :: writes[i].0)
        == (set i | 0 <= i < |init| :: init[i].0) + {writes[|writes| - 1].0};
    }
  }

  /** The last write to a key decides its matcher: a write never overwritten later is what the map holds. */
  lemma {:induction false} CollapseLastWriteWins(writes: seq<(string, Matcher)>, i: nat)
    requires i < |writes|
    requires forall j :: i < j < |writes| ==> writes[j].0 != writes[i].0
    ensures writes[i].0 in Collapse(writes) && Collapse(writes)[writes[i].0] == writes[i].1
  {
    if i < |writes| - 1 {
      var init := writes[..|writes| - 1];
      assert forall j :: i < j < |init| ==> init[j] == writes[j];
      CollapseLastWriteWins(init, i);
    }
  }

  /** The number of map entries whose matcher accepts its key: the `matchCount` loop. */
  function MatchCount(m: map<string, Matcher>): (n: nat)
    ensures n <= |m|
  {
    var hits := set k | k in m && m[k].matches(k);
    assert hits <= m.Keys;
    SubsetCard(hits, m.Keys);
    |hits|
  }

  lemma SubsetCard(a: set<string>, b: set<string>)
    requires a <= b
    ensures |a| <= |b|
  {
    assert b == a + (b - a);
  }

  lemma {:induction false} ProperSubsetCard(a: set<string>, b: set<string>)
    requires a < b
    ensures |a| < |b|
  {
    assert b - a != {};
    var x :| x in b - a;
    SubsetCard(a, b - {x});
    assert b == (b - {x}) + {x};
  }

  /** Whether one rule matches: some matcher exists and all of them match. */
  predicate RuleMatches(alert: Alert, rule: Rule) {
    match MatcherWrites(alert, rule)
    case None => false
    case Some(w) =>
      var m := Collapse(w);
      MatchCount(m) > 0 && MatchCount(m) == |m|
  }

  /** Counting hits equals checking every entry: the count reaches `|m|` iff each matcher accepts its key. */
  lemma {:induction false} MatchCountFull(m: map<string, Matcher>)
    ensures MatchCount(m) == |m| <==> forall k :: k in m ==> m[k].matches(k)
  {
    var hits := set k | k in m && m[k].matches(k);
    if forall k :: k in m ==> m[k].matches(k) {
      assert hits == m.Keys;
    } else {
      var bad :| bad in m && !m[bad].matches(bad);
      assert bad !in hits;
      assert hits < m.Keys;
      ProperSubsetCard(hits, m.Keys);
    }
  }

  /** A rule matches iff no label it names is missing and its matcher map is non-empty and matches throughout. */
  lemma RuleMatchesIff(alert: Alert, rule: Rule)
    ensures RuleMatches(alert, rule) <==>
      && MatcherWrites(alert, rule).Some?
      && var m := Collapse(MatcherWrites(alert, rule).value);
         |m| > 0 && forall k :: k in m ==> m[k].matches(k)
  {
    match MatcherWrites(alert, rule)
    case None =>
    case Some(w) => MatchCountFull(Collapse(w));
  }

  /** A rule naming a label the alert does not carry never matches it. */
  lemma MissingLabelSkips(alert: Alert, rule: Rule, i: nat)
    requires i < |rule.labels| && !HasLabel(alert.labels, rule.labels[i].0)
    ensures !RuleMatches(alert, rule)
  {
  }

  /**
   * A `what` matcher that rejects the alert's description is left out of the
   * map altogether, so the rule then behaves as if it had no `what` matcher.
   */
  lemma WhatMismatchIgnored(alert: Alert, rule: Rule)
    requires rule.what.Some? && !rule.what.value.matches(alert.what)
    ensures RuleMatches(alert, rule) == RuleMatches(alert, rule.(what := None))
  {
  }

  /** A rule with only a `what` matcher matches exactly the alerts whose description it accepts. */
  lemma WhatOnlyRule(alert: Alert, m: Matcher)
    ensures RuleMatches(alert, Rule([], Some(m), None, [])) <==> m.matches(alert.what)
  {
    var rule := Rule([], Some(m), None, []);
    assert LabelWrites(alert.labels, []) == Some([]);
    if m.matches(alert.what) {
      assert [(alert.what, m)] + [] + [] == [(alert.what, m)];
      assert MatcherWrites(alert, rule) == Some([(alert.what, m)]);
      var c := Collapse([(alert.what, m)]);
      assert [(alert.what, m)][..0] == [];
      assert Collapse([]) == map[];
      assert c == Collapse([])[alert.what := m];
      assert c == map[alert.what := m];
      MatchCountFull(c);
    } else {
      assert MatcherWrites(alert, rule).Some?;
      assert MatcherWrites(alert, rule).value == [];
    }
  }

  /** Two writes to the same key leave only the second matcher in the map. */
  lemma EqualValuesCollapse(w: seq<(string, Matcher)>, k: string, m1: Matcher, m2: Matcher)
    ensures Collapse(w + [(k, m1), (k, m2)]) == Collapse(w)[k := m2]
  {
    var w1 := w + [(k, m1)];
    assert (w1 + [(k, m2)])[..|w1|] == w1;
    assert w1[..|w|] == w;
    assert w + [(k, m1), (k, m2)] == w1 + [(k, m2)];
  }

  /**
   * Two labels with the same value on the alert: the first label's matcher
   * is overwritten, so a rule matches even though that matcher rejects the
   * value.
   */
  lemma EqualValuesExample(yes: Matcher, no: Matcher)
    requires yes.matches("x") && !no.matches("x")
    ensures var alert := Alert("", "", "", "", "", 0, "", [], Some(map["a" := "x", "b" := "x"]), false);
      RuleMatches(alert, Rule([], None, None, [("a", no), ("b", yes)]))
  {
    var alert := Alert("", "", "", "", "", 0, "", [], Some(map["a" := "x", "b" := "x"]), false);
    var rule := Rule([], None, None, [("a", no), ("b", yes)]);
    var lw := LabelWrites(alert.labels, rule.labels);
    assert lw.Some? && lw.value == [("x", no), ("x", yes)];
    assert [] + [] + lw.value == lw.value;
    assert MatcherWrites(alert, rule) == Some([("x", no), ("x", yes)]);
    EqualValuesCollapse([], "x", no, yes);
    assert [] + [("x", no), ("x", yes)] == [("x", no), ("x", yes)];
    var m := Collapse([("x", no), ("x", yes)]);
    assert m == map["x" := yes];
    MatchCountFull(m);
  }

  /** `matchAlert`: the index of the first rule the alert matches, if any. */
  function MatchAlert(alert: Alert, rules: seq<Rule>): (r: Option<nat>)
    ensures r.Some? ==> r.value < |rules| && RuleMatches(alert, rules[r.value])
    ensures r.Some? ==> forall j :: 0 <= j < r.value ==> !RuleMatches(alert, rules[j])
    ensures r.None? <==> forall j :: 0 <= j < |rules| ==> !RuleMatches(alert, rules[j])
  {
    FirstWhere(rules, rule => RuleMatches(alert, rule), 0)
  }

  /** The first index at or after `from` whose element satisfies `p`, given that none before `from` does. */
  function FirstWhere<T>(xs: seq<T>, p: T -> bool, from: nat): (r: Option<nat>)
    requires from <= |xs|
    requires forall j :: 0 <= j < from ==> !p(xs[j])
    ensures r.Some? ==> from <= r.value < |xs| && p(xs[r.value])
    ensures r.Some? ==> forall j :: 0 <= j < r.value ==> !p(xs[j])
    ensures r.None? ==> forall j :: 0 <= j < |xs| ==> !p(xs[j])
    decreases |xs| - from
  {
    if from == |xs| then None
    else if p(xs[from]) then Some(from)
    else FirstWhere(xs, p, from + 1)
  }

  /** The rule `matchAlert` hands back: the matched one, or the zero rule. */
  function MatchedRule(alert: Alert, rules: seq<Rule>): (rule: Rule)
    ensures MatchAlert(alert, rules).None? ==> rule == EmptyRule()
    ensures MatchAlert(alert, rules).Some? ==> rule == rules[MatchAlert(alert, rules).value]
  {
    match MatchAlert(alert, rules)
    case None => EmptyRule()
    case Some(i) => rules[i]
  }

  /**
   * `allow`: the reason a dashboard blocks the alert, empty when it is
   * shown. An including dashboard shows exactly the matched alerts; an
   * excluding one blocks with the first matching rule's description. Any
   * other mode panics, modelled as `Err`.
   */
  function Allow(alert: Alert, dashboard: Dashboard): (r: Result<seq<byte>, string>)
    ensures r.Err? <==> dashboard.mode != Including && dashboard.mode != Excluding
    ensures dashboard.mode == Including ==>
      (r == Ok([]) <==> MatchAlert(alert, dashboard.filter).Some?)
    ensures dashboard.mode == Including && r.Ok? && r.value != [] ==> r.value == Utf8("Unmatched")
    ensures dashboard.mode == Excluding && MatchAlert(alert, dashboard.filter).None? ==> r == Ok([])
    ensures dashboard.mode == Excluding && MatchAlert(alert, dashboard.filter).Some? ==>
      r == Ok(dashboard.filter[MatchAlert(alert, dashboard.filter).value].description)
  {
    var matched := MatchAlert(alert, dashboard.filter);
    if dashboard.mode == Including then
      assert |Utf8("Unmatched")| >= 9;
      if matched.None? then Ok(Utf8("Unmatched")) else Ok([])
    else if dashboard.mode == Excluding then
      Ok(MatchedRule(alert, dashboard.filter).description)
    else
      Err("unknown mode: " + ModeName(dashboard.mode))
  }

  /** In an excluding dashboard, a matching rule with an empty description still lets the alert through. */
  lemma ExcludingEmptyDescriptionShows(alert: Alert, dashboard: Dashboard)
    requires dashboard.mode == Excluding
    requires MatchAlert(alert, dashboard.filter).Some?
    requires dashboard.filter[MatchAlert(alert, dashboard.filter).value].description == []
    ensures Allow(alert, dashboard) == Ok([])
  {
  }

  /** With no filter rules, an excluding dashboard shows everything and an including one blocks everything. */
  lemma EmptyFilter(alert: Alert, name: string, mode: DashboardMode)
    requires mode == Including || mode == Excluding
    ensures Allow(alert, Dashboard(name, mode, [])) ==
      if mode == Including then Ok(Utf8("Unmatched")) else Ok([])
  {
  }
}

=== FILE: nagiosapi.dfy ===
/**
 * The Nagios connector (nagios-api's `/state`): hosts and their services
 * arrive as strings. A host in a problem state gives one host alert and
 * its services are not looked at; otherwise each service in a problem
 * state gives an alert.
 *
 * Hosts and services come in Go maps; `order` and each host's `services`
 * list the entries in the order an iteration happens to visit them.
 */
module NagiosApi {
  import Decimal
  import GoTime
  import Connectors

  datatype Service = Service(
    currentState: string,
    pluginOutput: string,
    lastStateChange: string,
    acknowledged: string,
    notificationsEnabled: string)

  datatype Host = Host(
    notificationsEnabled: string,
    currentState: string,
    pluginOutput: string,
    lastStateChange: string,
    acknowledged: string,
    downtimeDepth: string,
    services: seq<(string, Service)>)

  /** A host is passed over when acknowledged, muted, or in a downtime whose depth parses as a positive 32-bit number. */
  predicate HostSkipped(h: Host) {
    || h.acknowledged == "1"
    || h.notificationsEnabled == "0"
    || (var d := Decimal.ParseInt(h.downtimeDepth, 32); d.err.None? && d.value > 0)
  }

  /** A service is passed over when OK, muted or acknowledged. */
  predicate ServiceSkipped(s: Service) {
    s.currentState == "0" || s.notificationsEnabled == "0" || s.acknowledged == "1"
  }

  /**
   * The state of an alert: `current_state` parsed as a 32-bit number. A
   * parse failure is only logged, leaving 0 (or the clamped bound).
   */
  function StateOf(currentState: string): (s: Connectors.State)
    ensures Decimal.ParseDecimal(currentState).Some? && -0x8000_0000 <= Decimal.ParseDecimal(currentState).value < 0x8000_0000 ==>
      s == Decimal.ParseDecimal(currentState).value
    ensures Decimal.ParseDecimal(currentState).None? ==> s == 0
  {
    assert Decimal.Pow2(31) == 0x8000_0000 by { Pow2Of31(); }
    Decimal.ParseInt(currentState, 32).value
  }

  lemma Pow2Of31()
    ensures Decimal.Pow2(31) == 0x8000_0000
  {
    assert Decimal.Pow2(10) == 1024;
    assert Decimal.Pow2(20) == 1024 * 1024;
    assert Decimal.Pow2(30) == 1024 * 1024 * 1024;
  }

  /** `time.Unix(secs, 0)` of the parsed `last_state_change`. */
  /** `time.Unix(stateChange, 0)`: the instant whose Unix time is the parsed `last_state_change`. */
  function StartOf(lastStateChange: string): (t: int)
    ensures GoTime.Unix(t) == Decimal.ParseInt(lastStateChange, 64).value
    ensures t % GoTime.Second == 0
  {
    (Decimal.ParseInt(lastStateChange, 64).value + GoTime.UnixToInternal) * GoTime.Second
  }

  function HostAlert(url: string, nagiosUrl: string, name: string, h: Host): (a: Connectors.Alert)
    ensures a.labels == map["Hostname" := name, "Source" := url]
    ensures a.state == StateOf(h.currentState) && a.description == "Host down" && a.details == h.pluginOutput
  {
    Connectors.Alert(map["Hostname" := name, "Source" := url], StartOf(h.lastStateChange), StateOf(h.currentState),
      "Host down", h.pluginOutput, [nagiosUrl + "/cgi-bin/extinfo.cgi?type=1&host=" + name], false)
  }

  function ServiceAlert(url: string, nagiosUrl: string, host: string, name: string, s: Service): (a: Connectors.Alert)
    ensures a.labels == map["Hostname" := host, "Source" := url]
    ensures a.state == StateOf(s.currentState) && a.description == name && a.details == s.pluginOutput
  {
    Connectors.Alert(map["Hostname" := host, "Source" := url], StartOf(s.lastStateChange), StateOf(s.currentState),
      name, s.pluginOutput, [nagiosUrl + "/cgi-bin/extinfo.cgi?type=2&host=" + host + "&service=" + name], false)
  }

  /** The service alerts of one host, in its iteration order. */
  function ServiceAlerts(url: string, nagiosUrl: string, host: string, services: seq<(string, Service)>): (r: seq<Connectors.Alert>)
    ensures forall a :: a in r <==> exists e :: e in services && !ServiceSkipped(e.1) && a == ServiceAlert(url, nagiosUrl, host, e.0, e.1)
  {
    if |services| == 0 then []
    else
      var rest := ServiceAlerts(url, nagiosUrl, host, services[1..]);
      assert forall e :: e in services <==> e == services[0] || e in services[1..];
      var (name, s) := services[0];
      if ServiceSkipped(s) then rest else [ServiceAlert(url, nagiosUrl, host, name, s)] + rest
  }

  /** The alerts of one host: none when skipped, the host alert when it is not up, else its services'. */
  function HostAlerts(url: string, nagiosUrl: string, name: string, h: Host): (r: seq<Connectors.Alert>)
    ensures HostSkipped(h) ==> r == []
    ensures !HostSkipped(h) && h.currentState != "0" ==> r == [HostAlert(url, nagiosUrl, name, h)]
    ensures !HostSkipped(h) && h.currentState == "0" ==> r == ServiceAlerts(url, nagiosUrl, name, h.services)
  {
    if HostSkipped(h) then []
    else if h.currentState != "0" then [HostAlert(url, nagiosUrl, name, h)]
    else ServiceAlerts(url, nagiosUrl, name, h.services)
  }

  /** `Collect` once `/state` is fetched: the hosts' alerts in iteration order. */
  function Collect(url: string, nagiosUrl: string, order: seq<(string, Host)>): (r: seq<Connectors.Alert>)
    ensures forall a :: a in r ==> exists e :: e in order && a in HostAlerts(url, nagiosUrl, e.0, e.1)
    ensures forall e :: e in order ==> forall a :: a in HostAlerts(url, nagiosUrl, e.0, e.1) ==> a in r
  {
    if |order| == 0 then []
    else HostAlerts(url, nagiosUrl, order[0].0, order[0].1) + Collect(url, nagiosUrl, order[1..])
  }

  /** A host that is down reports exactly itself, whatever its services say. */
  lemma DownHostHidesServices(url: string, nagiosUrl: string, name: string, h: Host)
    requires !HostSkipped(h) && h.currentState != "0"
    ensures forall a :: a in HostAlerts(url, nagiosUrl, name, h) ==> a.description == "Host down"
  {
  }

  /** On a host that is up, a service that is not skipped is reported, with its parsed state. */
  lemma ServiceReported(url: string, nagiosUrl: string, name: string, h: Host, sname: string, s: Service)
    requires !HostSkipped(h) && h.currentState == "0" && (sname, s) in h.services
    ensures !ServiceSkipped(s) ==> ServiceAlert(url, nagiosUrl, name, sname, s) in HostAlerts(url, nagiosUrl, name, h)
    ensures !ServiceSkipped(s) ==> ServiceAlert(url, nagiosUrl, name, sname, s).state == StateOf(s.currentState)
  {
  }

  /** A downtime depth that does not parse does not silence the host. */
  lemma UnparsableDowntimeIgnored(h: Host)
    requires h.acknowledged != "1" && h.notificationsEnabled != "0" && h.downtimeDepth == "x"
    ensures !HostSkipped(h)
  {
    assert Decimal.ParseDecimal("x").None?;
  }
}

=== FILE: patchman_cache.dfy ===
/**
 * The patchman connector's result cache. The first `get` tries the fetch
 * with a 5 ms budget and, when that runs out, hands the fetch to a
 * background job and answers with the empty value; later calls answer from
 * the cache and start a background refresh once the cached value is older
 * than the timeout. At most one background job runs at a time.
 *
 * A background job is modelled as two steps: `Begin` (the `TryLock`) and
 * `Finish` (the fetch returning). Instants are nanoseconds on the cache's
 * clock; Go's zero `time.Time` is `None`.
 */
module PatchmanCache {
  import opened Wrappers

  /** How the quick first fetch ended; a failed fetch still hands back whatever data it returned. */
  datatype Quick<T> = QuickDone(value: T) | QuickFailed(partial: T, err: string) | DeadlineExceeded

  datatype Cache<T> = Cache(data: T, t: Option<int>, lastErr: Option<string>, timeout: int, running: bool)

  /** `newCache`: the zero value, no timestamp, no error, no job. */
  function NewCache<T>(zero: T, timeout: int): (c: Cache<T>)
    ensures c.t.None? && c.lastErr.None? && !c.running && c.data == zero
  {
    Cache(zero, None, None, timeout, false)
  }

  /** What `get` answers, and whether it started a background job. */
  datatype Answer<T> = Answer(value: T, err: Option<string>, background: bool)

  /** The cached value is new enough: the clock is still before `t + timeout`. */
  predicate Fresh<T>(c: Cache<T>, now: int) {
    c.t.Some? && now < c.t.value + c.timeout
  }

  /** `get`; `quick` is how the 5 ms first fetch ends and is only looked at while there is no timestamp. */
  function Get<T>(c: Cache<T>, now: int, quick: Quick<T>): (a: Answer<T>)
    ensures c.t.Some? ==> a.value == c.data
    ensures a.background <==> (c.t.None? && quick.DeadlineExceeded?) || (c.t.Some? && !Fresh(c, now))
    ensures a.err.Some? <==> (c.t.None? && quick.QuickFailed?) || (Fresh(c, now) && c.lastErr.Some?)
    ensures Fresh(c, now) ==> a.err == c.lastErr
    ensures c.t.None? && quick.DeadlineExceeded? ==> a == Answer(c.data, None, true)
    ensures c.t.None? && quick.QuickDone? ==> a == Answer(quick.value, None, false)
    ensures c.t.None? && quick.QuickFailed? ==> a == Answer(quick.partial, Some(quick.err), false)
  {
    if c.t.None? then
      match quick
      case DeadlineExceeded => Answer(c.data, None, true)
      case QuickDone(v) => Answer(v, None, false)
      case QuickFailed(v, e) => Answer(v, Some(e), false)
    else if now < c.t.value + c.timeout then Answer(c.data, c.lastErr, false)
    else Answer(c.data, None, true)
  }

  /** A started job takes the lock unless another job holds it, in which case it gives up at once. */
  function Begin<T>(c: Cache<T>): (r: (Cache<T>, bool))
    ensures r.0 == c.(running := true)
    ensures r.1 <==> !c.running
  {
    (c.(running := true), !c.running)
  }

  /** A job whose fetch failed records the error and keeps value and timestamp. */
  function Finish<T>(c: Cache<T>, now: int, fetched: Result<T, string>): (r: Cache<T>)
    requires c.running
    ensures !r.running && r.timeout == c.timeout
    ensures fetched.Err? ==> r.data == c.data && r.t == c.t && r.lastErr == Some(fetched.error)
    ensures fetched.Ok? ==> r.data == fetched.value && r.t == Some(now) && r.lastErr == c.lastErr
  {
    match fetched
    case Err(e) => c.(lastErr := Some(e), running := false)
    case Ok(v) => c.(t := Some(now), data := v, running := false)
  }

  /** `Finish` as evidently intended: a successful fetch also clears the recorded error. */
  function FinishIntended<T>(c: Cache<T>, now: int, fetched: Result<T, string>): (r: Cache<T>)
    requires c.running
    ensures !r.running && r.timeout == c.timeout
    ensures fetched.Err? ==> r.data == c.data && r.t == c.t && r.lastErr == Some(fetched.error)
    ensures fetched.Ok? ==> r.data == fetched.value && r.t == Some(now) && r.lastErr.None?
  {
    match fetched
    case Err(e) => c.(lastErr := Some(e), running := false)
    case Ok(v) => c.(t := Some(now), data := v, running := false, lastErr := None)
  }

  /** Once a job holds the lock, a second one starting meanwhile does nothing. */
  lemma OneJobAtATime<T>(c: Cache<T>)
    ensures Begin(Begin(c).0).1 == false
    ensures Begin(Begin(c).0).0 == Begin(c).0
  {
  }

  /** A failed refresh never loses data: the old value keeps being served. */
  lemma FailedRefreshKeepsData<T>(c: Cache<T>, now: int, later: int, e: string)
    requires c.t.Some? && !c.running
    ensures var d := Finish(Begin(c).0, now, Err(e));
      Get(d, later, DeadlineExceeded).value == c.data && d.t == c.t
  {
  }

  /**
   * As written, a refresh that failed once leaves its error behind: after
   * a later successful refresh, answers within the timeout still carry it.
   */
  lemma StaleErrorAfterRecovery()
    ensures var c0 := Cache(1, Some(0), None, 10, false);
      var c1 := Finish(Begin(c0).0, 20, Err("timeout"));
      var c2 := Finish(Begin(c1).0, 30, Ok(2));
      Get(c2, 31, DeadlineExceeded) == Answer(2, Some("timeout"), false)
  {
  }

  /** With the intended `Finish`, a fresh answer after a successful refresh has no error. */
  lemma IntendedRecovers<T>(c: Cache<T>, now: int, later: int, v: T)
    requires c.running && now <= later < now + c.timeout
    ensures Get(FinishIntended(c, now, Ok(v)), later, DeadlineExceeded) == Answer(v, None, false)
  {
  }

  /**
   * The scenario of `TestCache` with a ten-minute timeout: the first call
   * answers the zero value and starts a job; once the job stored 1, a call a
   * minute in answers 1 from the cache; twenty minutes later a call starts
   * a refresh, and after it stored 2 the next call answers 2.
   */
  lemma CacheScenario(minute: int)
    requires minute > 0
    ensures var c0 := NewCache(0, 10 * minute);
      var a1 := Get(c0, 0, DeadlineExceeded);
      var c1 := Finish(Begin(c0).0, minute, Ok(1));
      var a2 := Get(c1, minute, DeadlineExceeded);
      var a3 := Get(c1, 21 * minute, DeadlineExceeded);
      var c2 := Finish(Begin(c1).0, 21 * minute, Ok(2));
      var a4 := Get(c2, 21 * minute, DeadlineExceeded);
      && a1 == Answer(0, None, true)
      && a2 == Answer(1, None, false)
      && a3 == Answer(1, None, true)
      && a4 == Answer(2, None, false)
  {
  }
}

=== FILE: propagation.dfy ===
/**
 * Trace-context propagation over AMQP headers: the header table seen as a
 * text-map carrier with dotted keys into nested tables, and the B3
 * single-header format `{TraceId}-{SpanId}-{SamplingState}` of the
 * openzipkin b3-propagation specification.
 *
 * A trace id is kept as its hexadecimal text; the OpenTelemetry parsers
 * accept exactly 32 (trace) or 16 (span) lower-case hex digits, not all
 * zero, which `IsTraceId` and `IsSpanId` state.
 */
module Propagation {
  import opened Wrappers
  import opened GoStrings
  import Decimal

  // ----- the header carrier -----

  datatype IntKind = Int | Int8 | Int16 | Int32 | Int64
  datatype UintKind = Uint | Uint8 | Uint16 | Uint32 | Uint64

  /**
   * A field-table value. Floating-point values carry the text
   * `strconv.FormatFloat(v, 'g', -1, 64)` would give, which is not modelled.
   */
  datatype Value =
    | Str(s: string)
    | Bool(b: bool)
    | Signed(ikind: IntKind, i: int)
    | Unsigned(ukind: UintKind, u: nat)
    | Float32(text32: string)
    | Float64(text: string)
    | Table(t: map<string, Value>)
    | Other

  type Carrier = map<string, Value>

  /**
   * The table a dotted key ends in, and its last segment: every segment but
   * the last descends into a nested table when there is one there, and is
   * skipped otherwise.
   */
  function Descend(tbl: Carrier, path: seq<string>): (r: (Carrier, string))
    requires |path| >= 1
    ensures r.1 == path[|path| - 1]
    decreases |path|
  {
    if |path| == 1 then (tbl, path[0])
    else if path[0] in tbl && tbl[path[0]].Table? then Descend(tbl[path[0]].t, path[1..])
    else Descend(tbl, path[1..])
  }

  /** How `Get` renders a value, as written: Go cases without a body render nothing. */
  function Render(v: Value): (s: string)
    ensures v.Str? ==> s == v.s
    ensures v.Bool? ==> s == (if v.b then "1" else "0")
    ensures v.Signed? ==> (s != "" <==> v.ikind == Int32)
    ensures v.Signed? && v.ikind == Int32 ==> s == Decimal.FormatInt(v.i)
    ensures v.Unsigned? ==> (s != "" <==> v.ukind == Uint32)
    ensures v.Unsigned? && v.ukind == Uint32 ==> s == Decimal.FormatNat(v.u)
    ensures v.Float64? ==> s == v.text
    ensures v.Float32? || v.Table? || v.Other? ==> s == ""
  {
    match v
    case Str(s) => s
    case Bool(b) => if b then "1" else "0"
    case Signed(k, i) => if k == Int32 then Decimal.FormatInt(i) else ""
    case Unsigned(k, u) => if k == Uint32 then Decimal.FormatNat(u) else ""
    case Float32(_) => ""
    case Float64(text) => text
    case Table(_) => ""
    case Other => ""
  }

  /** How `Get` evidently means to render a value: every integer width and both float widths. */
  function RenderIntended(v: Value): (s: string)
    ensures v.Signed? ==> s == Decimal.FormatInt(v.i)
    ensures v.Unsigned? ==> s == Decimal.FormatNat(v.u)
    ensures v.Float32? ==> s == v.text32
    ensures !(v.Signed? || v.Unsigned? || v.Float32?) ==> s == Render(v)
  {
    match v
    case Signed(_, i) => Decimal.FormatInt(i)
    case Unsigned(_, u) => Decimal.FormatNat(u)
    case Float32(text) => text
    case _ => Render(v)
  }

  /**
   * `Get` as written: text comes only from a string, a boolean, a float64,
   * an int32 or a uint32 found where the key leads, and wherever it is not
   * empty it is the text the intended reading gives.
   */
  function Get(hc: Carrier, key: string): (r: string)
    ensures var d := Descend(hc, Split(key, '.'));
      r != "" ==> d.1 in d.0 && (Listed(d.0[d.1]) || (d.0[d.1].Signed? && d.0[d.1].ikind == Int32) || (d.0[d.1].Unsigned? && d.0[d.1].ukind == Uint32))
    ensures r == "" || r == GetIntended(hc, key)
  {
    var d := Descend(hc, Split(key, '.'));
    if d.1 in d.0 then Render(d.0[d.1]) else ""
  }

  /** `Get` with every numeric value formatted: an integer found reads back as its value. */
  function GetIntended(hc: Carrier, key: string): (r: string)
    ensures var d := Descend(hc, Split(key, '.'));
      d.1 in d.0 && d.0[d.1].Signed? ==> Decimal.ParseDecimal(r) == Some(d.0[d.1].i)
    ensures var d := Descend(hc, Split(key, '.'));
      d.1 in d.0 && d.0[d.1].Unsigned? ==> Decimal.ParseDecimal(r) == Some(d.0[d.1].u as int)
  {
    var d := Descend(hc, Split(key, '.'));
    if d.1 in d.0 then
      var v := d.0[d.1];
      if v.Signed? then Decimal.ParseFormat(v.i); RenderIntended(v)
      else if v.Unsigned? then Decimal.ParseFormatNat(v.u); RenderIntended(v)
      else RenderIntended(v)
    else ""
  }

  /** Writing along a path: the same descent as `Descend`, then the last segment is set. */
  function SetPath(tbl: Carrier, path: seq<string>, value: string): (r: Carrier)
    requires |path| >= 1
    ensures tbl.Keys <= r.Keys <= tbl.Keys + {path[|path| - 1]}
    ensures |path| == 1 ==> r == tbl[path[0] := Str(value)]
    ensures forall k :: k in tbl && k !in path ==> r[k] == tbl[k]
    ensures forall k :: k in r && r[k].Table? ==> k in tbl && tbl[k].Table?
    decreases |path|
  {
    if |path| == 1 then tbl[path[0] := Str(value)]
    else if path[0] in tbl && tbl[path[0]].Table? then
      tbl[path[0] := Table(SetPath(tbl[path[0]].t, path[1..], value))]
    else SetPath(tbl, path[1..], value)
  }

  /**
   * `Set`: the value lands under the last segment of the key, in the table
   * the key descends to; no top-level entry off the key's path changes, and
   * no table is created.
   */
  function Set(hc: Carrier, key: string, value: string): (r: Carrier)
    ensures hc.Keys <= r.Keys <= hc.Keys + {Split(key, '.')[|Split(key, '.')| - 1]}
    ensures forall k :: k in hc && k !in Split(key, '.') ==> r[k] == hc[k]
    ensures forall k :: k in r && r[k].Table? ==> k in hc && hc[k].Table?
  {
    SetPath(hc, Split(key, '.'), value)
  }

  lemma {:induction false} DescendSetPath(tbl: Carrier, path: seq<string>, value: string)
    requires |path| >= 1
    ensures var d := Descend(SetPath(tbl, path, value), path);
      d.1 in d.0 && d.0[d.1] == Str(value)
    decreases |path|
  {
    if |path| > 1 {
      DescendSetPath(if path[0] in tbl && tbl[path[0]].Table? then tbl[path[0]].t else tbl, path[1..], value);
    }
  }

  /** Whatever the carrier holds, reading a key just written gives the written string back. */
  lemma GetSet(hc: Carrier, key: string, value: string)
    ensures Get(Set(hc, key, value), key) == value
    ensures GetIntended(Set(hc, key, value), key) == value
  {
    DescendSetPath(hc, Split(key, '.'), value);
  }

  /** Whether `Keys` lists a value itself, as written: strings, booleans and 64-bit floats only. */
  predicate Listed(v: Value) {
    v.Str? || v.Bool? || v.Float64?
  }

  /** Whether `Keys` evidently means to list a value: every scalar the carrier can render. */
  predicate ListedIntended(v: Value) {
    v.Str? || v.Bool? || v.Signed? || v.Unsigned? || v.Float32? || v.Float64?
  }

  /** `Keys` as a set, for a table value: nested tables contribute `k.k2` for each of their keys. */
  function KeySet(v: Value, listed: Value -> bool): (r: set<string>)
    requires v.Table?
  {
    (set k | k in v.t && listed(v.t[k]))
      + (set k, k2 | k in v.t && v.t[k].Table? && k2 in KeySet(v.t[k], listed) :: k + "." + k2)
  }

  /**
   * `Keys` as written: a dot-free key is listed exactly when it is a
   * top-level entry holding a string, a boolean or a float64.
   */
  function Keys(hc: Carrier): (r: set<string>)
    ensures forall k :: '.' !in k ==> (k in r <==> k in hc && Listed(hc[k]))
  {
    KeySet(Table(hc), Listed)
  }

  /** `Keys` as evidently intended: every key the written one lists, and every scalar besides. */
  function KeysIntended(hc: Carrier): (r: set<string>)
    ensures Keys(hc) <= r
    ensures forall k :: k in hc && ListedIntended(hc[k]) ==> k in r
  {
    KeySetListed(Table(hc));
    KeySet(Table(hc), ListedIntended)
  }

  /** Whatever the written listing takes, the intended one takes too, at every depth. */
  lemma KeySetListed(v: Value)
    requires v.Table?
    ensures KeySet(v, Listed) <= KeySet(v, ListedIntended)
  {
    forall k, k2 | k in v.t && v.t[k].Table? && k2 in KeySet(v.t[k], Listed)
      ensures k + "." + k2 in KeySet(v, ListedIntended)
    {
      KeySetListed(v.t[k]);
    }
  }

  lemma SplitSingle(k: string)
    requires '.' !in k
    ensures Split(k, '.') == [k]
  {
  }

  lemma SplitPair(a: string, b: string)
    requires '.' !in a && '.' !in b
    ensures Split(a + "." + b, '.') == [a, b]
  {
    SplitJoin([a, b], '.');
    assert Join([a, b], ".") == a + "." + b by {
      assert Join([b], ".") == b;
    }
  }

  /** A dot-free top-level key is listed by `Keys` exactly when `Get` renders its value as written. */
  lemma TopLevelKeys(hc: Carrier, k: string)
    requires '.' !in k && k in hc
    ensures Get(hc, k) == Render(hc[k])
    ensures k in Keys(hc) <==> Listed(hc[k])
  {
    SplitSingle(k);
  }

  /** A key one table down, with dot-free segments, is read from and listed under `a.b`. */
  lemma NestedKeys(hc: Carrier, a: string, b: string)
    requires '.' !in a && '.' !in b
    requires a in hc && hc[a].Table? && b in hc[a].t
    ensures Get(hc, a + "." + b) == Render(hc[a].t[b])
    ensures Listed(hc[a].t[b]) ==> a + "." + b in Keys(hc)
  {
    SplitPair(a, b);
    assert Descend(hc, [a, b]) == Descend(hc[a].t, [b]);
    if Listed(hc[a].t[b]) {
      assert b in KeySet(hc[a], Listed);
    }
  }

  /** A 64-bit integer header reads as the empty string and is not listed, where every other integer-valued carrier would render it. */
  lemma IntegerHeaderLost()
    ensures Get(map["n" := Signed(Int64, 5)], "n") == ""
    ensures "n" !in Keys(map["n" := Signed(Int64, 5)])
    ensures GetIntended(map["n" := Signed(Int64, 5)], "n") == "5"
    ensures "n" in KeysIntended(map["n" := Signed(Int64, 5)])
  {
    SplitSingle("n");
    var v := Table(map["n" := Signed(Int64, 5)]);
    assert KeySet(v, Listed) == {} by {
      assert (set k | k in v.t && Listed(v.t[k])) == {};
    }
    assert "n" in (set k | k in v.t && ListedIntended(v.t[k]));
  }

  const ExampleCarrier: Carrier := map["a" := Table(map[]), "d" := Str("foo")]
  const ExampleAfter: Carrier := map["a" := Table(map["b" := Str("c")]), "d" := Str("foo")]

  /** Setting `a.b` where table `a` exists writes into `a` and leaves `d` alone. */
  lemma ExampleSet()
    ensures Set(ExampleCarrier, "a.b", "c") == ExampleAfter
  {
    SplitPair("a", "b");
    assert "a" + "." + "b" == "a.b";
    SetPathIntoTable(ExampleCarrier, "a", "b", "c");
    assert ExampleCarrier["a" := Table(map["b" := Str("c")])] == ExampleAfter;
  }

  /** A two-segment path whose head names a table writes into that table. */
  lemma SetPathIntoTable(tbl: Carrier, a: string, b: string, value: string)
    requires a in tbl && tbl[a].Table?
    ensures SetPath(tbl, [a, b], value) == tbl[a := Table(tbl[a].t[b := Str(value)])]
  {
    assert [a, b][1..] == [b];
  }

  /** The written table lists `a.b` and `d`. */
  lemma ExampleKeys()
    ensures Keys(ExampleAfter) == {"a.b", "d"}
  {
    var inner := Table(map["b" := Str("c")]);
    assert KeySet(inner, Listed) == {"b"} by {
      assert inner.t.Keys == {"b"} && inner.t["b"] == Str("c");
      assert (set k | k in inner.t && Listed(inner.t[k])) == {"b"};
    }
    var top := Table(ExampleAfter);
    assert (set k | k in top.t && Listed(top.t[k])) == {"d"};
    assert (set k, k2 | k in top.t && top.t[k].Table? && k2 in KeySet(top.t[k], Listed) :: k + "." + k2) == {"a.b"} by {
      assert "a" + "." + "b" == "a.b";
    }
  }

  /** Setting `a.b` where table `a` exists writes into `a`, reads back and lists `a.b` next to `d`. */
  lemma CarrierExample()
    ensures var y := Set(ExampleCarrier, "a.b", "c");
      Get(y, "a.b") == "c" && y["a"] == Table(map["b" := Str("c")]) && y["d"] == Str("foo") &&
      Keys(y) == {"a.b", "d"}
  {
    ExampleSet();
    ExampleKeys();
    GetSet(ExampleCarrier, "a.b", "c");
  }

  // ----- trace ids -----

  predicate IsLowerHex(s: string) {
    forall i :: 0 <= i < |s| ==> ('0' <= s[i] <= '9' || 'a' <= s[i] <= 'f')
  }

  predicate NotAllZero(s: string) {
    exists i :: 0 <= i < |s| && s[i] != '0'
  }

  predicate IsTraceId(s: string) {
    |s| == 32 && IsLowerHex(s) && NotAllZero(s)
  }

  predicate IsSpanId(s: string) {
    |s| == 16 && IsLowerHex(s) && NotAllZero(s)
  }

  /** `fixB3TID`: a 64-bit trace id is widened to 128 bits by 16 leading zeros. */
  function FixB3Tid(id: string): (r: string)
    ensures |id| == 16 ==> |r| == 32 && r[..16] == Repeat("0", 16) && r[16..] == id
    ensures |id| != 16 ==> r == id
    ensures HasSuffix(r, id)
  {
    if |id| == 16 then Repeat("0", 16) + id else id
  }

  /** Widening twice is widening once. */
  lemma FixB3TidIdempotent(id: string)
    ensures FixB3Tid(FixB3Tid(id)) == FixB3Tid(id)
  {
  }

  /** A valid 64-bit trace id widens to a valid 128-bit one. */
  lemma FixB3TidValid(id: string)
    requires |id| == 16 && IsLowerHex(id) && NotAllZero(id)
    ensures IsTraceId(FixB3Tid(id))
  {
    var r := FixB3Tid(id);
    var i :| 0 <= i < |id| && id[i] != '0';
    assert r[16 + i] == id[i];
    assert forall j :: 0 <= j < 16 ==> r[j] == '0' by {
      assert forall n: nat :: forall j :: 0 <= j < n ==> Repeat("0", n)[j] == '0' by {
        forall n: nat ensures forall j :: 0 <= j < n ==> Repeat("0", n)[j] == '0' {
          RepeatZeros(n);
        }
      }
    }
  }

  lemma {:induction false} RepeatZeros(n: nat)
    ensures forall j :: 0 <= j < n ==> Repeat("0", n)[j] == '0'
  {
    if n > 0 {
      RepeatZeros(n - 1);
      assert Repeat("0", n) == "0" + Repeat("0", n - 1);
    }
  }

  // ----- the B3 single header -----

  /** A span context: ids as hex text, the trace flags byte, and whether it came from a remote parent. */
  datatype SpanContext = SpanContext(traceId: string, spanId: string, flags: nat, remote: bool)

  predicate Valid(sc: SpanContext) {
    IsTraceId(sc.traceId) && IsSpanId(sc.spanId)
  }

  /** The zero span context, which is never valid. */
  const EmptyContext := SpanContext("", "", 0, false)

  /** The sampling flags of a third chunk: one decimal digit, anything else leaves them clear. */
  function ParseFlags(chunks: seq<string>): (f: nat)
    ensures f <= 9
    ensures |chunks| > 0 && |chunks[0]| == 1 && Decimal.IsDigit(chunks[0][0]) ==> f == Decimal.DigitValue(chunks[0][0])
    ensures !(|chunks| > 0 && |chunks[0]| == 1 && Decimal.IsDigit(chunks[0][0])) ==> f == 0
  {
    if |chunks| > 0 && |chunks[0]| == 1 && Decimal.IsDigit(chunks[0][0]) then Decimal.DigitValue(chunks[0][0]) else 0
  }

  /** `extractB3`: `EmptyContext` when there are fewer than two chunks or an id does not parse. */
  function ExtractB3(line: string): (sc: SpanContext)
    ensures |Split(line, '-')| < 2 ==> sc == EmptyContext
    ensures Valid(sc) <==> |Split(line, '-')| >= 2 && IsTraceId(FixB3Tid(Split(line, '-')[0])) && IsSpanId(Split(line, '-')[1])
    ensures Valid(sc) ==> sc.traceId == FixB3Tid(Split(line, '-')[0]) && sc.spanId == Split(line, '-')[1]
    ensures Valid(sc) ==> sc.flags == ParseFlags(Split(line, '-')[2..])
    ensures !Valid(sc) ==> sc == EmptyContext
  {
    var chunks := Split(line, '-');
    if |chunks| < 2 then EmptyContext
    else
      var tid := FixB3Tid(chunks[0]);
      if !IsTraceId(tid) || !IsSpanId(chunks[1]) then EmptyContext
      else SpanContext(tid, chunks[1], ParseFlags(chunks[2..]), false)
  }

  /** `Extract`: the remote span context of the `b3` header, or the context's own one when that is not valid. */
  function Extract(current: Option<SpanContext>, hc: Carrier): (r: Option<SpanContext>)
    ensures !Valid(ExtractB3(Get(hc, "b3"))) ==> r == current
    ensures Valid(ExtractB3(Get(hc, "b3"))) ==> r == Some(ExtractB3(Get(hc, "b3")).(remote := true))
  {
    var sc := ExtractB3(Get(hc, "b3"));
    if !Valid(sc) then current else Some(sc.(remote := true))
  }

  /** `TraceFlags.String()`: the flags byte as two hex digits. */
  function HexByte(b: nat): (s: string)
    requires b < 256
    ensures |s| == 2
  {
    var digits := "0123456789abcdef";
    [digits[b / 16], digits[b % 16]]
  }

  /** The `b3` header value `Inject` writes as written: the sampled bit as two hex digits. */
  function InjectAsWritten(sc: SpanContext): (h: Option<string>)
    ensures h.Some? <==> Valid(sc)
    ensures h.Some? ==> h.value == sc.traceId + "-" + sc.spanId + "-" + (if sc.flags % 2 == 1 then "01" else "00")
  {
    if !Valid(sc) then None
    else Some(sc.traceId + "-" + sc.spanId + "-" + HexByte(sc.flags % 2))
  }

  /** The `b3` header value as the B3 single-header format has it: the sampling state as one digit. */
  function Inject(sc: SpanContext): (h: Option<string>)
    ensures h.Some? <==> Valid(sc)
    ensures h.Some? ==> h.value == sc.traceId + "-" + sc.spanId + "-" + (if sc.flags % 2 == 1 then "1" else "0")
  {
    if !Valid(sc) then None
    else Some(sc.traceId + "-" + sc.spanId + "-" + (if sc.flags % 2 == 1 then "1" else "0"))
  }

  lemma HexFree(s: string)
    requires IsLowerHex(s)
    ensures '-' !in s
  {
    assert forall i :: 0 <= i < |s| ==> s[i] != '-';
  }

  lemma SplitTriple(a: string, b: string, c: string)
    requires '-' !in a && '-' !in b && '-' !in c
    ensures Split(a + "-" + b + "-" + c, '-') == [a, b, c]
  {
    SplitJoin([a, b, c], '-');
    assert Join([a, b, c], "-") == a + "-" + b + "-" + c by {
      assert Join([c], "-") == c;
      assert Join([b, c], "-") == b + "-" + c;
      assert [a, b, c][1..] == [b, c];
    }
  }

  /**
   * A sampled context injected as written comes back unsampled: the third
   * chunk has two characters, so its flags are never read.
   */
  lemma SampledBitLost(sc: SpanContext)
    requires Valid(sc) && sc.flags % 2 == 1
    ensures ExtractB3(InjectAsWritten(sc).value).flags == 0
    ensures Valid(ExtractB3(InjectAsWritten(sc).value))
  {
    HexFree(sc.traceId);
    HexFree(sc.spanId);
    SplitTriple(sc.traceId, sc.spanId, "01");
  }

  /** With a one-digit sampling state, extraction gives back the injected context with its sampled bit. */
  lemma InjectExtract(sc: SpanContext)
    requires Valid(sc)
    ensures ExtractB3(Inject(sc).value) == SpanContext(sc.traceId, sc.spanId, sc.flags % 2, false)
  {
    HexFree(sc.traceId);
    HexFree(sc.spanId);
    var f := if sc.flags % 2 == 1 then "1" else "0";
    SplitTriple(sc.traceId, sc.spanId, f);
    var chunks := Split(Inject(sc).value, '-');
    assert chunks == [sc.traceId, sc.spanId, f];
    assert FixB3Tid(chunks[0]) == sc.traceId;
    assert chunks[2..] == [f];
    assert ParseFlags([f]) == sc.flags % 2 by {
      assert |f| == 1 && Decimal.IsDigit(f[0]);
    }
  }

  /** Extraction through the carrier: a header set with `Set` is the one `Extract` reads. */
  lemma CarrierRoundTrip(hc: Carrier, sc: SpanContext, current: Option<SpanContext>)
    requires Valid(sc)
    ensures Extract(current, Set(hc, "b3", Inject(sc).value)) ==
      Some(SpanContext(sc.traceId, sc.spanId, sc.flags % 2, true))
  {
    GetSet(hc, "b3", Inject(sc).value);
    InjectExtract(sc);
  }
}

=== FILE: redmine.dfy ===
/**
 * The Redmine silencer: a silence is a label set tied to a Redmine issue
 * id. An alert is silenced while some silence's labels all occur in the
 * alert's labels and the issue behind it is still open. Which issues are
 * open is learnt on `Refresh`, which rebuilds a cache of silences; the
 * lookup only consults that cache.
 *
 * Go map iteration visits keys in an unspecified order; `order` parameters
 * list the keys in the order one iteration happens to visit them.
 */
module Redmine {
  import opened Wrappers
  import Decimal

  type Labels = map<string, string>

  /** `connectors.Silence`. */
  datatype Silence = Silence(externalId: string, url: string, silenced: bool, labels: Labels)

  /** The zero `Silence` the lookup answers when nothing matches. */
  const NoSilence := Silence("", "", false, map[])

  /** The two fields of a Redmine issue the silencer reads; an open issue has no `closed_on`. */
  datatype Issue = Issue(id: int, closedOn: string)

  /** The zero `issue`. */
  const NoIssue := Issue(0, "")

  /** The silencer's state: the configured silences and the cache the last refresh built. */
  datatype Silencer = Silencer(base: string, silences: map<string, Labels>, cache: map<string, Silence>)

  /** The empty silencer `NewSilencer` builds when no state file is configured. */
  function NewSilencer(base: string): (s: Silencer)
    ensures s.base == base
    ensures forall order, labels :: Silenced(s, order, labels) == NoSilence
  {
    Silencer(base, map[], map[])
  }

  /** Every label of `l` occurs in `labels` with the same value. */
  predicate Covers(l: Labels, labels: Labels) {
    forall k :: k in l ==> k in labels && labels[k] == l[k]
  }

  /** The keys of `labels` that `l` has with the same value; the lookup's `found` counts them. */
  function Agreeing(l: Labels, labels: Labels): set<string> {
    set k | k in labels && k in l && l[k] == labels[k]
  }

  /** A proper subset is smaller. */
  lemma ProperSubsetSmaller(a: set<string>, b: set<string>)
    requires a <= b && a != b
    ensures |a| < |b|
  {
    var x :| x in b && x !in a;
    SubsetNoLarger(a, b - {x});
  }

  lemma {:induction false} SubsetNoLarger(a: set<string>, b: set<string>)
    requires a <= b
    ensures |a| <= |b|
    decreases |b|
  {
    if b != {} {
      var y :| y in b;
      SubsetNoLarger(a - {y}, b - {y});
    }
  }

  /** `found >= len(l)` holds exactly when `l` covers the alert's labels. */
  lemma FoundReachesSize(l: Labels, labels: Labels)
    ensures |Agreeing(l, labels)| >= |l| <==> Covers(l, labels)
  {
    var s := Agreeing(l, labels);
    assert s <= l.Keys;
    if Covers(l, labels) {
      assert l.Keys <= s;
      assert s == l.Keys;
    } else {
      ProperSubsetSmaller(s, l.Keys);
    }
  }

  /** The silence `id` applies to `labels` and the last refresh found its issue. */
  predicate Matching(s: Silencer, labels: Labels, id: string) {
    id in s.silences && Covers(s.silences[id], labels) && id in s.cache
  }

  /** `Silenced`: the cached silence of the first matching id in iteration order, else the zero silence. */
  function Silenced(s: Silencer, order: seq<string>, labels: Labels): (r: Silence)
    ensures (forall i :: 0 <= i < |order| ==> !Matching(s, labels, order[i])) ==> r == NoSilence
    ensures (exists i :: 0 <= i < |order| && Matching(s, labels, order[i])) ==>
      exists i :: 0 <= i < |order| && Matching(s, labels, order[i]) && r == s.cache[order[i]]
        && forall j :: 0 <= j < i ==> !Matching(s, labels, order[j])
  {
    if |order| == 0 then NoSilence
    else
      var id := order[0];
      if id in s.silences && |Agreeing(s.silences[id], labels)| >= |s.silences[id]| && id in s.cache then
        FoundReachesSize(s.silences[id], labels);
        s.cache[id]
      else
        FoundReachesSize(if id in s.silences then s.silences[id] else map[], labels);
        var r := Silenced(s, order[1..], labels);
        assert forall i :: 1 <= i < |order| ==> order[i] == order[1..][i - 1];
        if exists i :: 0 <= i < |order| && Matching(s, labels, order[i]) then
          var i :| 1 <= i < |order| && Matching(s, labels, order[i]) && r == s.cache[order[i]]
            && forall j :: 1 <= j < i ==> !Matching(s, labels, order[j]);
          r
        else r
  }

  /** An iteration order of the configured silences: every id once. */
  predicate Lists(order: seq<string>, keys: set<string>) {
    (forall i, j :: 0 <= i < j < |order| ==> order[i] != order[j]) && (forall i :: 0 <= i < |order| ==> order[i] in keys)
      && forall k :: k in keys ==> k in order
  }

  /** When the matching silences agree, the answer does not depend on the iteration order. */
  lemma SilencedOrderIndependent(s: Silencer, o1: seq<string>, o2: seq<string>, labels: Labels)
    requires Lists(o1, s.silences.Keys) && Lists(o2, s.silences.Keys)
    requires forall a, b :: Matching(s, labels, a) && Matching(s, labels, b) ==> s.cache[a] == s.cache[b]
    ensures Silenced(s, o1, labels) == Silenced(s, o2, labels)
  {
    var m1 := exists i :: 0 <= i < |o1| && Matching(s, labels, o1[i]);
    var m2 := exists i :: 0 <= i < |o2| && Matching(s, labels, o2[i]);
    SameMatches(s, o1, o2, labels);
    SameMatches(s, o2, o1, labels);
    assert m1 == m2;
  }

  lemma SameMatches(s: Silencer, o1: seq<string>, o2: seq<string>, labels: Labels)
    requires Lists(o1, s.silences.Keys) && Lists(o2, s.silences.Keys)
    ensures (exists i :: 0 <= i < |o1| && Matching(s, labels, o1[i])) ==> exists i :: 0 <= i < |o2| && Matching(s, labels, o2[i])
  {
    if exists i :: 0 <= i < |o1| && Matching(s, labels, o1[i]) {
      var i :| 0 <= i < |o1| && Matching(s, labels, o1[i]);
      assert o1[i] in o2;
      var j :| 0 <= j < |o2| && o2[j] == o1[i];
    }
  }

  /** A silence without labels covers every alert; one with labels needs all of them. */
  lemma BroaderSilencesMatch(labels: Labels, extra: string, v: string)
    requires extra !in labels
    ensures Covers(map[], labels)
    ensures Covers(labels, labels[extra := v])
    ensures labels != map[] ==> !Covers(labels, map[])
  {
    if labels != map[] {
      var k :| k in labels;
    }
  }

  /** `SetSilence`: the id now carries `labels`; other silences and the cache are as they were. */
  function SetSilence(s: Silencer, id: string, labels: Labels): (r: Silencer)
    ensures r.silences.Keys == s.silences.Keys + {id} && r.silences[id] == labels
    ensures forall k :: k in s.silences && k != id ==> r.silences[k] == s.silences[k]
    ensures r.cache == s.cache && r.base == s.base
  {
    s.(silences := s.silences[id := labels])
  }

  /** `DeleteSilence`: the id is gone; other silences and the cache are as they were. */
  function DeleteSilence(s: Silencer, id: string): (r: Silencer)
    ensures r.silences.Keys == s.silences.Keys - {id}
    ensures forall k :: k in r.silences ==> r.silences[k] == s.silences[k]
    ensures r.cache == s.cache && r.base == s.base
  {
    s.(silences := s.silences - {id})
  }

  /** Deleting what was just set restores the silences, whatever was there before. */
  lemma DeleteUndoesSet(s: Silencer, id: string, labels: Labels)
    ensures DeleteSilence(SetSilence(s, id, labels), id).silences == s.silences - {id}
    ensures id !in s.silences ==> DeleteSilence(SetSilence(s, id, labels), id) == s
  {
    var r := DeleteSilence(SetSilence(s, id, labels), id);
    assert r.silences.Keys == (s.silences - {id}).Keys;
    if id !in s.silences {
      assert s.silences - {id} == s.silences;
    }
  }

  /** The issue's number prints as `id`: the loop's `strconv.Itoa(i.Id) == id`. */
  predicate Carries(x: Issue, id: string) {
    Decimal.FormatInt(x.id) == id
  }

  /**
   * The position of the last issue carrying `id`, or -1: the loop over the
   * issues overwrites its pick on every match, so the last match wins.
   */
  function LastIndex(issues: seq<Issue>, id: string): (k: int)
    ensures -1 <= k < |issues|
    ensures k >= 0 ==> Carries(issues[k], id)
    ensures forall j :: k < j < |issues| ==> !Carries(issues[j], id)
  {
    LastWhere(issues, x => Carries(x, id))
  }

  /** The last position whose element satisfies `p`, or -1 when none does. */
  function LastWhere<T>(xs: seq<T>, p: T -> bool): (k: int)
    ensures -1 <= k < |xs|
    ensures k >= 0 ==> p(xs[k])
    ensures forall j :: k < j < |xs| ==> !p(xs[j])
  {
    if |xs| == 0 then -1
    else if p(xs[|xs| - 1]) then |xs| - 1
    else
      var k := LastWhere(xs[..|xs| - 1], p);
      assert forall j :: k < j < |xs| - 1 ==> xs[j] == xs[..|xs| - 1][j];
      k
  }

  /** The issue the loop keeps, the zero issue when none carries `id`. */
  function LastWithId(issues: seq<Issue>, id: string): (r: Issue)
    ensures r == NoIssue || (r in issues && Carries(r, id))
    ensures (forall j :: 0 <= j < |issues| ==> !Carries(issues[j], id)) ==> r == NoIssue
  {
    var k := LastIndex(issues, id);
    if k < 0 then NoIssue else issues[k]
  }

  /**
   * `getSilence`: the silence for `id` as the issue list shows it. The id
   * must be a decimal number and name an issue; the silence is active
   * while that issue is open.
   */
  function GetSilence(base: string, silences: map<string, Labels>, id: string, issues: seq<Issue>): (r: Result<Silence, string>)
    ensures r.Ok? ==> r.value.externalId == id && r.value.labels == (if id in silences then silences[id] else map[])
    ensures r.Ok? ==> r.value.url == base + "/issues/" + id
    ensures r.Ok? <==> Decimal.Atoi(id).err.None? && LastWithId(issues, id).id != 0
    ensures r.Ok? ==> (r.value.silenced <==> LastWithId(issues, id).closedOn == "")
  {
    var silence := Silence(id, "", false, if id in silences then silences[id] else map[]);
    var p := Decimal.Atoi(id);
    if p.err.Some? then Err("strconv.Atoi: parsing \"" + id + "\"")
    else
      var issue := LastWithId(issues, id);
      if issue.id == 0 then Err("issue not found")
      else
        IdReadsBack(id, issue.id);
        Ok(silence.(url := base + "/issues/" + Decimal.FormatInt(p.value), silenced := issue.closedOn == ""))
  }

  /** An id that is the printed form of an issue number reads back as that number and prints as itself. */
  lemma IdReadsBack(id: string, n: int)
    requires Decimal.FormatInt(n) == id && Decimal.Atoi(id).err.None?
    ensures Decimal.Atoi(id).value == n && Decimal.FormatInt(Decimal.Atoi(id).value) == id
  {
    Decimal.ParseFormat(n);
  }

  /**
   * `Refresh` given the answer to the issue query: on an error the cache is
   * kept and the error returned; otherwise the cache holds exactly the
   * silences whose issue could be found.
   */
  function Refresh(s: Silencer, fetched: Result<seq<Issue>, string>): (r: (Silencer, Option<string>))
    ensures fetched.Err? ==> r == (s, Some(fetched.error))
    ensures fetched.Ok? ==> r.1.None? && r.0.silences == s.silences && r.0.base == s.base
    ensures fetched.Ok? ==> forall id :: id in r.0.cache <==> id in s.silences && GetSilence(s.base, s.silences, id, fetched.value).Ok?
    ensures fetched.Ok? ==> forall id :: id in r.0.cache ==> r.0.cache[id] == GetSilence(s.base, s.silences, id, fetched.value).value
  {
    match fetched
    case Err(e) => (s, Some(e))
    case Ok(issues) =>
      var cache := map id | id in s.silences && GetSilence(s.base, s.silences, id, issues).Ok? :: GetSilence(s.base, s.silences, id, issues).value;
      (s.(cache := cache), None)
  }

  /** A covering silence whose issue the refresh found open. */
  predicate OpenCovering(s: Silencer, issues: seq<Issue>, labels: Labels, id: string) {
    id in s.silences && Covers(s.silences[id], labels) && GetSilence(s.base, s.silences, id, issues).Ok?
      && GetSilence(s.base, s.silences, id, issues).value.silenced
  }

  /**
   * After a refresh an alert is silenced only by a covering silence whose
   * issue is open; and when every covering silence the refresh could
   * resolve is open and there is one, the alert is silenced.
   */
  lemma RefreshedLookup(s: Silencer, issues: seq<Issue>, order: seq<string>, labels: Labels)
    requires Lists(order, s.silences.Keys)
    ensures Silenced(Refresh(s, Ok(issues)).0, order, labels).silenced ==> exists id :: OpenCovering(s, issues, labels, id)
    ensures (exists id :: OpenCovering(s, issues, labels, id))
      && (forall id :: id in s.silences && Covers(s.silences[id], labels) && GetSilence(s.base, s.silences, id, issues).Ok? ==>
          OpenCovering(s, issues, labels, id))
      ==> Silenced(Refresh(s, Ok(issues)).0, order, labels).silenced
  {
    var t := Refresh(s, Ok(issues)).0;
    var r := Silenced(t, order, labels);
    if exists id :: OpenCovering(s, issues, labels, id) {
      var id :| OpenCovering(s, issues, labels, id);
      assert id in order;
      var j :| 0 <= j < |order| && order[j] == id;
      assert Matching(t, labels, order[j]);
    }
    if exists i :: 0 <= i < |order| && Matching(t, labels, order[i]) {
      var i :| 0 <= i < |order| && Matching(t, labels, order[i]) && r == t.cache[order[i]];
      assert t.cache[order[i]] == GetSilence(s.base, s.silences, order[i], issues).value;
      if r.silenced {
        assert OpenCovering(s, issues, labels, order[i]);
      }
    }
  }

  /** The example of `TestSilence`: an open issue 7 silences an alert whose labels include the silence's. */
  lemma SilenceExample(base: string)
    ensures var s := Refresh(SetSilence(NewSilencer(base), "7", map["Hostname" := "wiki-test.synyx.coffee"]), Ok([Issue(7, "")])).0;
      Silenced(s, ["7"], map["Hostname" := "wiki-test.synyx.coffee", "Foo" := "Bar"]).silenced
  {
    assert Decimal.FormatInt(7) == "7";
    assert Decimal.ParseDecimal("7") == Some(7);
    var s := Refresh(SetSilence(NewSilencer(base), "7", map["Hostname" := "wiki-test.synyx.coffee"]), Ok([Issue(7, "")])).0;
    assert LastWithId([Issue(7, "")], "7") == Issue(7, "");
    assert GetSilence(s.base, s.silences, "7", [Issue(7, "")]).Ok?;
    assert Matching(s, map["Hostname" := "wiki-test.synyx.coffee", "Foo" := "Bar"], "7");
  }

  /** An iteration order has exactly one entry per key. */
  lemma {:induction false} ListsCard(order: seq<string>, keys: set<string>)
    requires Lists(order, keys)
    ensures |order| == |keys|
  {
    if |order| == 0 {
      assert keys == {};
    } else {
      var rest, others := order[1..], keys - {order[0]};
      forall k | k in others ensures k in rest {
        var i :| 0 <= i < |order| && order[i] == k;
        assert order[1..][i - 1] == k;
      }
      forall i | 0 <= i < |rest| ensures rest[i] in others {
        assert rest[i] == order[i + 1];
      }
      assert Lists(rest, others);
      ListsCard(rest, others);
    }
  }

  /** `Silences`: the cached silences, one per cached id, in the map's iteration order `order`. */
  function Silences(s: Silencer, order: seq<string>): (r: seq<Silence>)
    requires Lists(order, s.cache.Keys)
    ensures |r| == |order| == |s.cache| && forall i :: 0 <= i < |order| ==> r[i] == s.cache[order[i]]
    ensures forall k :: k in s.cache ==> exists i :: 0 <= i < |r| && order[i] == k && r[i] == s.cache[k]
  {
    ListsCard(order, s.cache.Keys);
    seq(|order|, i requires 0 <= i < |order| => s.cache[order[i]])
  }
}

=== FILE: ruleengine.dfy ===
/**
 * Filter and downtime rules. A matcher is a compiled regular expression
 * from the configuration; the model keeps only the yes/no answer it gives
 * for a string, so the regular-expression engine stays opaque.
 */
module RuleEngine {
  import opened Wrappers
  import opened GoStrings

  datatype Matcher = Matcher(matches: string -> bool)

  /**
   * `ruleengine.Rule`. `labels` lists the rule's label matchers in one
   * iteration order of the Go map that holds them.
   */
  datatype Rule = Rule(
    description: seq<byte>,
    what: Option<Matcher>,
    when: Option<Matcher>,
    labels: seq<(string, Matcher)>)

  /** The zero `ruleengine.Rule{}`. */
  function EmptyRule(): Rule {
    Rule([], None, None, [])
  }

  /**
   * `connectors.Downtime`: a maintenance window reported by a connector.
   * Instants are nanoseconds since Go's zero Time.
   */
  datatype Downtime = Downtime(
    author: string,
    comment: string,
    startTime: int,
    endTime: int,
    matchers: seq<(string, Matcher)>)
}

=== FILE: sorting.dfy ===
/**
 * Sorting as the model needs it. `SortByKey` stands for Go's `sort.Slice`
 * with a `key(a) < key(b)` comparison: `sort.Slice` is not stable, so the
 * model commits to one admissible outcome (the stable one) and promises only
 * what every outcome has, namely a permutation ordered by key. `SortStrings`
 * is `slices.Sort` on strings, whose outcome is unique.
 */
module Sorting {

  ghost predicate SortedByKey<T>(s: seq<T>, key: T -> int) {
    forall i, j :: 0 <= i < j < |s| ==> key(s[i]) <= key(s[j])
  }

  function InsertByKey<T>(x: T, s: seq<T>, key: T -> int): (r: seq<T>)
    requires SortedByKey(s, key)
    ensures multiset(r) == multiset(s) + multiset{x}
    ensures |r| == |s| + 1
    ensures SortedByKey(r, key)
    ensures r[0] == x || (|s| > 0 && r[0] == s[0])
  {
    if |s| == 0 then [x]
    else if key(x) <= key(s[0]) then [x] + s
    else
      var rest := InsertByKey(x, s[1..], key);
      assert s == [s[0]] + s[1..];
      assert key(s[0]) <= key(rest[0]);
      [s[0]] + rest
  }

  /** A permutation of `s` ordered by `key`. */
  function SortByKey<T>(s: seq<T>, key: T -> int): (r: seq<T>)
    ensures multiset(r) == multiset(s)
    ensures |r| == |s|
    ensures SortedByKey(r, key)
  {
    if |s| == 0 then []
    else
      assert s == [s[0]] + s[1..];
      InsertByKey(s[0], SortByKey(s[1..], key), key)
  }

  /** Byte-wise string order, which is code point order on UTF-8 text. */
  predicate LexLe(a: string, b: string)
  {
    |a| == 0 || (|b| > 0 && (a[0] < b[0] || (a[0] == b[0] && LexLe(a[1..], b[1..]))))
  }

  lemma {:induction false} LexLeTotal(a: string, b: string)
    ensures LexLe(a, b) || LexLe(b, a)
  {
    if |a| > 0 && |b| > 0 && a[0] == b[0] {
      LexLeTotal(a[1..], b[1..]);
    }
  }

  lemma {:induction false} LexLeAntisymmetric(a: string, b: string)
    requires LexLe(a, b) && LexLe(b, a)
    ensures a == b
  {
    if |a| > 0 {
      LexLeAntisymmetric(a[1..], b[1..]);
      assert a == [a[0]] + a[1..];
      assert b == [b[0]] + b[1..];
    }
  }

  lemma {:induction false} LexLeTransitive(a: string, b: string, c: string)
    requires LexLe(a, b) && LexLe(b, c)
    ensures LexLe(a, c)
  {
    if |a| > 0 && a[0] == b[0] && b[0] == c[0] {
      LexLeTransitive(a[1..], b[1..], c[1..]);
    }
  }

  ghost predicate SortedStrings(s: seq<string>) {
    forall i, j :: 0 <= i < j < |s| ==> LexLe(s[i], s[j])
  }

  function InsertString(x: string, s: seq<string>): (r: seq<string>)
    requires SortedStrings(s)
    ensures multiset(r) == multiset(s) + multiset{x}
    ensures SortedStrings(r)
    ensures r[0] == x || (|s| > 0 && r[0] == s[0])
  {
    if |s| == 0 then [x]
    else if LexLe(x, s[0]) then
      assert forall k | 0 <= k < |s| :: LexLe(x, s[k]) by {
        forall k | 0 <= k < |s| ensures LexLe(x, s[k]) {
          if k > 0 { LexLeTransitive(x, s[0], s[k]); }
        }
      }
      [x] + s
    else
      LexLeTotal(x, s[0]);
      var rest := InsertString(x, s[1..]);
      assert s == [s[0]] + s[1..];
      assert LexLe(s[0], rest[0]);
      assert forall k | 0 <= k < |rest| :: LexLe(s[0], rest[k]) by {
        forall k | 0 <= k < |rest|
          ensures LexLe(s[0], rest[k])
        {
          if k > 0 { LexLeTransitive(s[0], rest[0], rest[k]); }
        }
      }
      [s[0]] + rest
  }

  /** `slices.Sort` on strings: the ascending permutation. */
  function SortStrings(s: seq<string>): (r: seq<string>)
    ensures multiset(r) == multiset(s)
    ensures SortedStrings(r)
  {
    if |s| == 0 then []
    else
      assert s == [s[0]] + s[1..];
      InsertString(s[0], SortStrings(s[1..]))
  }

  /** The head of an ascending sequence is at most any of its elements. */
  lemma HeadIsLeast(a: seq<string>, y: string)
    requires SortedStrings(a) && y in multiset(a)
    ensures LexLe(a[0], y)
  {
    var i :| 0 <= i < |a| && a[i] == y;
    if i == 0 { LexLeTotal(y, y); }
  }

  lemma TailMultiset<T>(a: seq<T>)
    requires |a| > 0
    ensures multiset(a[1..]) == multiset(a) - multiset{a[0]}
  {
    assert a == [a[0]] + a[1..];
  }

  /** Every element after the first sits one place earlier in the tail. */
  lemma TailIndex<T>(s: seq<T>)
    requires |s| > 0
    ensures forall k :: 0 < k < |s| ==> s[k] == s[1..][k - 1]
  {
  }

  /** A sequence is what comes before position `k`, the element there, and what follows. */
  lemma SplitAt<T>(t: seq<T>, k: nat)
    requires k < |t|
    ensures t == t[..k] + ([t[k]] + t[k + 1..])
  {
    assert t[..k] + ([t[k]] + t[k + 1..]) == t[..k] + [t[k]] + t[k + 1..];
  }

  /** A position holding an element of the sequence's multiset. */
  lemma PositionOf<T>(t: seq<T>, x: T) returns (k: nat)
    requires x in multiset(t)
    ensures k < |t| && t[k] == x
  {
    k :| 0 <= k < |t| && t[k] == x;
  }

  /** Taking the element at `k` out of a sequence takes one copy out of its multiset. */
  lemma RemoveAtMultiset<T>(t: seq<T>, k: nat)
    requires k < |t|
    ensures multiset(t[..k] + t[k + 1..]) == multiset(t) - multiset{t[k]}
  {
    assert t == t[..k] + [t[k]] + t[k + 1..];
    assert multiset(t) == multiset(t[..k]) + multiset{t[k]} + multiset(t[k + 1..]);
  }

  /** Two ascending arrangements of the same non-empty strings start alike. */
  lemma SameHead(a: seq<string>, b: seq<string>)
    requires SortedStrings(a) && SortedStrings(b)
    requires multiset(a) == multiset(b) && |a| > 0
    ensures |b| > 0 && a[0] == b[0]
  {
    assert |b| == |multiset(b)| == |a|;
    assert a[0] in multiset(a) && b[0] in multiset(b);
    HeadIsLeast(a, b[0]);
    HeadIsLeast(b, a[0]);
    LexLeAntisymmetric(a[0], b[0]);
  }

  lemma SameHeadSameTail<T>(a: seq<T>, b: seq<T>)
    requires |a| > 0 && |b| > 0 && a[0] == b[0] && a[1..] == b[1..]
    ensures a == b
  {
    assert a == [a[0]] + a[1..];
    assert b == [b[0]] + b[1..];
  }

  /** Two ascending arrangements of the same strings are the same sequence. */
  lemma {:induction false} SortedStringsUnique(a: seq<string>, b: seq<string>)
    requires SortedStrings(a) && SortedStrings(b)
    requires multiset(a) == multiset(b)
    ensures a == b
    decreases |a|
  {
    if |a| == 0 {
      assert |b| == |multiset(b)| == 0;
    } else {
      SameHead(a, b);
      TailMultiset(a);
      TailMultiset(b);
      SortedStringsUnique(a[1..], b[1..]);
      SameHeadSameTail(a, b);
    }
  }

  /** Sorting depends only on which strings there are, not on their order. */
  lemma SortStringsOrderIndependent(a: seq<string>, b: seq<string>)
    requires multiset(a) == multiset(b)
    ensures SortStrings(a) == SortStrings(b)
  {
    SortedStringsUnique(SortStrings(a), SortStrings(b));
  }
}

=== FILE: toggle_filtered.dfy ===
/**
 * `toggleFilteredStatus`, the browser code behind the "filtered alerts"
 * button: a click shows or hides the table of filtered alerts, labels the
 * button and remembers the choice in local storage; the code hooks itself
 * into every Turbo stream render so a re-rendered page gets the handler
 * again.
 *
 * The page is reduced to what this code reads and writes: whether the
 * button exists, whether the table carries the `hidden` class, the
 * button's caption, local storage, and how many click and document listeners
 * are registered. A Turbo stream render first runs the default action,
 * which may replace the button and table by fresh ones from the server,
 * and then each registered wrapper re-runs the initialisation.
 */
module ToggleFiltered {

  datatype Page = Page(
    buttonPresent: bool,
    hidden: bool,
    caption: string,
    storage: map<string, string>,
    clickListeners: nat,
    docListeners: nat)

  const StorageKey := "filteredAreShown"

  /** The caption the click handler gives the button: "Hide" while the table is shown. */
  function LabelFor(shown: bool): string {
    if shown then "Hide" else "Show"
  }

  /** `filteredAreShown.toString()`. */
  function BoolText(b: bool): string {
    if b then "true" else "false"
  }

  /** The button tells what a click would do. */
  predicate Consistent(p: Page) {
    p.caption == LabelFor(!p.hidden)
  }

  /** One click handler: flip the table, relabel the button, store the new visibility. */
  function ClickOnce(p: Page): (r: Page)
    ensures r.hidden == !p.hidden && Consistent(r)
    ensures r.storage == p.storage[StorageKey := BoolText(!r.hidden)]
    ensures r.clickListeners == p.clickListeners && r.docListeners == p.docListeners && r.buttonPresent == p.buttonPresent
  {
    var shown := p.hidden;
    p.(hidden := !shown, caption := LabelFor(shown), storage := p.storage[StorageKey := BoolText(shown)])
  }

  /** A click runs every registered click handler in turn. */
  function ClickTimes(p: Page, n: nat): (r: Page)
    ensures r.hidden == (if n % 2 == 0 then p.hidden else !p.hidden)
    ensures n > 0 ==> Consistent(r) && r.storage == p.storage[StorageKey := BoolText(!r.hidden)]
    ensures n == 0 ==> r == p
    ensures r.clickListeners == p.clickListeners && r.docListeners == p.docListeners && r.buttonPresent == p.buttonPresent
  {
    if n == 0 then p else ClickOnce(ClickTimes(p, n - 1))
  }

  /**
   * A click runs every registered handler: an even number of them cancel
   * out, an odd number toggle the table; the listeners stay as they are.
   */
  function Click(p: Page): (r: Page)
    ensures r.hidden == (if p.clickListeners % 2 == 0 then p.hidden else !p.hidden)
    ensures p.clickListeners > 0 ==> Consistent(r) && r.storage == p.storage[StorageKey := BoolText(!r.hidden)]
    ensures p.clickListeners == 0 ==> r == p
    ensures r.clickListeners == p.clickListeners && r.docListeners == p.docListeners
  {
    ClickTimes(p, p.clickListeners)
  }

  /** A click through exactly one handler shows a hidden table and hides a shown one, and persists that. */
  lemma SingleHandlerToggles(p: Page)
    requires p.clickListeners == 1
    ensures Click(p).hidden == !p.hidden && Consistent(Click(p))
    ensures Click(p).storage[StorageKey] == BoolText(p.hidden)
  {
  }

  /**
   * `toggleFilteredStatus` as written: without the button nothing happens;
   * otherwise one click listener and one document listener are added, and
   * a stored "true" un-hides the table and labels the button "Show".
   */
  function Init(p: Page): (r: Page)
    ensures !p.buttonPresent ==> r == p
    ensures p.buttonPresent ==> r.clickListeners == p.clickListeners + 1 && r.docListeners == p.docListeners + 1
    ensures p.buttonPresent && StorageKey in p.storage && p.storage[StorageKey] == "true" ==> !r.hidden && r.caption == "Show"
    ensures !(StorageKey in p.storage && p.storage[StorageKey] == "true") ==> r.hidden == p.hidden && r.caption == p.caption
    ensures r.storage == p.storage && r.buttonPresent == p.buttonPresent
  {
    if !p.buttonPresent then p
    else
      var q := p.(clickListeners := p.clickListeners + 1, docListeners := p.docListeners + 1);
      if StorageKey in p.storage && p.storage[StorageKey] == "true" then q.(hidden := false, caption := "Show") else q
  }

  /** `toggleFilteredStatus` as evidently intended: register each listener once, caption a shown table "Hide". */
  function InitIntended(p: Page): (r: Page)
    ensures !p.buttonPresent ==> r == p
    ensures p.buttonPresent ==> r.clickListeners == 1 && r.docListeners == 1
    ensures p.buttonPresent && StorageKey in p.storage && p.storage[StorageKey] == "true" ==> !r.hidden
    ensures p.buttonPresent && Consistent(p) ==> Consistent(r)
    ensures r.storage == p.storage && r.buttonPresent == p.buttonPresent
  {
    if !p.buttonPresent then p
    else
      var q := p.(clickListeners := 1, docListeners := 1);
      if StorageKey in p.storage && p.storage[StorageKey] == "true" then q.(hidden := false, caption := LabelFor(true)) else q
  }

  /** A stored "true" at start-up leaves a shown table whose button offers to show it. */
  lemma InitLabelWrong(p: Page)
    requires p.buttonPresent && p.storage == map[StorageKey := "true"]
    ensures !Init(p).hidden && !Consistent(Init(p))
    ensures !InitIntended(p).hidden && InitIntended(p).caption == "Hide"
  {
  }

  /** What a Turbo stream render does first: keep the page, or swap in fresh button and table. */
  datatype Default = Keep | Replace(buttonPresent: bool, hidden: bool, caption: string)

  function ApplyDefault(p: Page, d: Default): Page {
    match d
    case Keep => p
    case Replace(b, h, l) => p.(buttonPresent := b, hidden := h, caption := l, clickListeners := 0)
  }

  /** The steps of a render wrapped `k` times. */
  datatype Step = DefaultRender | Reinit

  /** Each wrapper calls the render it replaced and then re-initialises, so the default comes first. */
  function Wrapped(k: nat): (r: seq<Step>)
    ensures |r| == k + 1 && r[0] == DefaultRender
    ensures forall i :: 0 < i < |r| ==> r[i] == Reinit
  {
    if k == 0 then [DefaultRender] else Wrapped(k - 1) + [Reinit]
  }

  /** Run a sequence of render steps with the given initialisation. */
  function Run(p: Page, d: Default, steps: seq<Step>, intended: bool): Page
    decreases |steps|
  {
    if |steps| == 0 then p
    else
      var q := Run(p, d, steps[..|steps| - 1], intended);
      match steps[|steps| - 1]
      case DefaultRender => ApplyDefault(q, d)
      case Reinit => if intended then InitIntended(q) else Init(q)
  }

  /** A Turbo stream render: every registered document listener wrapped the render once. */
  function Render(p: Page, d: Default): Page {
    Run(p, d, Wrapped(p.docListeners), false)
  }

  /** A render with the intended initialisation. */
  function RenderIntended(p: Page, d: Default): Page {
    Run(p, d, Wrapped(p.docListeners), true)
  }

  /**
   * After the default, each registered document listener re-initialises
   * and adds a listener of each kind while the button is there.
   */
  lemma RenderListeners(p: Page, d: Default)
    ensures Render(p, d).buttonPresent == ApplyDefault(p, d).buttonPresent
    ensures ApplyDefault(p, d).buttonPresent ==>
      Render(p, d).clickListeners == ApplyDefault(p, d).clickListeners + p.docListeners
      && Render(p, d).docListeners == 2 * p.docListeners
    ensures !ApplyDefault(p, d).buttonPresent ==> Render(p, d) == ApplyDefault(p, d)
  {
    RunWrapped(p, d, p.docListeners);
  }

  /** With the intended initialisation one listener of each kind remains whenever the button is wrapped again. */
  lemma RenderIntendedListeners(p: Page, d: Default)
    ensures RenderIntended(p, d).buttonPresent == ApplyDefault(p, d).buttonPresent
    ensures ApplyDefault(p, d).buttonPresent && p.docListeners > 0 ==>
      RenderIntended(p, d).clickListeners == 1 && RenderIntended(p, d).docListeners == 1
    ensures !ApplyDefault(p, d).buttonPresent || p.docListeners == 0 ==> RenderIntended(p, d) == ApplyDefault(p, d)
  {
    RunWrappedIntended(p, d, p.docListeners);
  }

  /** `k` re-initialisations after the default add `k` listeners of each kind when the button is there. */
  lemma {:induction false} RunWrapped(p: Page, d: Default, k: nat)
    ensures var q := ApplyDefault(p, d); var r := Run(p, d, Wrapped(k), false);
      && r.buttonPresent == q.buttonPresent
      && (q.buttonPresent ==> r.clickListeners == q.clickListeners + k && r.docListeners == q.docListeners + k)
      && (!q.buttonPresent ==> r == q)
  {
    if k > 0 {
      RunWrapped(p, d, k - 1);
      assert Wrapped(k)[..k] == Wrapped(k - 1);
    }
  }

  /** As written, every render doubles the document listeners while the button is there. */
  lemma DocListenersDouble(p: Page, d: Default)
    requires ApplyDefault(p, d).buttonPresent
    ensures Render(p, d).docListeners == 2 * p.docListeners
    ensures d.Replace? ==> Render(p, d).clickListeners == p.docListeners
  {
    RunWrapped(p, d, p.docListeners);
  }

  /** With the intended initialisation a render leaves one listener of each kind. */
  lemma {:induction false} RunWrappedIntended(p: Page, d: Default, k: nat)
    ensures var q := ApplyDefault(p, d); var r := Run(p, d, Wrapped(k), true);
      && r.buttonPresent == q.buttonPresent
      && (q.buttonPresent && k > 0 ==> r.clickListeners == 1 && r.docListeners == 1)
      && (!q.buttonPresent || k == 0 ==> r == q)
  {
    if k > 0 {
      RunWrappedIntended(p, d, k - 1);
      assert Wrapped(k)[..k] == Wrapped(k - 1);
    }
  }

  /** A page loaded with the button, then rendered twice by streams that swap in a fresh button. */
  function AfterTwoRenders(p: Page, d: Default): Page {
    Render(Render(Init(p), d), d)
  }

  /** As written, after two such renders a click no longer changes the table. */
  lemma ClickDeadAfterTwoRenders(p: Page, hidden: bool, caption: string)
    requires p.buttonPresent && p.clickListeners == 0 && p.docListeners == 0
    ensures var q := AfterTwoRenders(p, Replace(true, hidden, caption));
      q.clickListeners == 2 && Click(q).hidden == q.hidden
  {
    var d := Replace(true, hidden, caption);
    var p1 := Init(p);
    DocListenersDouble(p1, d);
    DocListenersDouble(Render(p1, d), d);
  }

  /** With the intended initialisation, a click after any render still toggles the table. */
  lemma ClickWorksAfterRenders(p: Page, d: Default)
    requires p.buttonPresent && p.docListeners == 1 && p.clickListeners == 1
    requires ApplyDefault(p, d).buttonPresent
    ensures var q := RenderIntended(p, d);
      q.clickListeners == 1 && q.docListeners == 1 && Click(q).hidden == !q.hidden
  {
    RunWrappedIntended(p, d, 1);
  }
}

=== FILE: web_format.dfy ===
/**
 * `niceDuration`, the page's short rendering of a duration: whole days
 * above two days, whole hours above two hours, whole minutes above two
 * minutes, whole seconds for any positive duration, and Go's own
 * `Duration.String` otherwise. Durations are int nanoseconds in Go's
 * 64-bit range.
 */
module WebFormat {
  import opened Wrappers
  import GoTime
  import Decimal

  /** The unit `niceDuration` picks, with the amount `%.0f` rounds to. */
  datatype Nice =
    | Days(days: nat)
    | Hours(hours: nat)
    | Minutes(minutes: nat)
    | Seconds(seconds: nat)
    | Raw(d: int)

  /** The length of a unit in nanoseconds; `Raw` has none. */
  function UnitOf(n: Nice): nat {
    match n
    case Days(_) => GoTime.Day
    case Hours(_) => GoTime.Hour
    case Minutes(_) => GoTime.Minute
    case Seconds(_) => GoTime.Second
    case Raw(_) => 0
  }

  function AmountOf(n: Nice): nat {
    match n
    case Days(x) => x
    case Hours(x) => x
    case Minutes(x) => x
    case Seconds(x) => x
    case Raw(_) => 0
  }

  /**
   * The bucket of `d`, largest unit first. Each rounded amount lies within
   * half a unit of `d`. The amount is the exact nanosecond count rounded
   * half to even; for days, Go rounds the float64 `d.Hours()/24`, which
   * can differ within float64's precision of a half day.
   */
  function Classify(d: int): (n: Nice)
    ensures n.Days? <==> d > 2 * GoTime.Day
    ensures n.Hours? <==> 2 * GoTime.Hour < d <= 2 * GoTime.Day
    ensures n.Minutes? <==> 2 * GoTime.Minute < d <= 2 * GoTime.Hour
    ensures n.Seconds? <==> 0 < d <= 2 * GoTime.Minute
    ensures n.Raw? <==> d <= 0
    ensures n.Raw? ==> n.d == d
    ensures !n.Raw? ==> 2 * (d - AmountOf(n) * UnitOf(n)) <= UnitOf(n) && 2 * (AmountOf(n) * UnitOf(n) - d) <= UnitOf(n)
  {
    if d > 2 * GoTime.Day then Days(GoTime.RoundHalfEven(d, GoTime.Day))
    else if d > 2 * GoTime.Hour then Hours(GoTime.RoundHalfEven(d, GoTime.Hour))
    else if d > 2 * GoTime.Minute then Minutes(GoTime.RoundHalfEven(d, GoTime.Minute))
    else if d > 0 then Seconds(GoTime.RoundHalfEven(d, GoTime.Second))
    else Raw(d)
  }

  function Suffix(n: Nice): char {
    match n
    case Days(_) => 'd'
    case Hours(_) => 'h'
    case Minutes(_) => 'm'
    case Seconds(_) => 's'
    case Raw(_) => 's'
  }

  /** `niceDuration`. */
  function NiceDuration(d: int): (s: string)
    requires GoTime.MinDuration <= d <= GoTime.MaxDuration
    ensures d <= 0 ==> s == GoTime.DurationString(d)
    ensures d > 0 ==> |s| >= 2 && Decimal.AllDigits(s[..|s| - 1])
    ensures d > 0 ==> s[|s| - 1] == Suffix(Classify(d))
  {
    var n := Classify(d);
    if n.Raw? then GoTime.DurationString(d)
    else Decimal.FormatNat(AmountOf(n)) + [Suffix(n)]
  }

  /** Larger units need larger durations: the buckets follow the order of `d`. */
  lemma BucketsOrdered(d1: int, d2: int)
    requires d1 <= d2
    ensures Classify(d2).Raw? ==> Classify(d1).Raw?
    ensures Classify(d1).Days? ==> Classify(d2).Days?
    ensures Classify(d1).Hours? ==> Classify(d2).Hours? || Classify(d2).Days?
    ensures Classify(d1).Minutes? ==> !Classify(d2).Seconds? && !Classify(d2).Raw?
  {
  }

  /**
   * Reading the number back from a positive rendering gives an amount of the
   * rendered unit within half a unit of the duration: nothing but rounding is lost.
   */
  lemma NiceDurationReadsBack(d: int)
    requires 0 < d <= GoTime.MaxDuration
    ensures var s := NiceDuration(d);
      var n := Classify(d);
      && Decimal.ParseDecimal(s[..|s| - 1]) == Some(AmountOf(n) as int)
      && 2 * (d - AmountOf(n) * UnitOf(n)) <= UnitOf(n)
      && 2 * (AmountOf(n) * UnitOf(n) - d) <= UnitOf(n)
  {
    var n := Classify(d);
    var s := NiceDuration(d);
    assert s[..|s| - 1] == Decimal.FormatNat(AmountOf(n));
    Decimal.ParseFormat(AmountOf(n));
  }

  /** Three days render as "3d", ninety minutes as "90m" and two minutes as "120s". */
  lemma NiceDurationExamples()
    ensures NiceDuration(3 * GoTime.Day) == "3d"
    ensures NiceDuration(90 * GoTime.Minute) == "90m"
    ensures NiceDuration(2 * GoTime.Minute) == "120s"
  {
    ThreeDays();
    NinetyMinutes();
    TwoMinutes();
  }

  lemma ThreeDays()
    ensures NiceDuration(3 * GoTime.Day) == "3d"
  {
    assert Decimal.FormatNat(3) == "3";
  }

  lemma NinetyMinutes()
    ensures NiceDuration(90 * GoTime.Minute) == "90m"
  {
    assert Decimal.FormatNat(90) == Decimal.FormatNat(9) + "0";
  }

  lemma TwoMinutes()
    ensures NiceDuration(2 * GoTime.Minute) == "120s"
  {
    assert Decimal.FormatNat(12) == Decimal.FormatNat(1) + "2";
    assert Decimal.FormatNat(120) == Decimal.FormatNat(12) + "0";
  }
}

=== FILE: wizio.dfy ===
/**
 * The Wiz.io connector: each issue the GraphQL query returns becomes one
 * alert, named after the first rule that raised it. An issue without any
 * source rule makes the Go code index an empty slice, which panics. The
 * aggregator recovers that panic and the connector then delivers no result
 * at all for the cycle; the model's `Err` stands for that missing result,
 * not for an error return, which would become a collection-failure alert.
 */
module Wizio {
  import opened Wrappers
  import Connectors
  import Sorting

  datatype Rule = Rule(name: string, description: string)

  datatype Entity = Entity(name: string, kind: string, cluster: string, namespace: string)

  datatype Issue = Issue(
    entity: Entity,
    status: string,
    severity: string,
    createdAt: int,
    sourceRules: seq<Rule>)

  /** `mapState`: CRITICAL is critical, the four lesser severities warn, anything else is unknown. */
  function MapState(severity: string): (s: Connectors.State)
    ensures s == Connectors.Critical <==> severity == "CRITICAL"
    ensures s == Connectors.Warning <==> severity in {"HIGH", "MEDIUM", "LOW", "INFORMATION"}
    ensures s == Connectors.Unknown <==> severity !in {"CRITICAL", "HIGH", "MEDIUM", "LOW", "INFORMATION"}
  {
    match severity
    case "CRITICAL" => Connectors.Critical
    case "HIGH" => Connectors.Warning
    case "MEDIUM" => Connectors.Warning
    case "LOW" => Connectors.Warning
    case "INFORMATION" => Connectors.Warning
    case _ => Connectors.Unknown
  }

  /** The page size asked for: the configured one, 10 when unset. */
  function IssueCount(configured: int): (n: int)
    ensures configured != 0 ==> n == configured
    ensures configured == 0 ==> n == 10
  {
    if configured == 0 then 10 else configured
  }

  /** The alert for an issue that has at least one source rule. */
  function ToAlert(url: string, i: Issue): (a: Connectors.Alert)
    requires |i.sourceRules| > 0
    ensures a.labels.Keys == {"Entity", "EntityType", "Status", "Severity", "Source", "Cluster", "Namespace"}
    ensures a.labels["Severity"] == i.severity && a.labels["Source"] == url && a.labels["Entity"] == i.entity.name
    ensures a.state == MapState(i.severity) && a.start == i.createdAt
    ensures a.description == "Issue: " + i.sourceRules[0].name && a.details == i.sourceRules[0].description
    ensures a.links == [] && !a.silenceable
  {
    Connectors.Alert(
      map["Entity" := i.entity.name, "EntityType" := i.entity.kind, "Status" := i.status, "Severity" := i.severity,
          "Source" := url, "Cluster" := i.entity.cluster, "Namespace" := i.entity.namespace],
      i.createdAt, MapState(i.severity), "Issue: " + i.sourceRules[0].name, i.sourceRules[0].description, [], false)
  }

  /** `Collect` once the issues are fetched: one alert per issue, in order, or the panic. */
  function Collect(url: string, issues: seq<Issue>): (r: Result<seq<Connectors.Alert>, string>)
    ensures r.Err? <==> exists k :: 0 <= k < |issues| && |issues[k].sourceRules| == 0
    ensures r.Ok? ==> |r.value| == |issues|
    ensures r.Ok? ==> forall k :: 0 <= k < |issues| ==> r.value[k] == ToAlert(url, issues[k])
  {
    if |issues| == 0 then Ok([])
    else if |issues[0].sourceRules| == 0 then Err("index out of range [0] with length 0")
    else
      Sorting.TailIndex(issues);
      match Collect(url, issues[1..])
      case Err(e) => Err(e)
      case Ok(rest) => Ok([ToAlert(url, issues[0])] + rest)
  }

  /** Fetching two batches and collecting each is the same as collecting them together. */
  lemma CollectConcat(url: string, xs: seq<Issue>, ys: seq<Issue>)
    requires Collect(url, xs).Ok? && Collect(url, ys).Ok?
    ensures Collect(url, xs + ys) == Ok(Collect(url, xs).value + Collect(url, ys).value)
  {
    ConcatHasRules(xs, ys);
    assert Collect(url, xs + ys).Ok?;
    AlertsConcat(url, xs, ys, Collect(url, xs).value, Collect(url, ys).value, Collect(url, xs + ys).value);
  }

  lemma AlertsConcat(url: string, xs: seq<Issue>, ys: seq<Issue>, a: seq<Connectors.Alert>, b: seq<Connectors.Alert>, c: seq<Connectors.Alert>)
    requires |a| == |xs| && |b| == |ys| && |c| == |xs| + |ys|
    requires forall k :: 0 <= k < |xs| ==> |xs[k].sourceRules| > 0 && a[k] == ToAlert(url, xs[k])
    requires forall k :: 0 <= k < |ys| ==> |ys[k].sourceRules| > 0 && b[k] == ToAlert(url, ys[k])
    requires forall k :: 0 <= k < |xs + ys| ==> |(xs + ys)[k].sourceRules| > 0 && c[k] == ToAlert(url, (xs + ys)[k])
    ensures c == a + b
  {
    forall k | 0 <= k < |c|
      ensures c[k] == (a + b)[k]
    {
      if k < |xs| {
        assert (xs + ys)[k] == xs[k];
      } else {
        assert (xs + ys)[k] == ys[k - |xs|];
      }
    }
  }

  lemma ConcatHasRules(xs: seq<Issue>, ys: seq<Issue>)
    requires forall k :: 0 <= k < |xs| ==> |xs[k].sourceRules| > 0
    requires forall k :: 0 <= k < |ys| ==> |ys[k].sourceRules| > 0
    ensures forall k :: 0 <= k < |xs + ys| ==> |(xs + ys)[k].sourceRules| > 0
  {
    forall k | 0 <= k < |xs + ys|
      ensures |(xs + ys)[k].sourceRules| > 0
    {
      if k >= |xs| {
        assert (xs + ys)[k] == ys[k - |xs|];
      }
    }
  }

  /** One issue without rules spoils the whole answer. */
  lemma RulelessIssueFails(url: string, issues: seq<Issue>, i: Issue)
    requires |i.sourceRules| == 0
    ensures Collect(url, issues + [i]).Err?
  {
    assert (issues + [i])[|issues|] == i;
  }
}

=== FILE: wrappers.dfy ===
/** Option and Result, the failure-carrying datatypes the rest of the model returns. */
module Wrappers {

  datatype Option<+T> = None | Some(value: T) {
    /** The wrapped value, or `default` when there is none. */
    function GetOr(default: T): T {
      match this
      case Some(v) => v
      case None => default
    }
  }

  /** A computation that either produced a value or failed with an error. */
  datatype Result<+R, +E> = Ok(value: R) | Err(error: E) {
    predicate IsFailure() {
      Err?
    }

    function PropagateFailure<U>(): Result<U, E>
      requires Err?
    {
      Err(error)
    }

    function Extract(): R
      requires Ok?
    {
      value
    }
  }
}
